=== FILE: README.md ===
# polysignal — a Dafny model of the wallet-signal engine

polysignal answers one question about a Polymarket prediction market: do the profitable
wallets that hold it agree on an outcome? For one market it does the following:

1. It resolves the market.
2. It applies a status gate: closed, inactive or expired markets stop here.
3. It lists the holder wallets.
4. It enriches each wallet:
   - all-time PnL, taken from the leaderboard;
   - the wallet's open position in this market;
   - paged closed-position history, which gives the win rate, recency, a conviction ratio and recent realized PnL.
5. It scores each wallet with a product of clamped multipliers.
6. It builds a weighted outcome distribution, gives it a confidence value, and passes it through a first-match recommendation gate: BUY the top outcome, or STAY OUT with a reason.

This project models that decision core in Dafny 4.11. It covers:

- the engine helpers and the per-market and per-event flow (`src/polysignal/analysis.py`);
- the wallet weight (`src/polysignal/scoring.py`);
- the fetch client's bookkeeping (`src/polysignal/polymarket.py`):
  - the cache key;
  - per-host TTL;
  - cache hit and miss accounting, including a cached 404 stored as `None`;
  - request counters;
  - retry classification;
  - payload normalisation;
  - parameter clamps;
- reference parsing (`src/polysignal/utils.py`);
- the command line's argument normalisation and its PnL provenance cell (`src/polysignal/cli.py`).

Modules, one per concern:

| file | module | what |
|---|---|---|
| wrappers.dfy | `Wrappers` | `Option`, `Result` |
| json.dfy | `JsonValues` | decoded JSON values. A Python dict is an insertion-ordered list of pairs, and lookup takes the first match. Also `_safe_float` and `_as_list` |
| strs.dfy | `Strs` | `strip`, case mapping, `in`, `split`, code-point order on strings |
| seqs.dfy | `Seqs` | sums, maps, filters, counts, de-duplication, stable descending sort, permutation lemmas |
| scoring.py → scoring.dfy | `Scoring` | `to_days_since`, the multipliers, `wallet_weight` |
| polymarket.py → polymarket.dfy | `Polymarket` | the client state machine and the request builders |
| utils.py → utils.dfy | `RefParse` | `parse_jsonish_list`, `parse_polymarket_ref` |
| analysis.py → analysis.dfy | `Analysis` | holder decoding, the status gate, PnL pick, closed-history statistics, the position summary |
| analysis.py → decision.dfy | `Decision` | the weighted distribution, confidence, the recommendation gate |
| analysis.py → pipeline.dfy | `Pipeline` | closed-position paging, wallet enrichment, the single-market flow, `analyze_market` |
| cli.py → cli.dfy | `Cli` | `_normalize_url_args`, `_row_get`, `_format_pnl_cell` label choice, `_as_pct` |

Everything outside the process is a parameter, not code the model runs:

- **Network data.** The data API and gamma API answer through a function `fetch: Request -> Fetched`. A `Request` is the URL plus the parameter list. A 404 that the caller allows arrives as `Got(JNull)`, and a raised error arrives as `Raised(e)`.
- **Library calls.** `json.loads`, `urlparse`, `datetime.fromisoformat`, the clock (`now`), `math.exp` and `math.sqrt` are also parameters.
  - `exp` and `sqrt` are constrained only by the range facts the weight needs (`ExpLaws`, `SqrtLaws`). These facts appear as preconditions of the lemmas that use them, never as axioms.
- **Concurrency.** The `asyncio.gather` fan-out over wallets is a sequential map over the de-duplicated wallet list. Each wallet's outcome depends only on that wallet, and the drop counter is a multiset.
  - `DecideOrderFree` proves that wallet order changes no row, no drop count, no share and no gate verdict.

## Model

| member | source | states |
|---|---|---|
| JsonValues.SafeFloat | src/polysignal/analysis.py:33-55 | a number converts to itself; `None` and any non-numeric value give the default |
| JsonValues.AsList | src/polysignal/analysis.py:23-30 | `None` gives `[]`, a list is itself, any other value is wrapped in a one-element list |
| Analysis.AddressOf | src/polysignal/analysis.py:107-109 | the first `0x`+40-hex match in the text (leftmost occurrence), or the whole text when there is none |
| Analysis.HolderRows | src/polysignal/analysis.py:80-100 | a token list yields every entry's dict holders, entry by entry; a flat list, or a dict's `holders` member, yields its dict elements in order (`Objects`), and a value is a row iff it is such a dict element; a falsy or scalar payload gives no rows |
| Analysis.ExtractWallets | src/polysignal/analysis.py:72-117 | no address twice; exactly the addresses of the holder rows; listed in order of first occurrence; falsy payload gives `[]` |
| Analysis.WalletsComeFromRows | src/polysignal/analysis.py:102-117 | an address is returned iff some dict holder row's wallet field (first truthy of proxyWallet/wallet/user/address) yields it |
| Analysis.FromTimestamp | src/polysignal/analysis.py:144-148 | a numeric end time is usable exactly up to the last second of year 9999 |
| Analysis.EndInKeys | src/polysignal/analysis.py:134-149 | the first key (in the listed order) holding a usable end value wins; none usable gives nothing |
| Analysis.MarketEndTime | src/polysignal/analysis.py:134-149 | the first usable end key of the Gamma record decides, timestamp failure included; only when it has none does the market record decide the same way; neither having one gives no end time |
| Analysis.MarketStatusGate | src/polysignal/analysis.py:152-172 | `closed is True` wins over everything, then `active is False`, then an end strictly before `now` |
| Analysis.PickPnlAllTime | src/polysignal/analysis.py:175-198 | no row (or a non-dict) gives unknown PnL; PnL is known iff one of the listed keys is present and non-None; the value is that of the first present key in list order (`pnl` first), read as a float |
| Analysis.NormalizeTs | src/polysignal/analysis.py:201-210 | `None` gives nothing; numbers truncate and millisecond values above 10^10 are divided by 1000 |
| Analysis.SumRealizedPnl | src/polysignal/analysis.py:213-238 | `(None, 0)` exactly when no row carries a realized PnL; the count is the number of rows that do |
| Analysis.SumRealizedPnlOrderFree | src/polysignal/analysis.py:213-238 | the realized-PnL sum and count do not depend on row order |
| Analysis.WinShare | src/polysignal/analysis.py:256-263 | the win rate is absent iff no decisive PnL (abs > 1e-9); otherwise wins / decisive count, in [0, 1] |
| Analysis.WinsAreClearWins | src/polysignal/analysis.py:256-262 | counting wins among decisive rows equals counting rows with PnL > 1e-9 |
| Analysis.WinRateAndRecency | src/polysignal/analysis.py:241-266 | `wr_n` is the number of decisive dict rows; win rate absent iff there is none; days-since comes from the latest row timestamp |
| Analysis.NoDecisiveRows | src/polysignal/analysis.py:245-259 | no decisive count iff no dict row has a decisive realized PnL |
| Analysis.ConvictionRatio | src/polysignal/analysis.py:269-282 | absent iff no closed row has a positive `totalBought`; otherwise value over the upper median of the positive sizes |
| Analysis.UpperMedian | src/polysignal/analysis.py:278-279 | the element at index len/2 of the ascending sort: an element of the list with at most len/2 elements strictly below it and at least len/2+1 at or below it |
| Analysis.RowValue | src/polysignal/analysis.py:331-335 | `currentValue` when positive, else `max(0, totalBought)`; never negative |
| Analysis.SummaryLoopSpec | src/polysignal/analysis.py:325-342 | the loop's total is the sum of row values, its outcome the dominant one, and its best value belongs to the first row of maximal value |
| Analysis.PositionSummary | src/polysignal/analysis.py:303-342 | total is the non-negative sum of row values; outcome is that of the first strictly-largest row; no rows gives `(None, 0)` |
| Scoring.ToSeconds | src/polysignal/scoring.py:39-41 | timestamps above 10^10 are milliseconds and are floor-divided by 1000 |
| Scoring.ToDaysSince | src/polysignal/scoring.py:26-47 | `None` in, `None` out; absent iff converted time is not in (0, now+60]; otherwise non-negative elapsed days, 0 for a future time |
| Scoring.ProfitMultiplier | src/polysignal/scoring.py:58-59 | in [1, 5]; 1 for PnL ≤ 5000; 5 from 25000 up |
| Scoring.WinMultiplier | src/polysignal/scoring.py:61 | 1.0 for an unknown win rate; in [0.5, 1.5] for a win rate in [0, 1] |
| Scoring.RecencyMultiplier | src/polysignal/scoring.py:63-66 | 0.75 for unknown recency; otherwise in (0.5, 1] for non-negative days |
| Scoring.ConvictionMultiplier | src/polysignal/scoring.py:68 | in [0.5, 3]; 1.0 for an unknown ratio |
| Scoring.PositionValue | src/polysignal/scoring.py:70 | market value when positive, otherwise the position size |
| Scoring.ValueMultiplier | src/polysignal/scoring.py:71 | at least 1 |
| Scoring.WalletWeight | src/polysignal/scoring.py:54-74 | never negative |
| Scoring.WeightMonotoneInPnl | src/polysignal/scoring.py:54-74 | with the other features fixed, the weight never decreases as all-time PnL grows |
| Scoring.WeightPositive | src/polysignal/scoring.py:54-74 | with a non-negative (or unknown) win rate the weight is strictly positive |
| Polymarket.RetryableStatuses | src/polysignal/polymarket.py:16-19 | an HTTP status error is retried exactly for 429, 500, 502, 503, 504; no other 4xx is |
| Polymarket.RetryableErrors | src/polysignal/polymarket.py:16-19 | a failure is retried exactly when it is one of those statuses, a read or connect timeout, or a connect error |
| Polymarket.RecordHttp | src/polysignal/polymarket.py:31-34 | one more request, one more for this host and no other, time grows by `max(0, dt)` (a negative `dt` leaves it unchanged), and per-host counts still sum to the request count |
| Polymarket.BumpCounts | src/polysignal/polymarket.py:34 | bumping a host adds exactly one to it and to the total, leaving other hosts alone |
| Polymarket.BumpDistinct | src/polysignal/polymarket.py:34 | the per-host table never lists a host twice |
| Polymarket.ParamPairsContents | src/polysignal/polymarket.py:83-90 | a pair is in the encoded list iff its key maps to that text, or to a list holding it; `None` values contribute nothing |
| Polymarket.SortPairs | src/polysignal/polymarket.py:91 | the sorted pairs are a permutation of the input, in ascending order |
| Polymarket.SortedPairsUnique | src/polysignal/polymarket.py:91 | two sorted permutations of the same pairs are equal |
| Polymarket.QuotePlus | src/polysignal/polymarket.py:92 | an encoded key or value never contains `&` or `=` |
| Polymarket.CacheKey | src/polysignal/polymarket.py:80-93 | no params gives exactly `GET:` + url; every key starts with `GET:` + url |
| Polymarket.CacheKeyOrderIndependent | src/polysignal/polymarket.py:80-93 | two param lists with the same entries in any order give the same key |
| Polymarket.CacheKeyIgnoresNone | src/polysignal/polymarket.py:86-87 | adding a `None`-valued param to a non-empty list does not change the key |
| Polymarket.TtlForUrl | src/polysignal/polymarket.py:95-103 | gamma host → gamma TTL, data host → data TTL, any other host → the smaller of the two, which is no expiry exactly when either TTL is ≤ 0; a TTL ≤ 0 means no expiry |
| Polymarket.CacheGet | src/polysignal/polymarket.py:105-113 | caching off: a miss with nothing counted; otherwise hit iff the key is stored (even as `None`) and exactly one of hits/misses goes up |
| Polymarket.CacheSet | src/polysignal/polymarket.py:115-128 | caching off changes nothing; otherwise the key maps to the value with the host's expiry |
| Polymarket.GetJson | src/polysignal/polymarket.py:129-159 | a hit returns the stored value with no request recorded; a miss records one request and then: a transport failure is that error; an allowed 404 is stored as `None` and returned; another non-2xx status is `HttpStatus(status)`; a 2xx body that is not JSON is `InvalidJson`; a JSON body is returned and, with the cache on, stored under its key with the host's TTL; an error leaves the cache unchanged; counters stay consistent |
| Polymarket.LeaderboardRowFromPayload | src/polysignal/polymarket.py:293-314 | falsy payload gives none; a list gives its first element when that is a dict; a dict gives `data[0]` when `data` is a non-empty list starting with a dict and otherwise itself; any other value gives none |
| Polymarket.GammaMarketFromPayload | src/polysignal/polymarket.py:161-174 | always a dict: the dict itself, the first element of a list of dicts, or `{}` |
| Polymarket.GammaMarket | src/polysignal/polymarket.py:161-174 | a failed read is that error; any answer is the record `_normalize_gamma_market` makes of it (`GammaMarketFromPayload`) |
| Polymarket.MarketBySlug | src/polysignal/polymarket.py:176-189 | a failed read is that error; a dict answer from the slug endpoint is returned as is; otherwise the list endpoint is read by slug, and a dict or a list headed by a dict gives its record while anything else is a ValueError; any success is a dict |
| Polymarket.EventBySlug | src/polysignal/polymarket.py:191-210 | a failed read is that error; a dict, or a list headed by a dict, from the slug endpoint gives its record; otherwise the list endpoint is read by slug, with the same record-or-ValueError rule; any success is a dict |
| Polymarket.HoldersLimit | src/polysignal/polymarket.py:231 | holders `limit` is clamped to [1, 20] and unchanged inside it |
| Polymarket.HoldersRequest | src/polysignal/polymarket.py:224-234 | the `/holders` request names the market, `limit` clamped to [1, 20] and `minBalance` at least 0, each unchanged when already in range |
| Polymarket.PositionsLimit | src/polysignal/polymarket.py:257 | positions `limit` is clamped to [1, 500] |
| Polymarket.PositionsRequest | src/polysignal/polymarket.py:253-258 | the `/positions` request names the user, the market and `limit` clamped to [1, 500], unchanged when in range |
| Polymarket.PositionsForUserMarket | src/polysignal/polymarket.py:236-262 | an empty user is an error; otherwise the clamped `/positions` request is made |
| Polymarket.ClosedLimit | src/polysignal/polymarket.py:283 | closed-positions `limit` (and the closed-history page size) is clamped to [1, 50] |
| Polymarket.NonNegative | src/polysignal/polymarket.py:284 | `offset` (like `minBalance`) is clamped at 0 and unchanged when non-negative |
| Polymarket.ClosedPositionsRequest | src/polysignal/polymarket.py:280-287 | the `/closed-positions` request carries `limit` clamped to [1, 50], `offset` at least 0 (each unchanged when in range) and newest-first ordering |
| Polymarket.ClosedPositionsRecent | src/polysignal/polymarket.py:264-288 | an empty user is an error; otherwise the `/closed-positions` request is made, with the caller's own limit and offset whenever they are in range |
| Polymarket.LeaderboardUser | src/polysignal/polymarket.py:316-339 | the v1 leaderboard is read first and a failure there is that error; with no v1 row the legacy endpoint is read, its failure is that error and its answer is decoded by the same row rule; a found row is a dict |
| RefParse.SingleToDoubleQuotes | src/polysignal/utils.py:38 | every single quote becomes a double quote and nothing else changes |
| RefParse.ParseJsonishList | src/polysignal/utils.py:9-45 | a list is returned unchanged; `None`, non-strings and blank strings give `None`; when the stripped text is not JSON, the result is the list parsed from its single-to-double-quoted form if it is bracketed, and `None` otherwise |
| RefParse.PrefixKind | src/polysignal/utils.py:70-73 | the matched prefix is a prefix of the lower-cased text; no match means none of the three prefixes starts it |
| RefParse.ParsePolymarketRef | src/polysignal/utils.py:48-101 | blank input is an error; prefixes match case-insensitively and keep the original-case stripped rest; a polymarket.com URL gives what its non-empty path pieces name, or the whole text as a market; other URLs and raw text are markets |
| RefParse.PathSegments | src/polysignal/utils.py:79-83 | stripping the slashes first changes nothing: the segments are exactly the non-empty pieces of the path split on `/`, in order |
| RefParse.UrlRef | src/polysignal/utils.py:85-95 | `market/<slug>` and `event/<slug>` (first segment in any case) give that kind and slug, a single segment gives a category, anything else gives nothing |
| RefParse.SlugOnly | src/polysignal/utils.py:105-107 | fails iff the reference is blank, otherwise the slug of `parse_polymarket_ref` |
| RefParse.RenderRoundTrip | src/polysignal/utils.py:69-73 | parsing `kind:` + slug gives back that kind and slug |
| RefParse.EventUrl | src/polysignal/utils.py:76-91 | a polymarket.com URL with path `/event/<s>` parses to event `<s>` |
| Decision.FindKey | src/polysignal/analysis.py:455 | finds the position of an outcome in the insertion-ordered bucket list, or proves it absent |
| Decision.BucketsSpec | src/polysignal/analysis.py:445-456 | each outcome's bucket holds exactly the sum of its counted weights, and the buckets sum to the total counted weight |
| Decision.DistributionSpec | src/polysignal/analysis.py:445-459 | empty iff no row counts; shares are each outcome's weight over the total; ordered non-increasing; summing to 1; equal shares listed in the order their outcomes first counted (dict insertion order kept by the stable sort) |
| Decision.DistributionTieOrder | src/polysignal/analysis.py:446-459 | of two outcomes with equal share, the one whose first counted row comes earlier is listed first |
| Decision.BucketsFirstSeenOrder | src/polysignal/analysis.py:446-456 | the dict holds exactly the outcomes seen so far, each at the position of its first counted row, in order of first appearance |
| Decision.FirstCounting | src/polysignal/analysis.py:448-455 | the position of the first row that counts towards an outcome (positive weight, that outcome), or the row count when none does |
| Decision.PositiveDistribution | src/polysignal/analysis.py:457-459 | with positive total weight the shares tabulate, are sorted and sum to 1 |
| Decision.SharesSortedAndSum | src/polysignal/analysis.py:459 | dividing by the total keeps the order and divides the sum |
| Decision.CountedIffPositiveTotal | src/polysignal/analysis.py:447-457 | the total is positive iff some row has positive weight and a non-empty outcome |
| Decision.DistributionOrderFree | src/polysignal/analysis.py:445-459 | the share entries do not depend on row order |
| Decision.Confidence | src/polysignal/analysis.py:462-471 | in [0, 10]; 0 when empty; 10 for one outcome; 0 when the top does not lead the second |
| Decision.ConfidenceOfDistribution | src/polysignal/analysis.py:462-471 | on a distribution, ten times the (non-negative) lead of the top share over the second, capped at 10, and positive iff the top strictly leads |
| Decision.TopWalletShare | src/polysignal/analysis.py:491-495 | in [0, 1]; the largest single wallet's share of the non-negative total |
| Decision.GateRecommendation | src/polysignal/analysis.py:474-509 | first match: no qualified wallets, too few wallets, whale dominance, no consensus; BUY of the top outcome iff none fires |
| Pipeline.ClosedPages | src/polysignal/analysis.py:349-362 | paging only appends dict rows to what was collected; a failing page read while under the quota fails the loop with that error; an empty page stops with what was collected, a short page stops with it appended |
| Pipeline.PagesReadGiveOk | src/polysignal/analysis.py:349-362 | when every page from the start page on reads without error, paging succeeds |
| Pipeline.FetchClosed | src/polysignal/analysis.py:345-363 | at most `max_closed` rows, all dicts; a failing first page is an error; when every page reads without error the result is a success |
| Pipeline.ClosedPagesReadsPages | src/polysignal/analysis.py:349-363 | what paging adds is consecutive pages from the start page, each read without error and all but the last full-sized, and paging stopped only with the quota met or after a page that was not full (empty, not a list, or short) |
| Pipeline.FetchClosedIsPagePrefix | src/polysignal/analysis.py:345-363 | the result is a prefix, cut at `max_closed`, of consecutive pages read without error from offset 0, and reading stopped only with the quota met or after a page that was not full |
| Pipeline.FullPagesFillQuota | src/polysignal/analysis.py:349-363 | when every page is full the result has exactly `max_closed` rows |
| Pipeline.EnrichWallet | src/polysignal/analysis.py:366-442 | each drop reason holds exactly when every earlier filter passed and its own test fails; a kept row carries the position's outcome and value, the win rate, recency, conviction and recent PnL of the scanned closed history and the weight of those features, and is `LB` iff its PnL is known, with PnL 0 when unknown |
| Pipeline.ThresholdOnlyFilters | src/polysignal/analysis.py:383-389 | lowering the minimum profit never changes a kept wallet's row |
| Pipeline.NoPositionNoRow | src/polysignal/analysis.py:397-401 | a wallet with no position rows in the market is dropped |
| Pipeline.KeptPlusDropped | src/polysignal/analysis.py:606-624 | every wallet gives exactly one row or one drop count |
| Pipeline.KeptRowsMembership | src/polysignal/analysis.py:624 | a row is kept iff some wallet's enrichment kept it |
| Pipeline.EnrichOrderFree | src/polysignal/analysis.py:604-624 | the kept rows (as a multiset) and the drop counts do not depend on wallet order |
| Pipeline.MarketOutcomes | src/polysignal/analysis.py:290-292 | the decoded outcome list, each element as text; an undecodable list gives `[]` |
| Pipeline.MarketProbs | src/polysignal/analysis.py:295-300 | prices are divided by 100 exactly when one exceeds 1.5 |
| Pipeline.PercentPricesBecomeProbabilities | src/polysignal/analysis.py:295-300 | percentages in [0, 100] come out as probabilities in [0, 1] |
| Pipeline.ResolveMarketIfNeeded | src/polysignal/analysis.py:512-533 | a market with a condition id is unchanged; otherwise fetched fields fill in only keys the market lacks |
| Pipeline.VerdictOf | src/polysignal/analysis.py:627-635 | the distribution is the weighted one over the rows and, when their total weight is positive, tabulates their outcome shares; the confidence is its confidence; BUY iff every gate passes |
| Pipeline.DecideTieOrder | src/polysignal/analysis.py:624-627 | the weight sort is stable: rows of each weight keep the order of the kept rows (that is, of the wallets); equal shares in the distribution keep the order in which their outcomes first counted in the sorted rows |
| Seqs.SortDescStable | src/polysignal/analysis.py:625 | for every key value, the elements with that key leave the descending sort in the order they entered |
| Seqs.SortDescKeepsTieOrder | src/polysignal/analysis.py:459 | equal-key elements in increasing rank before the sort are still in increasing rank after it |
| Pipeline.Decide | src/polysignal/analysis.py:594-635 | rows sorted by weight and exactly the kept rows; rows plus drops account for every wallet (plus one for no holders); the distribution is the weighted one over the rows, tabulating the rows' outcome shares when their total weight is positive; the confidence is that distribution's; BUY iff the rows are non-empty and numerous enough, the top wallet is below the whale share and the top share reaches consensus |
| Pipeline.NoHoldersKeyIsNotADropReason | src/polysignal/analysis.py:595-596 | `no_holders_returned` is never a per-wallet reason |
| Pipeline.AnalyzeSingleMarket | src/polysignal/analysis.py:536-660 | a missing condition id gives STAY OUT with no rows; a failed Gamma read is that fetch error and a failed end-time conversion a value error; the condition-id and status-gate exits each give exactly the STAY OUT report with no rows, zero confidence and that exit's status, the first with only the market's question and slug, the second with the full market block; otherwise the report is exactly the holders report for the market's Gamma details, sorted, bounded and gate-consistent |
| Pipeline.HoldersReport | src/polysignal/analysis.py:591-660 | the holders path reports a verdict with rows sorted, counts consistent and BUY only past every gate |
| Pipeline.HoldersReportDecides | src/polysignal/analysis.py:591-660 | a failed holders read is that fetch error; otherwise the report carries `Decide`'s rows, verdict, distribution, confidence and drop counts over the extracted wallets, so its distribution is the weighted one over its rows and it says BUY iff every gate passes |
| Pipeline.StatusGateShortCircuit | src/polysignal/analysis.py:568-591 | when the condition id is missing or the status gate fires, the report is undecided and the data API is never consulted: any data answers give the same report |
| Pipeline.TopWalletShareOrderFree | src/polysignal/analysis.py:491-495 | the top wallet share does not depend on row order |
| Pipeline.DecideOrderFree | src/polysignal/analysis.py:604-635 | reordering the wallets changes no kept row, drop count, share entry, top share, gate tag or BUY/STAY OUT |
| Pipeline.Choices | src/polysignal/analysis.py:755-757 | the selection list is built iff every market is a dict, one choice per market |
| Pipeline.AnalyzeEach | src/polysignal/analysis.py:761-777 | analysing every market succeeds iff each single analysis does, one result per market |
| Pipeline.AnalyzeEvent | src/polysignal/analysis.py:740-804 | no markets is an error; several markets without index or `all` give the event's title, slug and id with `Choices` of its markets (an error if one is not a dict); `all` returns each market's own single analysis, in order; an out-of-range index is that index error; otherwise the chosen market is analysed |
| Pipeline.AnalyzeMarket | src/polysignal/analysis.py:686-738 | a blank reference is an error; a market reference is read by slug and analysed as one market; any other reference is read as an event and handed to the event analysis; a read failure or missing record is an error |
| Cli.NormalizeUrlArgs | src/polysignal/cli.py:29-39 | no args is an error; succeeds iff one argument remains after dropping a leading case-insensitive `analyze`, and returns it |
| Cli.AnalyzeWordIsOptional | src/polysignal/cli.py:33-39 | `analyze <url>` and `<url>` normalise to the same url |
| Cli.FirstPresentSpec | src/polysignal/cli.py:136-143 | the first listed key present with a non-None value wins; none such gives nothing |
| Cli.RowGet | src/polysignal/cli.py:134-150 | top level first, then the `features` dict, in key order; otherwise the default |
| Cli.TopLevelWins | src/polysignal/cli.py:135-138 | a present top-level key is returned whatever `features` holds |
| Cli.FormatPnlCell | src/polysignal/cli.py:160-203 | `[LB]` iff debug and source LB; `[REC]` iff source REC/UNK with a recent PnL over n > 0; unknown source or missing PnL gives `—` |
| Cli.NoLeaderboardLabelOutsideDebug | src/polysignal/cli.py:175-177 | non-debug output never carries `[LB]` |
| Cli.RecentNeverBare | src/polysignal/cli.py:183-195 | a REC/UNK source gives either `—` or a `[REC]` cell |
| Cli.EngineRowCell | src/polysignal/cli.py:160-203 | for a row the engine emits: LB shows all-time PnL (tagged only in debug); UNK shows `[REC]` recent PnL iff it exists over n > 0, else `—` |
| Cli.AsPct | src/polysignal/cli.py:42-45 | `None` gives the blank cell, and only `None` does; otherwise the percentage of the value |

## Left out

- HTTP transport, `resp.json()`, `aclose`, tenacity's retry loop and backoff timing: foreign calls. Only the status-code retry classification is modelled.
- asyncio `Semaphore`/`gather`: replaced by a sequential map over the wallets, with order independence proved.
- diskcache internals, expiry by clock, `clear_cache`, `_make_pm_client`: the cache is a map with an expiry tag but no clock.
- `RequestStats.snapshot` and elapsed time: wall-clock reads.
- `get_markets`: not called by the analysed flow.
- `json.loads`, `urlparse`, `datetime.fromisoformat`, `math.exp`, `math.sqrt`: parameters with only the range facts the proofs need.
- `_parse_iso_dt` is the `parseIso` parameter.
- Floating-point rounding: all arithmetic is on exact reals.
- Analysis.NormalizeTs: Python's `int(ts)` also parses integer text such as `"1700000000"` (float text such as `"1.5"` raises and gives `None`); the model gives no timestamp for any string, since `int()` on text is a foreign call.
- Analysis.MarketStatusGate: `parseIso` and the clock yield whole epoch seconds, while the source compares timezone-aware datetimes with microseconds; an end time within the same second as `now` may compare differently.
- JsonValues.SafeFloat: numeric text inside strings (`"12.5"`) is not parsed and gives the default, because Python's `float()` on text is a foreign call.
- Strs.Lower: `str.lower()`/`str.upper()` are modelled on ASCII letters only; other characters are unchanged.
- JsonValues.PyStr: `str()` of a non-string JSON value is only known to be non-empty; Python's exact rendering is not modelled.
- Pipeline.ResolveMarketIfNeeded: the source's merged dict lists the fetched keys first, while the model lists the market's pairs first so that its values win a lookup; only lookups, not key order, are stated.
- Pipeline.DecideOrderFree: when two outcomes tie for the top share, which of them is listed first (and therefore bought) follows the order the wallets were enriched in; the lemma states that the top share and verdict kind are order-free, not the top outcome's name.
- Polymarket.PositionsRequest: the optional `size_threshold` argument (sent as `sizeThreshold` when positive) is not modelled; the only caller, the per-wallet enrichment, never passes it, so the request always carries just user, market and limit.
- Decision.GateRecommendation: the gate message texts with `{:.0%}` formatting are replaced by tags carrying the numbers.
- Cli.FormatPnlCell: the `{:,.0f}` number formatting and the `" [LB]"`/`" [REC]"` suffix text are replaced by the value plus a label tag.
- Cli.RowGet: rows that are objects read through `getattr` are not modelled; only dict rows are.
- Cli.AsPct: the `{:.2f}%` rendering is replaced by the percentage value.
- The `enrich_error` and `filtered_out` drop reasons: every enrichment step is total in the model and always names its drop reason, so an exception escaping `_enrich_wallet_for_market` (for example a float overflow) is not modelled.
- `request_stats` in reports, `_format_reliability`, `_print_*`, `main`, and the web entry points: presentation.

=== FILE: analysis.dfy ===
/**
 * The per-wallet and per-market helpers of `analysis.py`: decoding the holders payload
 * into unique wallet addresses, the market status gate, the PnL pickers, the statistics
 * of a wallet's closed history, and the summary of its open position in one market.
 */
module Analysis {
  import opened Wrappers
  import opened JsonValues
  import opened Seqs
  import opened Scoring

  // ---------------------------------------------------------------------------
  // Wallet extraction
  // ---------------------------------------------------------------------------

  predicate IsHexDigit(c: char) {
    ('0' <= c <= '9') || ('a' <= c <= 'f') || ('A' <= c <= 'F')
  }

  /** Length of a wallet address: `0x` and 40 hexadecimal digits. */
  const WalletLength: nat := 42

  /** `0x[a-fA-F0-9]{40}` matches `s` at offset `i`. */
  predicate WalletAt(s: string, i: int) {
    0 <= i && i + WalletLength <= |s| && s[i] == '0' && s[i + 1] == 'x'
    && forall k :: i + 2 <= k < i + WalletLength ==> IsHexDigit(s[k])
  }

  /** The leftmost match at or after `from` (`_WALLET_RE.search`). */
  function WalletSearch(s: string, from: nat): (r: Option<nat>)
    ensures r.Some? ==> from <= r.value && WalletAt(s, r.value) && forall j :: from <= j < r.value ==> !WalletAt(s, j)
    ensures r.None? ==> forall j :: from <= j ==> !WalletAt(s, j)
    decreases |s| - from
  {
    if from + WalletLength > |s| then None
    else if WalletAt(s, from) then Some(from)
    else WalletSearch(s, from + 1)
  }

  /** `m.group(0) if m else s`: the leftmost wallet address inside `s`, or `s` itself. */
  function AddressOf(s: string): (a: string)
    ensures (forall i :: !WalletAt(s, i)) ==> a == s
    ensures forall i :: WalletAt(s, i) && (forall j :: 0 <= j < i ==> !WalletAt(s, j)) ==> a == s[i..i + WalletLength]
  {
    match WalletSearch(s, 0)
    case Some(i) => s[i..i + WalletLength]
    case None => s
  }

  /** The holder dicts under one token entry (none for a non-dict entry). */
  function TokenHolders(entry: Json): seq<Json> {
    if entry.JObj? then Objects(AsList(Get(entry, "holders"))) else []
  }

  /**
   * The holder rows of a `/holders` payload: a list of token entries (recognised by a
   * `holders` key in the first element), a flat list of holder dicts, or a dict with a
   * `holders` member.
   */
  function HolderRows(payload: Json): (rows: seq<Json>)
    ensures forall i :: 0 <= i < |rows| ==> rows[i].JObj?
    ensures !Truthy(payload) ==> rows == []
    ensures payload.JArr? && Truthy(payload) && payload.items[0].JObj? && Has(payload.items[0], "holders") ==>
              rows == FlatMap(TokenHolders, payload.items)
    ensures payload.JArr? && Truthy(payload) && !(payload.items[0].JObj? && Has(payload.items[0], "holders")) ==>
              rows == Objects(payload.items) && forall h :: h in rows <==> h in payload.items && h.JObj?
    ensures payload.JObj? && Truthy(payload) ==>
              rows == Objects(AsList(Get(payload, "holders")))
              && forall h :: h in rows <==> h in AsList(Get(payload, "holders")) && h.JObj?
    ensures !payload.JArr? && !payload.JObj? ==> rows == []
  {
    if !Truthy(payload) then []
    else match payload
      case JArr(items) =>
        if items[0].JObj? && Has(items[0], "holders") then FlatMapObjects(items) else Objects(items)
      case JObj(_) => Objects(AsList(Get(payload, "holders")))
      case _ => []
  }

  /** `TokenHolders` over every entry, in order. */
  function FlatMapObjects(entries: seq<Json>): (rows: seq<Json>)
    ensures forall i :: 0 <= i < |rows| ==> rows[i].JObj?
    ensures rows == FlatMap(TokenHolders, entries)
  {
    if |entries| == 0 then []
    else FlatMapObjects(entries[..|entries| - 1]) + TokenHolders(entries[|entries| - 1])
  }

  /** `h.get("proxyWallet") or h.get("wallet") or h.get("user") or h.get("address")` */
  function WalletField(h: Json): Json {
    Or(Or(Or(Get(h, "proxyWallet"), Get(h, "wallet")), Get(h, "user")), Get(h, "address"))
  }

  /** The address a holder row contributes: none when its wallet field is falsy. */
  function RowAddress(h: Json): seq<string> {
    var w := WalletField(h);
    if Truthy(w) then [AddressOf(PyStr(w))] else []
  }

  /** `addrs`: every row's address, in row order, duplicates included. */
  function RawAddresses(payload: Json): seq<string> {
    FlatMap(RowAddress, HolderRows(payload))
  }

  /**
   * `_extract_wallets_from_holders(payload)`: the addresses of the holder rows, each
   * once, in the order they are first seen.
   */
  function ExtractWallets(payload: Json): (wallets: seq<string>)
    ensures !Truthy(payload) ==> wallets == []
    ensures NoDup(wallets)
    ensures forall a :: a in wallets <==> a in RawAddresses(payload)
    ensures forall i, j :: 0 <= i < j < |wallets| ==>
              FirstIndex(RawAddresses(payload), wallets[i]) < FirstIndex(RawAddresses(payload), wallets[j])
  {
    var raw := RawAddresses(payload);
    var r := Dedup(raw);
    ListsDistinctMembers(raw, r);
    assert !Truthy(payload) ==> raw == [];
    r
  }

  /** An address appears in the wallet list exactly when some holder row carries it. */
  lemma {:induction false} WalletsComeFromRows(payload: Json, a: string)
    ensures a in ExtractWallets(payload) <==>
            exists i :: 0 <= i < |HolderRows(payload)| && RowAddress(HolderRows(payload)[i]) == [a]
  {
    var rows := HolderRows(payload);
    FlatMapMembership(RowAddress, rows, a);
    forall i | 0 <= i < |rows|
      ensures a in RowAddress(rows[i]) <==> RowAddress(rows[i]) == [a]
    {
    }
  }

  // ---------------------------------------------------------------------------
  // Market status gate
  // ---------------------------------------------------------------------------

  /** The end-time keys, in the order they are tried. */
  const EndKeys: seq<string> := ["endDate", "endDateIso", "closedTime", "closeTime", "resolvedTime"]

  /** The largest second `datetime.fromtimestamp` accepts: 9999-12-31T23:59:59Z. */
  const MaxTimestamp: int := 253402300799

  /** `datetime.fromtimestamp(t, tz=timezone.utc)` as epoch seconds; later than year 9999 raises. */
  function FromTimestamp(t: int): (r: Result<int, string>)
    ensures r.Ok? <==> t <= MaxTimestamp
    ensures r.Ok? ==> r.value == t
  {
    if t > MaxTimestamp then Err("year is out of range") else Ok(t)
  }

  /** A value the end-time search accepts: text `parseIso` understands, or a positive number. */
  predicate UsableEnd(v: Json, parseIso: string -> Option<int>) {
    (v.JStr? && parseIso(v.s).Some?) || (PyNum(v).Some? && PyNum(v).value > 0.0)
  }

  /** The end time a usable value denotes (numbers may be in milliseconds). */
  function EndValue(v: Json, parseIso: string -> Option<int>): Result<int, string>
    requires UsableEnd(v, parseIso)
  {
    if v.JStr? then Ok(parseIso(v.s).value)
    else FromTimestamp(ToSeconds(Trunc(PyNum(v).value)))
  }

  /** The first of `keys` in `src` holding a usable value, and what it denotes. */
  function EndInKeys(src: Json, keys: seq<string>, parseIso: string -> Option<int>): (r: Option<Result<int, string>>)
    ensures r.None? <==> forall i :: 0 <= i < |keys| ==> !UsableEnd(Get(src, keys[i]), parseIso)
    ensures r.Some? ==> exists i :: (0 <= i < |keys| && UsableEnd(Get(src, keys[i]), parseIso)
              && r.value == EndValue(Get(src, keys[i]), parseIso)
              && forall j :: 0 <= j < i ==> !UsableEnd(Get(src, keys[j]), parseIso))
  {
    if |keys| == 0 then None
    else
      var v := Get(src, keys[0]);
      if UsableEnd(v, parseIso) then
        Some(EndValue(v, parseIso))
      else
        var rest := EndInKeys(src, keys[1..], parseIso);
        assert forall i :: 1 <= i < |keys| ==> keys[i] == keys[1..][i - 1];
        rest
  }

  /** The end time found in one source, which is skipped when it is not a dict. */
  function EndInSource(src: Json, parseIso: string -> Option<int>): Option<Result<int, string>> {
    if src.JObj? then EndInKeys(src, EndKeys, parseIso) else None
  }

  /**
   * `_market_end_dt(market, gamma)` as epoch seconds (`parseIso` stands for `_parse_iso_dt`):
   * the Gamma record is searched before the market, key by key; `Err` is the exception
   * `datetime.fromtimestamp` raises.
   */
  function MarketEndTime(market: Json, gamma: Json, parseIso: string -> Option<int>): (r: Result<Option<int>, string>)
    ensures EndInSource(gamma, parseIso).Some? ==>
              r == (if EndInSource(gamma, parseIso).value.Ok? then Ok(Some(EndInSource(gamma, parseIso).value.value))
                    else Err(EndInSource(gamma, parseIso).value.error))
    ensures EndInSource(gamma, parseIso).None? && EndInSource(market, parseIso).Some? ==>
              r == (if EndInSource(market, parseIso).value.Ok? then Ok(Some(EndInSource(market, parseIso).value.value))
                    else Err(EndInSource(market, parseIso).value.error))
    ensures EndInSource(gamma, parseIso).None? && EndInSource(market, parseIso).None? ==> r == Ok(None)
  {
    var found: Option<Result<int, string>> := match EndInSource(gamma, parseIso)
                 case Some(g) => Some(g)
                 case None => EndInSource(market, parseIso);
    match found
    case None => Ok(None)
    case Some(Ok(t)) => Ok(Some(t))
    case Some(Err(e)) => Err(e)
  }

  /** Why a market is not analysed. */
  datatype StatusGate = MarketClosed | MarketInactive | MarketExpired(end: int)

  /**
   * `_market_status_gate(market, gamma)` at the clock reading `now`: first-match over
   * `closed is True`, then `active is False`, then an end time strictly before `now`.
   */
  function MarketStatusGate(market: Json, gamma: Json, now: int, parseIso: string -> Option<int>): (r: Result<Option<StatusGate>, string>)
    ensures Get(gamma, "closed") == JBool(true) ==> r == Ok(Some(MarketClosed))
    ensures Get(gamma, "closed") != JBool(true) && Get(gamma, "active") == JBool(false) ==> r == Ok(Some(MarketInactive))
    ensures Get(gamma, "closed") != JBool(true) && Get(gamma, "active") != JBool(false) ==>
              (r.Ok? <==> MarketEndTime(market, gamma, parseIso).Ok?)
              && (r.Ok? && r.value.Some? <==>
                    MarketEndTime(market, gamma, parseIso).Ok? && MarketEndTime(market, gamma, parseIso).value.Some?
                    && MarketEndTime(market, gamma, parseIso).value.value < now)
    ensures r.Ok? && r.value.Some? && r.value.value.MarketExpired? ==> r.value.value.end < now
  {
    if Get(gamma, "closed") == JBool(true) then Ok(Some(MarketClosed))
    else if Get(gamma, "active") == JBool(false) then Ok(Some(MarketInactive))
    else
      var end :- MarketEndTime(market, gamma, parseIso);
      if end.Some? && end.value < now then Ok(Some(MarketExpired(end.value))) else Ok(None)
  }

  // ---------------------------------------------------------------------------
  // PnL helpers
  // ---------------------------------------------------------------------------

  /** The leaderboard fields that may carry all-time PnL, in the order they are tried. */
  const PnlKeysAllTime: seq<string> := [
    "pnl", "profit", "PNL", "pnlUsd", "pnl_usd", "pnlAllTime", "pnl_all_time",
    "totalPnl", "totalProfit", "lifetimePnl", "lifetimeProfit", "realizedPnl"]

  /** `k in row and row.get(k) is not None` */
  predicate PnlPresent(row: Json, k: string) {
    Has(row, k) && Get(row, k) != JNull
  }

  /** The first present key's value, through `_safe_float(..., 0.0)`. */
  function FirstPnl(row: Json, keys: seq<string>): (r: Option<real>)
    ensures r.None? <==> forall i :: 0 <= i < |keys| ==> !PnlPresent(row, keys[i])
    ensures r.Some? ==> exists i :: (0 <= i < |keys| && PnlPresent(row, keys[i])
              && r.value == SafeFloat(Get(row, keys[i]), 0.0)
              && forall j :: 0 <= j < i ==> !PnlPresent(row, keys[j]))
  {
    if |keys| == 0 then None
    else if PnlPresent(row, keys[0]) then Some(SafeFloat(Get(row, keys[0]), 0.0))
    else
      var rest := FirstPnl(row, keys[1..]);
      assert forall i :: 1 <= i < |keys| ==> keys[i] == keys[1..][i - 1];
      rest
  }

  /** `_pick_user_pnl_alltime(row)`: unknown for a missing, empty or non-dict row. */
  function PickPnlAllTime(row: Option<Json>): (r: Option<real>)
    ensures row.None? || !row.value.JObj? ==> r.None?
    ensures r.Some? <==> row.Some? && exists i :: 0 <= i < |PnlKeysAllTime| && PnlPresent(row.value, PnlKeysAllTime[i])
    ensures row.Some? && PnlPresent(row.value, "pnl") ==> r == Some(SafeFloat(Get(row.value, "pnl"), 0.0))
    ensures forall i :: 0 <= i < |PnlKeysAllTime| && row.Some? && PnlPresent(row.value, PnlKeysAllTime[i])
                        && (forall j :: 0 <= j < i ==> !PnlPresent(row.value, PnlKeysAllTime[j])) ==>
              r == Some(SafeFloat(Get(row.value, PnlKeysAllTime[i]), 0.0))
  {
    if row.None? || !row.value.JObj? || !Truthy(row.value) then
      assert row.Some? && row.value.JObj? ==> row.value.fields == [];
      None
    else
      FirstPnl(row.value, PnlKeysAllTime)
  }

  /** `_normalize_ts(ts)`: `int(ts)`, read as milliseconds when too large for seconds. */
  function NormalizeTs(ts: Json): (r: Option<int>)
    ensures ts.JNull? ==> r.None?
    ensures ts.JNum? ==> r == Some(ToSeconds(Trunc(ts.n)))
    ensures r.Some? && r.value > MillisThreshold ==> exists t: int :: t > 1000 * MillisThreshold && r.value == t / 1000
  {
    match PyNum(ts)
    case Some(x) => Some(ToSeconds(Trunc(x)))
    case None => None
  }

  /** A closed-position row with a non-`None` `realizedPnl`. */
  predicate HasRealized(c: Json) {
    c.JObj? && PnlPresent(c, "realizedPnl")
  }

  function RealizedPnl(c: Json): real {
    SafeFloat(Get(c, "realizedPnl"), 0.0)
  }

  /**
   * `_sum_realized_pnl(closed)`: the sum over the rows carrying `realizedPnl` and how many
   * they are; `(None, 0)` when no row carries it.
   */
  function SumRealizedPnl(closed: seq<Json>): (r: (Option<real>, nat))
    ensures r.0.None? <==> forall i :: 0 <= i < |closed| ==> !HasRealized(closed[i])
    ensures r.1 == Count(HasRealized, closed)
    ensures r.0.None? ==> r.1 == 0
  {
    var used := Filter(HasRealized, closed);
    CountIsFilterLength(HasRealized, closed);
    CountNone(HasRealized, closed);
    if |used| == 0 then (None, 0)
    else (Some(SumOf(Map(RealizedPnl, used))), |used|)
  }

  /** The realized-PnL sum does not depend on the order of the closed positions. */
  lemma SumRealizedPnlOrderFree(a: seq<Json>, b: seq<Json>)
    requires multiset(a) == multiset(b)
    ensures SumRealizedPnl(a) == SumRealizedPnl(b)
  {
    CountPermutation(HasRealized, a, b);
    FilterPermutation(HasRealized, a, b);
    MapPermutation(RealizedPnl, Filter(HasRealized, a), Filter(HasRealized, b));
    SumOfPermutation(Map(RealizedPnl, Filter(HasRealized, a)), Map(RealizedPnl, Filter(HasRealized, b)));
    CountIsFilterLength(HasRealized, a);
    CountIsFilterLength(HasRealized, b);
  }

  // ---------------------------------------------------------------------------
  // Closed history: win rate, recency, conviction
  // ---------------------------------------------------------------------------

  /** PnL magnitudes at or below this are neither wins nor losses. */
  const Epsilon: real := 0.000000001

  function Abs(x: real): real {
    if x < 0.0 then -x else x
  }

  /** A position that counts towards the win rate. */
  predicate Decisive(p: real) {
    Abs(p) > Epsilon
  }

  predicate IsWin(p: real) {
    p > 0.0
  }

  /** A decisive win: more than `Epsilon` of profit. */
  predicate ClearWin(p: real) {
    p > Epsilon
  }

  /** Among the decisive results, the wins are exactly the clear wins. */
  lemma {:induction false} WinsAreClearWins(s: seq<real>)
    ensures Count(IsWin, Filter(Decisive, s)) == Count(ClearWin, s)
  {
    if |s| > 0 {
      var init := s[..|s| - 1];
      var last := s[|s| - 1];
      WinsAreClearWins(init);
      if Decisive(last) {
        assert Filter(Decisive, s) == Filter(Decisive, init) + [last];
        CountConcat(IsWin, Filter(Decisive, init), [last]);
        assert [last][..0] == [];
      }
    }
  }

  /** The latest timestamp among those present (`ts_max`). */
  function LatestTs(ts: seq<Option<int>>): (r: Option<int>)
    ensures r.None? <==> forall i :: 0 <= i < |ts| ==> ts[i].None?
    ensures r.Some? ==> (exists i :: 0 <= i < |ts| && ts[i] == r) && forall i :: 0 <= i < |ts| && ts[i].Some? ==> ts[i].value <= r.value
  {
    if |ts| == 0 then None
    else
      var init := LatestTs(ts[..|ts| - 1]);
      var last := ts[|ts| - 1];
      assert forall i :: 0 <= i < |ts| - 1 ==> ts[i] == ts[..|ts| - 1][i];
      if last.None? then init
      else if init.None? || last.value > init.value then last
      else init
  }

  /** The normalised timestamp of one closed position. */
  function RowTs(c: Json): Option<int> {
    NormalizeTs(Get(c, "timestamp"))
  }

  /** What `_winrate_and_recency_from_closed` returns. */
  datatype WinStats = WinStats(winRate: Option<real>, wrN: nat, daysSince: Option<real>)

  /** `wins / n` for `0 <= wins <= n`, `n > 0`: a share in [0, 1]. */
  lemma ShareBounds(wins: nat, n: nat)
    requires 0 < n && wins <= n
    ensures 0.0 <= wins as real / n as real <= 1.0
  {
  }

  /** The decisive PnLs of the dict rows are none exactly when no dict row is decisive. */
  lemma NoDecisiveRows(closed: seq<Json>)
    ensures Count(Decisive, Map(RealizedPnl, Objects(closed))) == 0 <==>
            forall i :: 0 <= i < |closed| && closed[i].JObj? ==> !Decisive(RealizedPnl(closed[i]))
  {
    CountNone(Decisive, Map(RealizedPnl, Objects(closed)));
    if Count(Decisive, Map(RealizedPnl, Objects(closed))) != 0 {
      DecisiveRowExists(closed);
    }
  }

  lemma DecisiveRowExists(closed: seq<Json>)
    requires exists k :: 0 <= k < |Objects(closed)| && Decisive(Map(RealizedPnl, Objects(closed))[k])
    ensures exists i :: 0 <= i < |closed| && closed[i].JObj? && Decisive(RealizedPnl(closed[i]))
  {
    var rows := Objects(closed);
    var k :| 0 <= k < |rows| && Decisive(Map(RealizedPnl, rows)[k]);
    assert rows[k] in closed;
    var i :| 0 <= i < |closed| && closed[i] == rows[k];
    assert closed[i].JObj? && Decisive(RealizedPnl(closed[i]));
  }

  /** The win rate over a list of realized PnLs and the number of decisive ones. */
  function WinShare(pnl: seq<real>): (r: (Option<real>, nat))
    ensures r.1 == Count(Decisive, pnl)
    ensures r.0.None? <==> r.1 == 0
    ensures r.0.Some? ==> 0.0 <= r.0.value <= 1.0 && r.0.value == Count(ClearWin, pnl) as real / r.1 as real
  {
    var decisive := Filter(Decisive, pnl);
    CountIsFilterLength(Decisive, pnl);
    WinsAreClearWins(pnl);
    var wins := Count(IsWin, decisive);
    if |decisive| == 0 then (None, 0)
    else
      ShareBounds(wins, |decisive|);
      (Some(wins as real / |decisive| as real), |decisive|)
  }

  /**
   * `_winrate_and_recency_from_closed(closed)` at the clock reading `now`: the share of
   * clear wins among the decisive dict rows, their number, and the age of the latest
   * timestamp.
   */
  function WinRateAndRecency(closed: seq<Json>, now: int): (r: WinStats)
    ensures r.wrN == Count(Decisive, Map(RealizedPnl, Objects(closed)))
    ensures r.winRate.None? <==> r.wrN == 0
    ensures r.winRate.None? <==> forall i :: 0 <= i < |closed| && closed[i].JObj? ==> !Decisive(RealizedPnl(closed[i]))
    ensures r.winRate.Some? ==>
              0.0 <= r.winRate.value <= 1.0
              && r.winRate.value == Count(ClearWin, Map(RealizedPnl, Objects(closed))) as real / r.wrN as real
    ensures r.daysSince == ToDaysSince(LatestTs(Map(RowTs, Objects(closed))), now)
  {
    var share := WinShare(Map(RealizedPnl, Objects(closed)));
    NoDecisiveRows(closed);
    WinStats(share.0, share.1, ToDaysSince(LatestTs(Map(RowTs, Objects(closed))), now))
  }

  predicate Positive(x: real) {
    x > 0.0
  }

  function TotalBought(c: Json): real {
    SafeFloat(Get(c, "totalBought"), 0.0)
  }

  /** The positive `totalBought` sizes of the dict rows, in row order. */
  function PositiveSizes(closed: seq<Json>): (sizes: seq<real>)
    ensures forall i :: 0 <= i < |sizes| ==> sizes[i] > 0.0
  {
    Filter(Positive, Map(TotalBought, Objects(closed)))
  }

  /**
   * `_conviction_ratio(value, closed)`: the position value over the upper median of the
   * positive sizes, or `None` when no size is positive.
   */
  function ConvictionRatio(marketValue: real, closed: seq<Json>): (r: Option<real>)
    ensures r.None? <==> |PositiveSizes(closed)| == 0
    ensures r.Some? ==> exists med :: IsUpperMedian(med, PositiveSizes(closed)) && med > 0.0 && r.value == marketValue / med
  {
    var sizes := PositiveSizes(closed);
    if |sizes| == 0 then None
    else
      var med := UpperMedian(sizes);
      assert med > 0.0 by {
        var i :| 0 <= i < |sizes| && sizes[i] == med;
      }
      Some(marketValue / med)
  }

  /** `m` is an element of `s` with at most half of `s` below it and more than half at or below it. */
  predicate IsUpperMedian(m: real, s: seq<real>) {
    m in s && Count(Below(m), s) <= |s| / 2 && Count(AtMost(m), s) >= |s| / 2 + 1
  }

  /** `sorted(s)[len(s) // 2]`: an element with at most half below it and more than half at or below it. */
  function UpperMedian(s: seq<real>): (m: real)
    requires |s| > 0
    ensures IsUpperMedian(m, s)
  {
    var m := SortAsc(s)[|s| / 2];
    assert m in multiset(s);
    OrderStatistic(s, |s| / 2);
    m
  }

  // ---------------------------------------------------------------------------
  // Open position in one market
  // ---------------------------------------------------------------------------

  /** The position rows of a `/positions` payload: a list, or a dict's `data` list; dicts only. */
  function PositionRows(payload: Json): (rows: seq<Json>)
    ensures forall i :: 0 <= i < |rows| ==> rows[i].JObj?
    ensures !Truthy(payload) ==> rows == []
  {
    if !Truthy(payload) then []
    else match payload
      case JArr(items) => Objects(items)
      case JObj(_) => (var data := Get(payload, "data"); if data.JArr? then Objects(data.items) else [])
      case _ => []
  }

  /** A row's value: `currentValue`, falling back to `totalBought` when not positive, floored at 0. */
  function RowValue(r: Json): (v: real)
    ensures v >= 0.0
    ensures SafeFloat(Get(r, "currentValue"), 0.0) > 0.0 ==> v == SafeFloat(Get(r, "currentValue"), 0.0)
    ensures SafeFloat(Get(r, "currentValue"), 0.0) <= 0.0 ==> v == Max(0.0, SafeFloat(Get(r, "totalBought"), 0.0))
  {
    var cur := SafeFloat(Get(r, "currentValue"), 0.0);
    var v := if cur <= 0.0 then SafeFloat(Get(r, "totalBought"), 0.0) else cur;
    Max(0.0, v)
  }

  /** `str(outcome) if outcome is not None else None` */
  function OutcomeOf(r: Json): Option<string> {
    var o := Get(r, "outcome");
    if o == JNull then None else Some(PyStr(o))
  }

  /** The running state of the summary loop. */
  datatype Tally = Tally(outcome: Option<string>, best: real, total: real)

  /** The summary loop over `rows`, left to right. */
  function SummaryLoop(rows: seq<Json>): Tally {
    if |rows| == 0 then Tally(None, 0.0, 0.0)
    else
      var t := SummaryLoop(rows[..|rows| - 1]);
      var r := rows[|rows| - 1];
      var v := RowValue(r);
      if v > t.best then Tally(OutcomeOf(r), v, t.total + v) else Tally(t.outcome, t.best, t.total + v)
  }

  /** The outcome of the first row of largest value, when that value is positive. */
  function Dominant(rows: seq<Json>): Option<string> {
    if |rows| == 0 then None
    else
      var i := FirstMaxIndex(rows, RowValue);
      if RowValue(rows[i]) > 0.0 then OutcomeOf(rows[i]) else None
  }

  /**
   * The loop computes the sum of the row values, and keeps the outcome of the first
   * row of largest value (a later row of equal value does not displace it).
   */
  lemma {:induction false} SummaryLoopSpec(rows: seq<Json>)
    ensures SummaryLoop(rows).total == SumOf(Map(RowValue, rows))
    ensures SummaryLoop(rows).outcome == Dominant(rows)
    ensures |rows| == 0 ==> SummaryLoop(rows).best == 0.0
    ensures |rows| > 0 ==> SummaryLoop(rows).best == RowValue(rows[FirstMaxIndex(rows, RowValue)])
  {
    if |rows| > 0 {
      var init := rows[..|rows| - 1];
      var last := rows[|rows| - 1];
      SummaryLoopSpec(init);
      assert Map(RowValue, rows)[..|rows| - 1] == Map(RowValue, init);
      if |init| == 0 {
        FirstMaxUnique(rows, RowValue, 0);
      } else {
        FirstMaxSnoc(rows, RowValue);
      }
    }
  }

  /** `_market_position_summary(payload)`: the dominant outcome and the total value. */
  function PositionSummary(payload: Json): (r: (Option<string>, real))
    ensures r.1 >= 0.0
    ensures r.1 == SumOf(Map(RowValue, PositionRows(payload)))
    ensures r.0 == Dominant(PositionRows(payload))
    ensures PositionRows(payload) == [] ==> r == (None, 0.0)
  {
    var rows := PositionRows(payload);
    SummaryLoopSpec(rows);
    SumOfNonNegative(Map(RowValue, rows));
    if |rows| == 0 then (None, 0.0)
    else
      var t := SummaryLoop(rows);
      (t.outcome, t.total)
  }
}

=== FILE: cli.dfy ===
/**
 * The pure decisions of `cli.py`: normalising the positional arguments, reading a row
 * field under several names, and choosing how a PnL cell is labelled.
 */
module Cli {
  import opened Wrappers
  import opened JsonValues
  import opened Strs
  import opened Decision

  // ---------------------------------------------------------------------------
  // Arguments
  // ---------------------------------------------------------------------------

  /** Why the positional arguments were refused. */
  datatype UsageError = MissingUrl | ExpectedOneUrl(got: seq<string>)

  /** The optional sub-command word, in any letter case. */
  const AnalyzeWord: string := "analyze"

  /**
   * `_normalize_url_args(args)`: no arguments is an error; a leading `analyze` (any case)
   * is dropped; exactly one argument must remain, and it is the URL.
   */
  function NormalizeUrlArgs(args: seq<string>): (r: Result<string, UsageError>)
    ensures args == [] ==> r == Err(MissingUrl)
    ensures r.Ok? <==>
              (|args| == 1 && Lower(args[0]) != AnalyzeWord)
              || (|args| == 2 && Lower(args[0]) == AnalyzeWord)
    ensures r.Ok? ==> r.value == args[|args| - 1]
  {
    if |args| == 0 then Err(MissingUrl)
    else
      var rest := if Lower(args[0]) == AnalyzeWord then args[1..] else args;
      if |rest| != 1 then Err(ExpectedOneUrl(rest)) else Ok(rest[0])
  }

  /** A URL is accepted on its own or after the `analyze` word, whatever its case. */
  lemma AnalyzeWordIsOptional(url: string, word: string)
    requires Lower(url) != AnalyzeWord && Lower(word) == AnalyzeWord
    ensures NormalizeUrlArgs([url]) == Ok(url)
    ensures NormalizeUrlArgs([word, url]) == Ok(url)
  {
  }

  // ---------------------------------------------------------------------------
  // Row fields
  // ---------------------------------------------------------------------------

  /** `k in d and d[k] is not None` */
  predicate PresentIn(d: Json, k: string) {
    Has(d, k) && Get(d, k) != JNull
  }

  /** The value of the first of `keys` present and not `None` in dict `d`. */
  function FirstPresent(d: Json, keys: seq<string>): (r: Option<Json>)
    ensures r.Some? ==> r.value != JNull
    ensures !d.JObj? ==> r.None?
  {
    if |keys| == 0 then None
    else if PresentIn(d, keys[0]) then Some(Get(d, keys[0]))
    else FirstPresent(d, keys[1..])
  }

  /** `FirstPresent` answers with the earliest key that is present and not `None`. */
  lemma {:induction false} FirstPresentSpec(d: Json, keys: seq<string>)
    ensures FirstPresent(d, keys).None? <==> forall i :: 0 <= i < |keys| ==> !PresentIn(d, keys[i])
    ensures FirstPresent(d, keys).Some? ==>
              exists i :: (0 <= i < |keys| && PresentIn(d, keys[i]) && FirstPresent(d, keys).value == Get(d, keys[i])
                           && forall j :: 0 <= j < i ==> !PresentIn(d, keys[j]))
  {
    if |keys| > 0 && !PresentIn(d, keys[0]) {
      FirstPresentSpec(d, keys[1..]);
      if FirstPresent(d, keys[1..]).Some? {
        var i :| 0 <= i < |keys[1..]| && PresentIn(d, keys[1..][i]) && FirstPresent(d, keys[1..]).value == Get(d, keys[1..][i])
                 && forall j :: 0 <= j < i ==> !PresentIn(d, keys[1..][j]);
        assert keys[i + 1] == keys[1..][i];
        assert forall j :: 0 <= j < i + 1 ==> !PresentIn(d, keys[j]) by {
          forall j | 0 <= j < i + 1 ensures !PresentIn(d, keys[j]) {
            if j > 0 { assert keys[j] == keys[1..][j - 1]; }
          }
        }
      } else {
        assert forall i :: 0 <= i < |keys| ==> !PresentIn(d, keys[i]) by {
          forall i | 0 <= i < |keys| ensures !PresentIn(d, keys[i]) {
            if i > 0 { assert keys[i] == keys[1..][i - 1]; }
          }
        }
      }
    }
  }

  /**
   * `_row_get(r, *keys, default)` on a dict row: the first key present at the top level,
   * else the first present in its `features` dict, else the default. A non-dict row
   * gives the default.
   */
  function RowGet(r: Json, keys: seq<string>, default: Json): (v: Json)
    ensures !r.JObj? ==> v == default
    ensures r.JObj? && FirstPresent(r, keys).Some? ==> v == FirstPresent(r, keys).value
    ensures r.JObj? && FirstPresent(r, keys).None? && FirstPresent(Get(r, "features"), keys).Some? ==>
              v == FirstPresent(Get(r, "features"), keys).value
    ensures FirstPresent(r, keys).None? && FirstPresent(Get(r, "features"), keys).None? ==> v == default
  {
    if !r.JObj? then default
    else match FirstPresent(r, keys)
      case Some(x) => x
      case None =>
        var feats := Get(r, "features");
        if feats.JObj? then FirstPresent(feats, keys).GetOr(default) else default
  }

  /** A value present at the top level wins over the same key under `features`. */
  lemma TopLevelWins(r: Json, k: string, default: Json)
    requires PresentIn(r, k)
    ensures RowGet(r, [k], default) == Get(r, k)
  {
  }

  // ---------------------------------------------------------------------------
  // PnL cell
  // ---------------------------------------------------------------------------

  /** `_f0(x)`: a number, or 0 for anything `float()` refuses. */
  function F0(x: Json): real {
    SafeFloat(x, 0.0)
  }

  /** The label a PnL cell carries after its number. */
  datatype Label = NoLabel | LeaderboardLabel | RecentLabel

  /** A PnL cell: a dash, or a number with an optional label. */
  datatype PnlCell = Dash | Amount(value: real, tag: Label)

  const SourceKeys: seq<string> := ["pnl_src", "pnl_source", "pnl_tag"]
  const PnlKeys: seq<string> := ["pnl_all", "pnl", "profit"]

  /** The source tag upper-cased, when the row has one. */
  function SourceTag(r: Json): Option<string> {
    var src := RowGet(r, SourceKeys, JNull);
    if src == JNull then None else Some(Upper(PyStr(src)))
  }

  /** The recent PnL and the number of closes behind it. */
  function RecentPnl(r: Json): (Json, int) {
    (RowGet(r, ["pnl_recent"], JNull), Trunc(F0(RowGet(r, ["pnl_recent_n"], JNum(0.0)))))
  }

  /** A recent figure is shown only when it exists and rests on at least one close. */
  predicate HasRecent(r: Json) {
    RecentPnl(r).0 != JNull && RecentPnl(r).1 > 0
  }

  /**
   * `_format_pnl_cell(r, debug)`: a leaderboard figure is labelled only in debug; a
   * recent figure (source REC or UNK) is always labelled REC and needs a non-empty scan;
   * any other source gives a dash; a row without a source shows its all-time PnL bare.
   */
  function FormatPnlCell(r: Json, debug: bool): (c: PnlCell)
    ensures c.Amount? && c.tag == LeaderboardLabel <==> debug && SourceTag(r) == Some("LB")
    ensures c.Amount? && c.tag == RecentLabel <==> (SourceTag(r) == Some("REC") || SourceTag(r) == Some("UNK")) && HasRecent(r)
    ensures SourceTag(r) == Some("LB") ==> c == Amount(F0(RowGet(r, PnlKeys, JNull)), if debug then LeaderboardLabel else NoLabel)
    ensures c.Amount? && c.tag == RecentLabel ==> c.value == F0(RecentPnl(r).0)
    ensures SourceTag(r).Some? && SourceTag(r).value !in {"LB", "REC", "UNK"} ==> c == Dash
    ensures SourceTag(r).None? ==> (c == Dash <==> RowGet(r, PnlKeys, JNull) == JNull)
    ensures c.Amount? && c.tag == NoLabel ==> c.value == F0(RowGet(r, PnlKeys, JNull))
  {
    var pnlAll := RowGet(r, PnlKeys, JNull);
    match SourceTag(r)
    case Some(src) =>
      if src == "LB" then Amount(F0(pnlAll), if debug then LeaderboardLabel else NoLabel)
      else if (src == "REC" || src == "UNK") && HasRecent(r) then Amount(F0(RecentPnl(r).0), RecentLabel)
      else Dash
    case None =>
      if pnlAll == JNull then Dash else Amount(F0(pnlAll), NoLabel)
  }

  /** Outside debug mode no cell is labelled LB (a corollary of `FormatPnlCell`'s contract). */
  lemma NoLeaderboardLabelOutsideDebug(r: Json)
    ensures !(FormatPnlCell(r, false).Amount? && FormatPnlCell(r, false).tag == LeaderboardLabel)
  {
  }

  /**
   * A recent-only figure is never shown as if it were all-time: it is labelled REC or not
   * shown (a corollary of `FormatPnlCell`'s contract).
   */
  lemma RecentNeverBare(r: Json, debug: bool)
    requires SourceTag(r) == Some("REC") || SourceTag(r) == Some("UNK")
    ensures FormatPnlCell(r, debug) == Dash || FormatPnlCell(r, debug).tag == RecentLabel
  {
  }

  /** A number that may be `None`. */
  function OptNum(x: Option<real>): Json {
    if x.Some? then JNum(x.value) else JNull
  }

  /**
   * `r` is a dict as `_enrich_wallet_for_market` returns it for `row`: its PnL members
   * hold the row's PnL fields, and it has no `features` member.
   */
  predicate CarriesPnl(r: Json, row: WalletRow) {
    && r.JObj?
    && Get(r, "pnl_all") == JNum(row.pnlAll)
    && Get(r, "pnl_src") == JStr(row.pnlSrc)
    && Get(r, "pnl_recent") == OptNum(row.pnlRecent)
    && Get(r, "pnl_recent_n") == JNum(row.pnlRecentN as real)
    && !Has(r, "features")
  }

  /**
   * On the rows the engine emits (source LB or UNK), the PnL column shows the
   * leaderboard figure for a known PnL, labelled only in debug, and otherwise the recent
   * realised PnL labelled REC when a close was scanned, or a dash.
   */
  lemma EngineRowCell(r: Json, row: WalletRow, debug: bool)
    requires CarriesPnl(r, row)
    requires row.pnlSrc == "LB" || row.pnlSrc == "UNK"
    ensures row.pnlSrc == "LB" ==>
              FormatPnlCell(r, debug) == Amount(row.pnlAll, if debug then LeaderboardLabel else NoLabel)
    ensures row.pnlSrc == "UNK" && row.pnlRecent.Some? && row.pnlRecentN > 0 ==>
              FormatPnlCell(r, debug) == Amount(row.pnlRecent.value, RecentLabel)
    ensures row.pnlSrc == "UNK" && (row.pnlRecent.None? || row.pnlRecentN == 0) ==>
              FormatPnlCell(r, debug) == Dash
  {
    CarriedSource(r, row);
    CarriedAmounts(r, row);
  }

  lemma CarriedSource(r: Json, row: WalletRow)
    requires CarriesPnl(r, row)
    requires row.pnlSrc == "LB" || row.pnlSrc == "UNK"
    ensures SourceTag(r) == Some(row.pnlSrc)
  {
    UpperFixed(row.pnlSrc);
  }

  lemma CarriedAmounts(r: Json, row: WalletRow)
    requires CarriesPnl(r, row)
    ensures RowGet(r, PnlKeys, JNull) == JNum(row.pnlAll)
    ensures RecentPnl(r) == (OptNum(row.pnlRecent), row.pnlRecentN)
  {
    if row.pnlRecent.None? {
      assert FirstPresent(r, ["pnl_recent"]) == None;
    }
  }

  // ---------------------------------------------------------------------------
  // Percentages
  // ---------------------------------------------------------------------------

  /** A percentage cell: blank, or the value scaled to percent. */
  datatype PctCell = Blank | Percent(pct: real)

  /** `_as_pct(x)`: blank for a missing value, otherwise `100 * x` percent. */
  function AsPct(x: Option<real>): (c: PctCell)
    ensures c == Blank <==> x.None?
    ensures c.Percent? ==> c.pct / 100.0 == x.value
  {
    if x.None? then Blank else Percent(100.0 * x.value)
  }
}

=== FILE: decision.dfy ===
/**
 * The market-level decision of `analysis.py`: the weighted outcome distribution over the
 * qualified wallets, the confidence derived from it, and the first-match gate that turns
 * it into a recommendation.
 */
module Decision {
  import opened Wrappers
  import opened Seqs

  /** One qualified wallet, as `_enrich_wallet_for_market` emits it. */
  datatype WalletRow = WalletRow(
    addr: string,
    outcome: string,
    marketValue: real,
    winRate: Option<real>,
    wrN: nat,
    closedScanned: nat,
    daysSinceActive: Option<real>,
    convictionRatio: Option<real>,
    weight: real,
    pnlAll: real,
    pnlAllKnown: bool,
    pnlSrc: string,
    pnlRecent: Option<real>,
    pnlRecentN: nat)

  function Weight(r: WalletRow): real {
    r.weight
  }

  /** A row contributes to the distribution: positive weight and a non-empty outcome. */
  predicate Counts(r: WalletRow) {
    r.weight > 0.0 && r.outcome != ""
  }

  /** The weight a row contributes to the total. */
  function CountedWeight(r: WalletRow): (w: real)
    ensures w >= 0.0
  {
    if Counts(r) then r.weight else 0.0
  }

  /** The weight a row contributes to outcome `o`. */
  function WeightFor(o: string): WalletRow -> real {
    r => if Counts(r) && r.outcome == o then r.weight else 0.0
  }

  /** Reference definition: total weight behind outcome `o`. */
  function OutcomeWeight(rows: seq<WalletRow>, o: string): real {
    SumOf(Map(WeightFor(o), rows))
  }

  /** Reference definition: total weight behind all outcomes. */
  function TotalWeight(rows: seq<WalletRow>): real {
    SumOf(Map(CountedWeight, rows))
  }

  /** Outcome names are distinct, as in a dict. */
  predicate KeysDistinct(b: seq<(string, real)>) {
    forall i, j :: 0 <= i < j < |b| ==> b[i].0 != b[j].0
  }

  function Second(kv: (string, real)): real {
    kv.1
  }

  /** The position of `o` among the keys, if present. */
  function FindKey(b: seq<(string, real)>, o: string): (r: Option<nat>)
    ensures r.Some? ==> r.value < |b| && b[r.value].0 == o
    ensures r.None? ==> forall i :: 0 <= i < |b| ==> b[i].0 != o
  {
    if |b| == 0 then None
    else if b[0].0 == o then Some(0)
    else match FindKey(b[1..], o)
      case Some(k) => Some(k + 1)
      case None => None
  }

  /** `dist[o] = dist.get(o, 0.0) + w` on an insertion-ordered dict. */
  function AddTo(b: seq<(string, real)>, o: string, w: real): seq<(string, real)> {
    match FindKey(b, o)
    case Some(k) => b[k := (o, b[k].1 + w)]
    case None => b + [(o, w)]
  }

  /** The bucket loop of `_weighted_distribution`, left to right. */
  function Buckets(rows: seq<WalletRow>): seq<(string, real)> {
    if |rows| == 0 then []
    else
      var b := Buckets(rows[..|rows| - 1]);
      var r := rows[|rows| - 1];
      if Counts(r) then AddTo(b, r.outcome, r.weight) else b
  }

  /** The sum behind one outcome grows by the last row's contribution. */
  lemma WeightSnoc(rows: seq<WalletRow>, f: WalletRow -> real)
    requires |rows| > 0
    ensures SumOf(Map(f, rows)) == SumOf(Map(f, rows[..|rows| - 1])) + f(rows[|rows| - 1])
  {
    assert Map(f, rows)[..|rows| - 1] == Map(f, rows[..|rows| - 1]);
  }

  lemma {:induction false} OutcomeWeightNonNegative(rows: seq<WalletRow>, o: string)
    ensures OutcomeWeight(rows, o) >= 0.0
  {
    SumOfNonNegative(Map(WeightFor(o), rows));
  }

  /** Sum of the bucket values. */
  function Values(b: seq<(string, real)>): (v: seq<real>)
    ensures |v| == |b| && forall i :: 0 <= i < |b| ==> v[i] == b[i].1
  {
    Map(Second, b)
  }

  /** The reference weights as a function of the outcome. */
  function OutcomeWeights(rows: seq<WalletRow>): string -> real {
    o => OutcomeWeight(rows, o)
  }

  /** The reference shares as a function of the outcome. */
  function OutcomeShares(rows: seq<WalletRow>): string -> real {
    o => if TotalWeight(rows) > 0.0 then OutcomeWeight(rows, o) / TotalWeight(rows) else 0.0
  }

  /**
   * `b` lists each outcome of positive weight `w` exactly once, with value `w(o)`, and
   * nothing else.
   */
  ghost predicate Tabulates(b: seq<(string, real)>, w: string -> real) {
    KeysDistinct(b)
    && (forall i :: 0 <= i < |b| ==> b[i].1 > 0.0 && b[i].1 == w(b[i].0))
    && (forall o :: w(o) > 0.0 ==> FindKey(b, o).Some?)
  }

  /**
   * The buckets hold each outcome of positive weight once, with its reference weight,
   * and add up to the total weight.
   */
  lemma {:induction false} BucketsSpec(rows: seq<WalletRow>)
    ensures Tabulates(Buckets(rows), OutcomeWeights(rows))
    ensures SumOf(Values(Buckets(rows))) == TotalWeight(rows)
  {
    if |rows| == 0 {
      forall o
        ensures OutcomeWeight(rows, o) == 0.0
      {
        assert Map(WeightFor(o), rows) == [];
      }
      assert Values([]) == [];
      assert Map(CountedWeight, rows) == [];
    } else {
      BucketsSpec(rows[..|rows| - 1]);
      BucketsStep(rows);
    }
  }

  /** One row of the bucket loop keeps the buckets equal to the reference weights. */
  lemma BucketsStep(rows: seq<WalletRow>)
    requires |rows| > 0
    requires Tabulates(Buckets(rows[..|rows| - 1]), OutcomeWeights(rows[..|rows| - 1]))
    requires SumOf(Values(Buckets(rows[..|rows| - 1]))) == TotalWeight(rows[..|rows| - 1])
    ensures Tabulates(Buckets(rows), OutcomeWeights(rows))
    ensures SumOf(Values(Buckets(rows))) == TotalWeight(rows)
  {
    var init := rows[..|rows| - 1];
    var r := rows[|rows| - 1];
    WeightSnoc(rows, CountedWeight);
    forall o
      ensures OutcomeWeight(rows, o) == OutcomeWeight(init, o) + WeightFor(o)(r)
      ensures OutcomeWeight(init, o) >= 0.0
    {
      WeightSnoc(rows, WeightFor(o));
      OutcomeWeightNonNegative(init, o);
    }
    assert Buckets(rows) == if Counts(r) then AddTo(Buckets(init), r.outcome, r.weight) else Buckets(init);
    TableStep(Buckets(init), r, OutcomeWeights(init), OutcomeWeights(rows));
  }

  /** Folding one row into a table of `w0` gives a table of `w1`, the weights with that row added. */
  lemma TableStep(b: seq<(string, real)>, r: WalletRow, w0: string -> real, w1: string -> real)
    requires Tabulates(b, w0)
    requires forall o :: w0(o) >= 0.0
    requires forall o :: w1(o) == w0(o) + WeightFor(o)(r)
    ensures Tabulates(if Counts(r) then AddTo(b, r.outcome, r.weight) else b, w1)
    ensures SumOf(Values(if Counts(r) then AddTo(b, r.outcome, r.weight) else b)) == SumOf(Values(b)) + CountedWeight(r)
  {
    if Counts(r) {
      AddToTabulates(b, r.outcome, r.weight, w0, w1);
      AddToSum(b, r.outcome, r.weight);
    } else {
      SameTable(b, w0, w1);
    }
  }

  lemma SameTable(b: seq<(string, real)>, w0: string -> real, w1: string -> real)
    requires Tabulates(b, w0)
    requires forall o :: w1(o) == w0(o)
    ensures Tabulates(b, w1)
  {
  }

  /** Adding `w > 0` to outcome `o` tabulates the weights raised by `w` at `o`. */
  lemma AddToTabulates(b: seq<(string, real)>, o: string, w: real, w0: string -> real, w1: string -> real)
    requires w > 0.0 && Tabulates(b, w0)
    requires forall o' :: w0(o') >= 0.0
    requires forall o' :: w1(o') == w0(o') + (if o' == o then w else 0.0)
    ensures Tabulates(AddTo(b, o, w), w1)
  {
    var b1 := AddTo(b, o, w);
    forall o' | w1(o') > 0.0
      ensures FindKey(b1, o').Some?
    {
      var j: nat;
      if o' != o {
        j := FindKey(b, o').value;
      } else if FindKey(b, o).Some? {
        j := FindKey(b, o).value;
      } else {
        j := |b|;
      }
      assert b1[j].0 == o';
    }
  }

  /** Adding `w` to one bucket adds `w` to the sum of the buckets. */
  lemma AddToSum(b: seq<(string, real)>, o: string, w: real)
    ensures SumOf(Values(AddTo(b, o, w))) == SumOf(Values(b)) + w
  {
    match FindKey(b, o)
    case Some(k) =>
      assert Values(AddTo(b, o, w)) == Values(b)[k := b[k].1 + w];
      SumOfUpdate(Values(b), k, b[k].1 + w);
    case None =>
      assert Values(AddTo(b, o, w)) == Values(b) + [w];
      SumOfConcat(Values(b), [w]);
      assert [w][..0] == [];
  }

  /** Each pair divided through by `tot` (`v / tot`). */
  function Shares(b: seq<(string, real)>, tot: real): (d: seq<(string, real)>)
    requires tot > 0.0
    ensures |d| == |b| && forall i :: 0 <= i < |b| ==> d[i] == (b[i].0, b[i].1 / tot)
  {
    seq(|b|, i requires 0 <= i < |b| => (b[i].0, b[i].1 / tot))
  }

  /**
   * `_weighted_distribution(rows)`: each outcome's share of the total counted weight,
   * largest share first (the first-inserted outcome first among equals); empty when the
   * total is not positive.
   */
  function WeightedDistribution(rows: seq<WalletRow>): seq<(string, real)> {
    var tot := TotalWeight(rows);
    if tot <= 0.0 then []
    else Shares(SortDesc(Buckets(rows), Second), tot)
  }

  lemma NoDupIffSingletons<T>(s: seq<T>)
    ensures NoDup(s) <==> forall x :: multiset(s)[x] <= 1
  {
    if NoDup(s) {
      forall x
        ensures multiset(s)[x] <= 1
      {
        NoDupCountsOne(s, x);
      }
    } else {
      var i, j :| 0 <= i < j < |s| && s[i] == s[j];
      DupCountsTwo(s, i, j);
    }
  }

  lemma NoDupCountsOne<T>(s: seq<T>, x: T)
    requires NoDup(s)
    ensures multiset(s)[x] <= 1
  {
    if x in s {
      var k := FirstIndex(s, x);
      var left, right := s[..k], s[k + 1..];
      assert s == left + [x] + right;
      assert x !in right by {
        forall m | 0 <= m < |right|
          ensures right[m] != x
        {
          assert right[m] == s[k + 1 + m];
        }
      }
      assert multiset(s) == multiset(left) + multiset{x} + multiset(right);
    }
  }

  lemma DupCountsTwo<T>(s: seq<T>, i: nat, j: nat)
    requires i < j < |s| && s[i] == s[j]
    ensures multiset(s)[s[i]] >= 2
  {
    var x := s[i];
    assert s == s[..i] + [x] + s[i + 1..j] + [x] + s[j + 1..];
    assert multiset(s) == multiset(s[..i]) + multiset{x} + multiset(s[i + 1..j]) + multiset{x} + multiset(s[j + 1..]);
  }

  /** A reordering of a duplicate-free sequence is duplicate-free. */
  lemma NoDupPermutation<T>(a: seq<T>, b: seq<T>)
    requires NoDup(a) && multiset(a) == multiset(b)
    ensures NoDup(b)
  {
    NoDupIffSingletons(a);
    NoDupIffSingletons(b);
  }

  /** A reordering of a table is a table of the same weights. */
  lemma TabulatesPermutation(a: seq<(string, real)>, b: seq<(string, real)>, w: string -> real)
    requires Tabulates(a, w) && multiset(a) == multiset(b)
    ensures Tabulates(b, w)
  {
    NoDupPermutation(a, b);
    forall i | 0 <= i < |b|
      ensures b[i].1 > 0.0 && b[i].1 == w(b[i].0)
    {
      assert b[i] in multiset(a);
    }
    forall i, j | 0 <= i < j < |b|
      ensures b[i].0 != b[j].0
    {
      assert b[i] in multiset(a) && b[j] in multiset(a);
      assert b[i] != b[j];
    }
    forall o | w(o) > 0.0
      ensures FindKey(b, o).Some?
    {
      var p := FindKey(a, o).value;
      assert a[p] in multiset(b);
      var q :| 0 <= q < |b| && b[q] == a[p];
    }
  }

  /** Dividing a table by a positive total tabulates the shares. */
  lemma SharesTabulate(b: seq<(string, real)>, tot: real, w: string -> real, s: string -> real)
    requires tot > 0.0 && Tabulates(b, w)
    requires forall o :: s(o) == w(o) / tot
    ensures Tabulates(Shares(b, tot), s)
  {
    var d := Shares(b, tot);
    forall i, j | 0 <= i < j < |d|
      ensures d[i].0 != d[j].0
    {
      assert d[i].0 == b[i].0 && d[j].0 == b[j].0;
    }
    forall i | 0 <= i < |d|
      ensures d[i].1 > 0.0 && d[i].1 == s(d[i].0)
    {
      assert d[i] == (b[i].0, b[i].1 / tot);
      DividePositive(b[i].1, tot);
    }
    forall o | s(o) > 0.0
      ensures FindKey(d, o).Some?
    {
      if w(o) <= 0.0 {
        DivideMonotone(w(o), 0.0, tot);
        assert false;
      }
      var k := FindKey(b, o).value;
      assert d[k].0 == o;
    }
  }

  /** Dividing by a positive total keeps the order and scales the sum. */
  lemma SharesSortedAndSum(b: seq<(string, real)>, tot: real)
    requires tot > 0.0 && SortedDesc(b, Second)
    ensures SortedDesc(Shares(b, tot), Second)
    ensures SumOf(Values(Shares(b, tot))) == SumOf(Values(b)) / tot
  {
    var d := Shares(b, tot);
    forall i, j | 0 <= i < j < |d|
      ensures Second(d[i]) >= Second(d[j])
    {
      assert Second(b[i]) >= Second(b[j]);
      DivideMonotone(b[j].1, b[i].1, tot);
    }
    assert Values(d) == DivideAll(Values(b), tot);
    SumOfDivideAll(Values(b), tot);
  }

  /**
   * The distribution holds exactly the outcomes of positive weight, once each, with
   * share = outcome weight / total weight; the shares are non-increasing and add up to 1;
   * it is empty exactly when no row counts; equal shares keep the order in which their
   * outcomes first counted.
   */
  lemma DistributionSpec(rows: seq<WalletRow>)
    ensures WeightedDistribution(rows) == [] <==> forall i :: 0 <= i < |rows| ==> !Counts(rows[i])
    ensures TotalWeight(rows) > 0.0 ==> Tabulates(WeightedDistribution(rows), OutcomeShares(rows))
    ensures SortedDesc(WeightedDistribution(rows), Second)
    ensures WeightedDistribution(rows) != [] ==> SumOf(Values(WeightedDistribution(rows))) == 1.0
    ensures TiesInFirstSeenOrder(WeightedDistribution(rows), rows)
  {
    DistributionTieOrder(rows);
    CountedIffPositiveTotal(rows);
    if TotalWeight(rows) > 0.0 {
      PositiveDistribution(rows);
      var i :| 0 <= i < |rows| && Counts(rows[i]);
      OutcomeWeightPositive(rows, i);
      var o := rows[i].outcome;
      assert OutcomeShares(rows)(o) == OutcomeWeight(rows, o) / TotalWeight(rows);
      DividePositive(OutcomeWeight(rows, o), TotalWeight(rows));
    }
  }

  /** The distribution when some row counts. */
  lemma PositiveDistribution(rows: seq<WalletRow>)
    requires TotalWeight(rows) > 0.0
    ensures Tabulates(WeightedDistribution(rows), OutcomeShares(rows))
    ensures SortedDesc(WeightedDistribution(rows), Second)
    ensures SumOf(Values(WeightedDistribution(rows))) == 1.0
  {
    var tot := TotalWeight(rows);
    var b := Buckets(rows);
    BucketsSpec(rows);
    var sorted := SortDesc(b, Second);
    var d := Shares(sorted, tot);
    assert WeightedDistribution(rows) == d;
    TabulatesPermutation(b, sorted, OutcomeWeights(rows));
    forall o
      ensures OutcomeShares(rows)(o) == OutcomeWeights(rows)(o) / tot
    {
    }
    SharesTabulate(sorted, tot, OutcomeWeights(rows), OutcomeShares(rows));
    SharesSortedAndSum(sorted, tot);
    MapPermutation(Second, b, sorted);
    SumOfPermutation(Values(b), Values(sorted));
    assert SumOf(Values(d)) == SumOf(Values(sorted)) / tot;
    assert SumOf(Values(sorted)) == tot;
    DivideSelf(tot);
  }

  /** Row `r` counts towards outcome `o`. */
  predicate CountsFor(r: WalletRow, o: string) {
    Counts(r) && r.outcome == o
  }

  /**
   * The position of the first row that counts towards `o`, or `|rows|` when none does:
   * the moment `o` enters the insertion-ordered dict of `_weighted_distribution`.
   */
  function FirstCounting(rows: seq<WalletRow>, o: string): (k: nat)
    ensures k <= |rows|
    ensures k < |rows| ==> CountsFor(rows[k], o)
    ensures forall m :: 0 <= m < k ==> !CountsFor(rows[m], o)
  {
    if |rows| == 0 then 0
    else
      var init := rows[..|rows| - 1];
      var k := FirstCounting(init, o);
      if k < |init| then k
      else if CountsFor(rows[|rows| - 1], o) then |init|
      else |rows|
  }

  /**
   * `b` holds the outcomes first seen before position `n` (by `first`), exactly those, in
   * order of first appearance.
   */
  ghost predicate InFirstSeenOrder(b: seq<(string, real)>, first: string -> nat, n: nat) {
    (forall i :: 0 <= i < |b| ==> first(b[i].0) < n)
    && (forall i, j :: 0 <= i < j < |b| ==> first(b[i].0) < first(b[j].0))
    && (forall o :: first(o) < n ==> FindKey(b, o).Some?)
  }

  /** Of two outcomes with the same share, the one whose first counted row comes first is listed first. */
  predicate TiesInFirstSeenOrder(dist: seq<(string, real)>, rows: seq<WalletRow>) {
    forall i, j :: 0 <= i < j < |dist| && dist[i].1 == dist[j].1 ==>
      FirstCounting(rows, dist[i].0) < FirstCounting(rows, dist[j].0)
  }

  /** The buckets list each counted outcome once, in the order its first counted row appears. */
  lemma {:induction false} BucketsFirstSeenOrder(rows: seq<WalletRow>)
    ensures InFirstSeenOrder(Buckets(rows), o => FirstCounting(rows, o), |rows|)
  {
    if |rows| > 0 {
      var init := rows[..|rows| - 1];
      BucketsFirstSeenOrder(init);
      FirstSeenStep(Buckets(init), rows[|rows| - 1], o => FirstCounting(init, o), o => FirstCounting(rows, o), |init|);
    }
  }

  /** One row of the bucket loop: a new outcome goes to the end, a known one stays in place. */
  lemma FirstSeenStep(b: seq<(string, real)>, r: WalletRow, f0: string -> nat, f1: string -> nat, n: nat)
    requires InFirstSeenOrder(b, f0, n)
    requires forall o :: f1(o) == (if f0(o) < n then f0(o) else if CountsFor(r, o) then n else n + 1)
    ensures InFirstSeenOrder(if Counts(r) then AddTo(b, r.outcome, r.weight) else b, f1, n + 1)
  {
    if !Counts(r) {
      FirstSeenSkip(b, r, f0, f1, n);
    } else {
      var o := r.outcome;
      match FindKey(b, o)
      case Some(k) =>
        assert AddTo(b, o, r.weight) == b[k := (o, b[k].1 + r.weight)];
        FirstSeenKnown(b, r, f0, f1, n, k);
      case None =>
        assert AddTo(b, o, r.weight) == b + [(o, r.weight)];
        FirstSeenNew(b, r, f0, f1, n);
    }
  }

  /** A row that does not count leaves the dict as it is. */
  lemma FirstSeenSkip(b: seq<(string, real)>, r: WalletRow, f0: string -> nat, f1: string -> nat, n: nat)
    requires InFirstSeenOrder(b, f0, n) && !Counts(r)
    requires forall o :: f1(o) == (if f0(o) < n then f0(o) else if CountsFor(r, o) then n else n + 1)
    ensures InFirstSeenOrder(b, f1, n + 1)
  {
    forall o | f1(o) < n + 1
      ensures FindKey(b, o).Some?
    {
      assert f0(o) < n;
    }
  }

  /** A row of an outcome already in the dict adds to its value and moves nothing. */
  lemma FirstSeenKnown(b: seq<(string, real)>, r: WalletRow, f0: string -> nat, f1: string -> nat, n: nat, k: nat)
    requires InFirstSeenOrder(b, f0, n) && Counts(r)
    requires k < |b| && b[k].0 == r.outcome
    requires forall o :: f1(o) == (if f0(o) < n then f0(o) else if CountsFor(r, o) then n else n + 1)
    ensures InFirstSeenOrder(b[k := (r.outcome, b[k].1 + r.weight)], f1, n + 1)
  {
    var b1 := b[k := (r.outcome, b[k].1 + r.weight)];
    assert forall i :: 0 <= i < |b| ==> b1[i].0 == b[i].0;
    forall o | f1(o) < n + 1
      ensures FindKey(b1, o).Some?
    {
      assert f0(o) < n;
      var i := FindKey(b, o).value;
      assert b1[i].0 == o;
    }
  }

  /** A row of a new outcome appends it after every outcome seen so far. */
  lemma FirstSeenNew(b: seq<(string, real)>, r: WalletRow, f0: string -> nat, f1: string -> nat, n: nat)
    requires InFirstSeenOrder(b, f0, n) && Counts(r)
    requires FindKey(b, r.outcome).None?
    requires forall o :: f1(o) == (if f0(o) < n then f0(o) else if CountsFor(r, o) then n else n + 1)
    ensures InFirstSeenOrder(b + [(r.outcome, r.weight)], f1, n + 1)
  {
    var b1 := b + [(r.outcome, r.weight)];
    assert f1(r.outcome) == n;
    forall o | f1(o) < n + 1
      ensures FindKey(b1, o).Some?
    {
      if f0(o) < n {
        var i := FindKey(b, o).value;
        assert b1[i].0 == o;
      } else {
        assert b1[|b|].0 == o;
      }
    }
  }

  /** Division by the same positive total keeps distinct values distinct. */
  lemma DivideInjective(x: real, y: real, t: real)
    requires t > 0.0 && x / t == y / t
    ensures x == y
  {
  }

  /**
   * Equal shares keep the dict's insertion order: of two outcomes with the same share,
   * the one whose first counted row comes first is listed first.
   */
  lemma DistributionTieOrder(rows: seq<WalletRow>)
    ensures TiesInFirstSeenOrder(WeightedDistribution(rows), rows)
  {
    var tot := TotalWeight(rows);
    if tot > 0.0 {
      var b := Buckets(rows);
      var rank: ((string, real)) -> int := (kv: (string, real)) => FirstCounting(rows, kv.0);
      BucketsFirstSeenOrder(rows);
      assert TiesInRankOrder(b, Second, rank);
      var sorted := SortDesc(b, Second);
      SortDescKeepsTieOrder(b, Second, rank);
      var d := Shares(sorted, tot);
      assert WeightedDistribution(rows) == d;
      forall i, j | 0 <= i < j < |d| && d[i].1 == d[j].1
        ensures FirstCounting(rows, d[i].0) < FirstCounting(rows, d[j].0)
      {
        DivideInjective(sorted[i].1, sorted[j].1, tot);
        assert Second(sorted[i]) == Second(sorted[j]);
        assert rank(sorted[i]) < rank(sorted[j]);
      }
    }
  }

  lemma DividePositive(x: real, t: real)
    requires x > 0.0 && t > 0.0
    ensures x / t > 0.0
  {
  }

  lemma DivideSelf(t: real)
    requires t > 0.0
    ensures t / t == 1.0
  {
  }

  /** A counted row gives its outcome positive weight. */
  lemma OutcomeWeightPositive(rows: seq<WalletRow>, i: nat)
    requires i < |rows| && Counts(rows[i])
    ensures OutcomeWeight(rows, rows[i].outcome) > 0.0
  {
    var ws := Map(WeightFor(rows[i].outcome), rows);
    TermAtMostSum(ws, i);
  }

  lemma DivideMonotone(x: real, y: real, t: real)
    requires x <= y && t > 0.0
    ensures x / t <= y / t
  {
  }

  /** The total weight is positive exactly when some row counts. */
  lemma {:induction false} CountedIffPositiveTotal(rows: seq<WalletRow>)
    ensures TotalWeight(rows) > 0.0 <==> exists i :: 0 <= i < |rows| && Counts(rows[i])
    ensures TotalWeight(rows) >= 0.0
  {
    SumOfNonNegative(Map(CountedWeight, rows));
    if exists i :: 0 <= i < |rows| && Counts(rows[i]) {
      var i :| 0 <= i < |rows| && Counts(rows[i]);
      TermAtMostSum(Map(CountedWeight, rows), i);
    } else {
      SumOfZeros(Map(CountedWeight, rows));
    }
  }

  lemma {:induction false} SumOfZeros(s: seq<real>)
    requires forall i :: 0 <= i < |s| ==> s[i] == 0.0
    ensures SumOf(s) == 0.0
  {
    if |s| > 0 {
      SumOfZeros(s[..|s| - 1]);
    }
  }

  /** Two tables of the same weights have the same entries and the same size. */
  lemma SameEntries(da: seq<(string, real)>, db: seq<(string, real)>, wa: string -> real, wb: string -> real)
    requires Tabulates(da, wa) && Tabulates(db, wb)
    requires forall o :: wa(o) == wb(o)
    ensures forall p :: p in da <==> p in db
    ensures |da| == |db|
  {
    EntriesIn(da, db, wa, wb);
    EntriesIn(db, da, wb, wa);
    assert KeySet(da) == KeySet(db) by {
      forall k | k in KeySet(da)
        ensures k in KeySet(db)
      {
        var i :| 0 <= i < |da| && da[i].0 == k;
        assert da[i] in db;
      }
      forall k | k in KeySet(db)
        ensures k in KeySet(da)
      {
        var i :| 0 <= i < |db| && db[i].0 == k;
        assert db[i] in da;
      }
    }
    DistinctKeysCount(da);
    DistinctKeysCount(db);
  }

  lemma EntriesIn(da: seq<(string, real)>, db: seq<(string, real)>, wa: string -> real, wb: string -> real)
    requires Tabulates(da, wa) && Tabulates(db, wb)
    requires forall o :: wa(o) == wb(o)
    ensures forall p :: p in da ==> p in db
  {
    forall p | p in da
      ensures p in db
    {
      var i :| 0 <= i < |da| && da[i] == p;
      var k := FindKey(db, p.0).value;
      assert db[k] == p;
    }
  }

  /**
   * The distribution does not depend on the order of the rows: reordered rows give the
   * same entries (only the order of outcomes with equal shares may differ).
   */
  lemma DistributionOrderFree(a: seq<WalletRow>, b: seq<WalletRow>)
    requires multiset(a) == multiset(b)
    ensures forall p :: p in WeightedDistribution(a) <==> p in WeightedDistribution(b)
    ensures |WeightedDistribution(a)| == |WeightedDistribution(b)|
  {
    DistributionSpec(a);
    DistributionSpec(b);
    MapPermutation(CountedWeight, a, b);
    SumOfPermutation(Map(CountedWeight, a), Map(CountedWeight, b));
    forall o
      ensures OutcomeShares(a)(o) == OutcomeShares(b)(o)
    {
      MapPermutation(WeightFor(o), a, b);
      SumOfPermutation(Map(WeightFor(o), a), Map(WeightFor(o), b));
    }
    if TotalWeight(a) > 0.0 {
      SameEntries(WeightedDistribution(a), WeightedDistribution(b), OutcomeShares(a), OutcomeShares(b));
    }
  }

  function KeySet(d: seq<(string, real)>): set<string> {
    set i | 0 <= i < |d| :: d[i].0
  }

  /** Distinct keys: as many keys as entries. */
  lemma {:induction false} DistinctKeysCount(d: seq<(string, real)>)
    requires KeysDistinct(d)
    ensures |KeySet(d)| == |d|
  {
    if |d| > 0 {
      var init := d[..|d| - 1];
      assert KeysDistinct(init) by {
        forall i, j | 0 <= i < j < |init|
          ensures init[i].0 != init[j].0
        {
          assert init[i] == d[i] && init[j] == d[j];
        }
      }
      DistinctKeysCount(init);
      KeySetSnoc(d);
    }
  }

  lemma KeySetSnoc(d: seq<(string, real)>)
    requires |d| > 0 && KeysDistinct(d)
    ensures KeySet(d) == KeySet(d[..|d| - 1]) + {d[|d| - 1].0}
    ensures d[|d| - 1].0 !in KeySet(d[..|d| - 1])
  {
    var init := d[..|d| - 1];
    forall k | k in KeySet(d)
      ensures k in KeySet(init) + {d[|d| - 1].0}
    {
      var i :| 0 <= i < |d| && d[i].0 == k;
      if i < |d| - 1 {
        assert init[i].0 == k;
      }
    }
    forall k | k in KeySet(init)
      ensures k in KeySet(d) && k != d[|d| - 1].0
    {
      var i :| 0 <= i < |init| && init[i].0 == k;
      assert d[i].0 == k;
    }
  }

  // ---------------------------------------------------------------------------
  // Confidence
  // ---------------------------------------------------------------------------

  function Clamp(x: real, lo: real, hi: real): real
    requires lo <= hi
  {
    if x < lo then lo else if x > hi then hi else x
  }

  /** `_confidence_from_dist(dist)`: on a 0..10 scale, ten times the lead of the top share over the second. */
  function Confidence(dist: seq<(string, real)>): (c: real)
    ensures 0.0 <= c <= 10.0
    ensures |dist| == 0 ==> c == 0.0
    ensures |dist| == 1 ==> c == 10.0
    ensures |dist| >= 2 && dist[0].1 <= dist[1].1 ==> c == 0.0
  {
    if |dist| == 0 then 0.0
    else if |dist| == 1 then 10.0
    else
      var margin := if dist[0].1 - dist[1].1 > 0.0 then dist[0].1 - dist[1].1 else 0.0;
      Clamp(10.0 * margin, 0.0, 10.0)
  }

  /**
   * On a distribution: full confidence for a single outcome, none when nothing counts,
   * otherwise ten times the gap between the two largest shares (capped at 10), and
   * positive exactly when the top share is strictly ahead.
   */
  lemma ConfidenceOfDistribution(rows: seq<WalletRow>)
    ensures var d := WeightedDistribution(rows);
            var c := Confidence(d);
            (|d| == 0 ==> c == 0.0)
            && (|d| >= 2 ==>
                  0.0 <= d[0].1 - d[1].1
                  && c == Clamp(10.0 * (d[0].1 - d[1].1), 0.0, 10.0)
                  && (c > 0.0 <==> d[0].1 > d[1].1))
  {
    DistributionSpec(rows);
    var d := WeightedDistribution(rows);
    if |d| >= 2 {
      assert Second(d[0]) >= Second(d[1]);
    }
  }

  // ---------------------------------------------------------------------------
  // Gate
  // ---------------------------------------------------------------------------

  function NonNegWeight(r: WalletRow): (w: real)
    ensures w >= 0.0
  {
    if r.weight > 0.0 then r.weight else 0.0
  }

  /** `max(max(0, w) / tot_w for r in rows)`, or 0 when the total is not positive: the largest single-wallet share. */
  function TopWalletShare(rows: seq<WalletRow>): (s: real)
    requires |rows| > 0
    ensures 0.0 <= s <= 1.0
    ensures SumOf(Map(NonNegWeight, rows)) > 0.0 ==>
              forall i :: 0 <= i < |rows| ==> NonNegWeight(rows[i]) / SumOf(Map(NonNegWeight, rows)) <= s
    ensures SumOf(Map(NonNegWeight, rows)) > 0.0 ==>
              s in DivideAll(Map(NonNegWeight, rows), SumOf(Map(NonNegWeight, rows)))
  {
    var ws := Map(NonNegWeight, rows);
    var tot := SumOf(ws);
    if tot > 0.0 then
      SharesAtMostOne(ws, tot);
      MaxOf(DivideAll(ws, tot))
    else 0.0
  }

  /** Non-negative terms divided by their positive sum lie in [0, 1]. */
  lemma SharesAtMostOne(ws: seq<real>, tot: real)
    requires tot > 0.0 && tot == SumOf(ws)
    requires forall i :: 0 <= i < |ws| ==> ws[i] >= 0.0
    ensures forall i :: 0 <= i < |ws| ==> 0.0 <= DivideAll(ws, tot)[i] <= 1.0
  {
    forall i | 0 <= i < |ws|
      ensures 0.0 <= DivideAll(ws, tot)[i] <= 1.0
    {
      TermAtMostSum(ws, i);
      DivideMonotone(ws[i], tot, tot);
      DivideMonotone(0.0, ws[i], tot);
      DivideSelf(tot);
      assert DivideAll(ws, tot)[i] == ws[i] / tot;
    }
  }

  /** Why the gate said STAY OUT. */
  datatype GateTag =
    | NoQualifiedWallets
    | MinQualifiedWalletsNotMet(found: nat, required: int)
    | WhaleDominance(share: real, threshold: real)
    | NoConsensus(share: real, threshold: real)

  datatype Recommendation = StayOut | Buy(outcome: string)

  /** The recommendation as the report prints it. */
  function RecommendationText(r: Recommendation): string {
    match r
    case StayOut => "STAY OUT"
    case Buy(o) => "BUY " + o
  }

  /** The gate's diagnostics: the tag (absent when passed), the top outcome and share, the top wallet share. */
  datatype GateDiag = GateDiag(gate: Option<GateTag>, top: Option<(string, real)>, topWalletShare: Option<real>)

  datatype GateResult = GateResult(rec: Recommendation, diag: GateDiag)

  /**
   * `_gate_recommendation(dist, rows, ...)`: first-match over no qualified wallets, too
   * few wallets, whale dominance and lack of consensus; every gate says STAY OUT, and a
   * market that passes all four is a BUY of the top outcome.
   */
  function GateRecommendation(dist: seq<(string, real)>, rows: seq<WalletRow>, consensus: real, whale: real, minQualified: int): (r: GateResult)
    ensures r.rec.Buy? <==> r.diag.gate.None?
    ensures |dist| == 0 || |rows| == 0 ==> r == GateResult(StayOut, GateDiag(Some(NoQualifiedWallets), None, None))
    ensures |dist| > 0 && |rows| > 0 ==>
              r.diag.top == Some(dist[0]) && r.diag.topWalletShare == Some(TopWalletShare(rows))
              && 0.0 <= r.diag.topWalletShare.value <= 1.0
    ensures |dist| > 0 && |rows| > 0 && |rows| < minQualified ==>
              r.diag.gate == Some(MinQualifiedWalletsNotMet(|rows|, minQualified))
    ensures |dist| > 0 && |rows| >= minQualified && |rows| > 0 && TopWalletShare(rows) >= whale ==>
              r.diag.gate == Some(WhaleDominance(TopWalletShare(rows), whale))
    ensures |dist| > 0 && |rows| >= minQualified && |rows| > 0 && TopWalletShare(rows) < whale && dist[0].1 < consensus ==>
              r.diag.gate == Some(NoConsensus(dist[0].1, consensus))
    ensures r.rec.Buy? <==> |dist| > 0 && |rows| > 0 && |rows| >= minQualified
                             && TopWalletShare(rows) < whale && dist[0].1 >= consensus
    ensures r.rec.Buy? ==> r.rec.outcome == dist[0].0
  {
    if |dist| == 0 || |rows| == 0 then GateResult(StayOut, GateDiag(Some(NoQualifiedWallets), None, None))
    else
      var top := dist[0];
      var tws := TopWalletShare(rows);
      var diag := GateDiag(None, Some(top), Some(tws));
      if |rows| < minQualified then GateResult(StayOut, diag.(gate := Some(MinQualifiedWalletsNotMet(|rows|, minQualified))))
      else if tws >= whale then GateResult(StayOut, diag.(gate := Some(WhaleDominance(tws, whale))))
      else if top.1 < consensus then GateResult(StayOut, diag.(gate := Some(NoConsensus(top.1, consensus))))
      else GateResult(Buy(top.0), diag)
  }
}

=== FILE: json.dfy ===
/**
 * The decoded JSON values the remote services return, and the Python idioms the
 * engine applies to them (`isinstance`, truthiness, `dict.get`, `float(x)`, `str(x)`).
 */
module JsonValues {
  import opened Wrappers

  /** A decoded JSON value. An object keeps its members in insertion order, as a Python `dict` does. */
  datatype Json =
    | JNull
    | JBool(b: bool)
    | JNum(n: real)
    | JStr(s: string)
    | JArr(items: seq<Json>)
    | JObj(fields: seq<(string, Json)>)

  /** The value of the first member named `k`, if any. */
  function Lookup(fields: seq<(string, Json)>, k: string): (r: Option<Json>)
    ensures r.Some? <==> exists i :: 0 <= i < |fields| && fields[i].0 == k
    ensures r.Some? ==> exists i :: 0 <= i < |fields| && fields[i] == (k, r.value)
  {
    if |fields| == 0 then None
    else if fields[0].0 == k then Some(fields[0].1)
    else Lookup(fields[1..], k)
  }

  /** `k in d` for a dict `d` (false for any other value). */
  predicate Has(d: Json, k: string) {
    d.JObj? && Lookup(d.fields, k).Some?
  }

  /** `d.get(k)`: the member's value, or `None` when `d` has no member `k`. */
  function Get(d: Json, k: string): (v: Json)
    ensures !Has(d, k) ==> v == JNull
  {
    if d.JObj? then Lookup(d.fields, k).GetOr(JNull) else JNull
  }

  /** Python truthiness: `None`, `False`, `0`, `""`, `[]` and `{}` are falsy. */
  predicate Truthy(j: Json) {
    match j
    case JNull => false
    case JBool(b) => b
    case JNum(n) => n != 0.0
    case JStr(s) => |s| > 0
    case JArr(a) => |a| > 0
    case JObj(f) => |f| > 0
  }

  /** Python's `a or b`: `a` when truthy, else `b`. */
  function Or(a: Json, b: Json): Json {
    if Truthy(a) then a else b
  }

  /** The elements of `xs` that are dicts, in order (`[r for r in xs if isinstance(r, dict)]`). */
  function Objects(xs: seq<Json>): (r: seq<Json>)
    ensures |r| <= |xs|
    ensures forall i :: 0 <= i < |r| ==> r[i].JObj? && r[i] in xs
    ensures forall x :: x in xs && x.JObj? ==> x in r
  {
    if |xs| == 0 then []
    else if xs[0].JObj? then [xs[0]] + Objects(xs[1..])
    else Objects(xs[1..])
  }

  /** Every element of a list of dicts survives the dict filter. */
  lemma {:induction false} ObjectsOfObjects(xs: seq<Json>)
    requires forall i :: 0 <= i < |xs| ==> xs[i].JObj?
    ensures Objects(xs) == xs
  {
    if |xs| > 0 {
      ObjectsOfObjects(xs[1..]);
    }
  }

  /** The numeric view `isinstance(x, (int, float))` takes; a `bool` is an `int` in Python. */
  function PyNum(j: Json): Option<real> {
    match j
    case JNum(n) => Some(n)
    case JBool(b) => Some(if b then 1.0 else 0.0)
    case _ => None
  }

  /**
   * `_safe_float(x, default)` on an already-decoded value: numbers (and bools) convert,
   * `None` gives the default. Numeric text inside strings is not parsed (see README).
   */
  function SafeFloat(j: Json, default: real): (r: real)
    ensures j.JNum? ==> r == j.n
    ensures !j.JNum? && !j.JBool? ==> r == default
  {
    PyNum(j).GetOr(default)
  }

  /** `int(x)` on a real: truncation toward zero. */
  function Trunc(x: real): (t: int)
    ensures x >= 0.0 ==> t as real <= x < t as real + 1.0
    ensures x < 0.0 ==> t as real - 1.0 < x <= t as real
  {
    if x >= 0.0 then x.Floor else -((-x).Floor)
  }

  /**
   * `str(x)` as far as the engine depends on it: strings are themselves, `None`/bools
   * render as Python does; numbers and containers render as an opaque non-empty text.
   */
  function PyStr(j: Json): (r: string)
    ensures j.JStr? ==> r == j.s
    ensures !j.JStr? ==> |r| > 0
  {
    match j
    case JStr(s) => s
    case JNull => "None"
    case JBool(b) => if b then "True" else "False"
    case JNum(_) => "<number>"
    case JArr(_) => "<list>"
    case JObj(_) => "<dict>"
  }

  /** `_as_list(x)`: `None` gives `[]`, a list is itself, anything else is wrapped. */
  function AsList(j: Json): (r: seq<Json>)
    ensures j.JNull? <==> r == [] && !j.JArr?
    ensures j.JArr? ==> r == j.items
    ensures !j.JNull? && !j.JArr? ==> r == [j]
  {
    match j
    case JNull => []
    case JArr(a) => a
    case _ => [j]
  }

  /** Looking up in `a + b` finds `a`'s member first, and `b`'s only when `a` has none. */
  lemma {:induction false} LookupConcat(a: seq<(string, Json)>, b: seq<(string, Json)>, k: string)
    ensures Lookup(a + b, k) == if Lookup(a, k).Some? then Lookup(a, k) else Lookup(b, k)
  {
    if |a| > 0 {
      assert (a + b)[1..] == a[1..] + b;
      LookupConcat(a[1..], b, k);
    } else {
      assert a + b == b;
    }
  }
}

=== FILE: pipeline.dfy ===
/**
 * The per-market flow of `analysis.py`: paging through a wallet's closed positions,
 * enriching each holder into a weighted row (or a drop reason), and the single-market
 * and event-level analyses. Every remote read goes through the `fetch` oracle of `Env`;
 * the concurrent `asyncio.gather` over wallets is a sequential map (it keeps input order).
 */
module Pipeline {
  import opened Wrappers
  import opened JsonValues
  import opened Strs
  import opened Seqs
  import opened Scoring
  import opened Polymarket
  import opened RefParse
  import opened Analysis
  import opened Decision

  /** The outside world the analysis reads: remote data, decoders, the clock and two math functions. */
  datatype Env = Env(
    fetch: Request -> Fetched,
    loads: string -> Option<Json>,
    urlparse: string -> UrlParts,
    parseIso: string -> Option<int>,
    now: int,
    exp: real -> real,
    sqrt: real -> real)

  /** The tuning knobs `analyze_market` passes down. */
  datatype Config = Config(
    minProfit: real,
    holdersLimit: int,
    minBalance: real,
    maxClosed: int,
    closedPageSize: int,
    consensus: real,
    whale: real,
    minQualified: int)

  // ---------------------------------------------------------------------------
  // Closed positions, page by page
  // ---------------------------------------------------------------------------

  /** The dict rows of one page; a falsy or non-list batch has none. */
  function PageRows(batch: Json): (rows: seq<Json>)
    ensures forall i :: 0 <= i < |rows| ==> rows[i].JObj?
  {
    if Truthy(batch) && batch.JArr? then Objects(batch.items) else []
  }

  /** Python's `s[:n]` for any integer `n`. */
  function SliceTo<T>(s: seq<T>, n: int): (r: seq<T>)
    ensures |r| <= |s|
    ensures n >= 0 ==> |r| == (if n < |s| then n else |s|)
    ensures n >= 0 ==> r == s[..|r|]
    ensures n < 0 ==> |r| == (if |s| + n > 0 then |s| + n else 0) && r == s[..|r|]
  {
    if n >= 0 then (if n < |s| then s[..n] else s)
    else if |s| + n > 0 then s[..|s| + n] else []
  }

  /** Page `k` of a wallet's closed positions (offset `k * size`), as dict rows. */
  function PageAt(fetch: Request -> Fetched, addr: string, size: int, k: nat): Result<seq<Json>, FetchError> {
    var batch :- ClosedPositionsRecent(fetch, addr, size, k * size);
    Ok(PageRows(batch))
  }

  /** Page `k` came back full: at least `size` rows (the service may send more than asked). */
  predicate FullPage(fetch: Request -> Fetched, addr: string, size: int, k: nat) {
    PageAt(fetch, addr, size, k).Ok? && |PageAt(fetch, addr, size, k).value| >= size
  }

  /** Reference reading: pages `from`, ..., `from + n - 1` one after another, concatenated. */
  function Collect(fetch: Request -> Fetched, addr: string, size: int, from: nat, n: nat): Result<seq<Json>, FetchError>
    decreases n
  {
    if n == 0 then Ok([])
    else
      var page :- PageAt(fetch, addr, size, from);
      var rest :- Collect(fetch, addr, size, from + 1, n - 1);
      Ok(page + rest)
  }

  /**
   * The paging loop of `_fetch_closed_positions`, from page `page` with `out` collected:
   * stop once `max_closed` rows are in, or on an empty page, or after a short page.
   */
  function ClosedPages(fetch: Request -> Fetched, addr: string, maxClosed: int, size: int, out: seq<Json>, page: nat): (r: Result<seq<Json>, FetchError>)
    requires size >= 1
    ensures r.Ok? ==> |r.value| >= |out| && r.value[..|out|] == out
    ensures r.Ok? ==> forall i :: |out| <= i < |r.value| ==> r.value[i].JObj?
    ensures |out| < maxClosed && PageAt(fetch, addr, size, page).Err? ==> r == Err(PageAt(fetch, addr, size, page).error)
    ensures |out| < maxClosed && PageAt(fetch, addr, size, page) == Ok([]) ==> r == Ok(out)
    ensures |out| < maxClosed && PageAt(fetch, addr, size, page).Ok? && 0 < |PageAt(fetch, addr, size, page).value| < size ==>
              r == Ok(out + PageAt(fetch, addr, size, page).value)
    decreases if |out| < maxClosed then maxClosed - |out| else 0
  {
    if |out| >= maxClosed then Ok(out)
    else
      var rows :- PageAt(fetch, addr, size, page);
      if |rows| == 0 then Ok(out)
      else if |rows| < size then Ok(out + rows)
      else
        var r := ClosedPages(fetch, addr, maxClosed, size, out + rows, page + 1);
        if r.Ok? then
          ExtendObjects(r.value, out, rows);
          r
        else r
  }

  /** When every page from `page` on reads without error, paging succeeds. */
  lemma {:induction false} PagesReadGiveOk(fetch: Request -> Fetched, addr: string, maxClosed: int, size: int, out: seq<Json>, page: nat)
    requires size >= 1
    ensures (forall k: nat :: page <= k ==> PageAt(fetch, addr, size, k).Ok?) ==> ClosedPages(fetch, addr, maxClosed, size, out, page).Ok?
    decreases if |out| < maxClosed then maxClosed - |out| else 0
  {
    if (forall k: nat :: page <= k ==> PageAt(fetch, addr, size, k).Ok?) && |out| < maxClosed {
      var rows := PageAt(fetch, addr, size, page).value;
      if |rows| >= size {
        PagesReadGiveOk(fetch, addr, maxClosed, size, out + rows, page + 1);
      }
    }
  }

  /** What follows `out` in `r` is dict rows when `rows` is and what follows `out + rows` is. */
  lemma ExtendObjects(r: seq<Json>, out: seq<Json>, rows: seq<Json>)
    requires |r| >= |out + rows| && r[..|out + rows|] == out + rows
    requires forall i :: 0 <= i < |rows| ==> rows[i].JObj?
    requires forall i :: |out + rows| <= i < |r| ==> r[i].JObj?
    ensures r[..|out|] == out
    ensures forall i :: |out| <= i < |r| ==> r[i].JObj?
  {
    assert r[..|out|] == r[..|out + rows|][..|out|];
    forall i | |out| <= i < |out + rows|
      ensures r[i].JObj?
    {
      assert r[i] == r[..|out + rows|][i] == rows[i - |out|];
    }
  }

  /**
   * `_fetch_closed_positions(addr, max_closed, page_size)`: at most `max_closed` dict rows;
   * any failed page fails the whole read.
   */
  function FetchClosed(fetch: Request -> Fetched, addr: string, maxClosed: int, pageSize: int): (r: Result<seq<Json>, FetchError>)
    ensures r.Ok? ==> |r.value| <= (if maxClosed > 0 then maxClosed else 0)
    ensures r.Ok? ==> forall i :: 0 <= i < |r.value| ==> r.value[i].JObj?
    ensures maxClosed > 0 && PageAt(fetch, addr, ClosedLimit(pageSize), 0).Err? ==> r.Err?
    ensures (forall k: nat :: PageAt(fetch, addr, ClosedLimit(pageSize), k).Ok?) ==> r.Ok?
  {
    PagesReadGiveOk(fetch, addr, maxClosed, ClosedLimit(pageSize), [], 0);
    var out :- ClosedPages(fetch, addr, maxClosed, ClosedLimit(pageSize), [], 0);
    Ok(SliceTo(out, maxClosed))
  }

  /** Reading `n` pages from `from` gives `added`, and all of them but the last are full. */
  predicate ReadsPages(fetch: Request -> Fetched, addr: string, size: int, from: nat, n: nat, added: seq<Json>) {
    Collect(fetch, addr, size, from, n) == Ok(added)
    && forall k: nat :: from <= k < from + n - 1 ==> FullPage(fetch, addr, size, k)
  }

  lemma ReadsOnePage(fetch: Request -> Fetched, addr: string, size: int, from: nat, rows: seq<Json>)
    requires PageAt(fetch, addr, size, from) == Ok(rows)
    ensures ReadsPages(fetch, addr, size, from, 1, rows)
  {
    assert Collect(fetch, addr, size, from + 1, 0) == Ok([]);
    assert rows + [] == rows;
  }

  lemma ReadsOneMore(fetch: Request -> Fetched, addr: string, size: int, from: nat, n: nat, rows: seq<Json>, rest: seq<Json>)
    requires PageAt(fetch, addr, size, from) == Ok(rows) && |rows| >= size
    requires ReadsPages(fetch, addr, size, from + 1, n, rest)
    ensures ReadsPages(fetch, addr, size, from, n + 1, rows + rest)
  {
    assert FullPage(fetch, addr, size, from);
  }

  /** One full page in front of `n` further pages read is `n + 1` pages read, for the same stop reason. */
  lemma ReadsPagesStep(fetch: Request -> Fetched, addr: string, maxClosed: int, size: int, out: seq<Json>, page: nat,
                       rows: seq<Json>, r: seq<Json>, n: nat)
    requires PageAt(fetch, addr, size, page) == Ok(rows) && |rows| >= size
    requires |r| >= |out + rows| && r[..|out + rows|] == out + rows
    requires ReadsPages(fetch, addr, size, page + 1, n, r[|out + rows|..])
    requires StopsAfter(fetch, addr, maxClosed, size, r, page + 1, n)
    ensures ReadsPages(fetch, addr, size, page, n + 1, r[|out|..])
    ensures StopsAfter(fetch, addr, maxClosed, size, r, page, n + 1)
  {
    SuffixSplit(r, out, rows);
    ReadsOneMore(fetch, addr, size, page, n, rows, r[|out + rows|..]);
  }

  lemma SuffixSplit(r: seq<Json>, out: seq<Json>, rows: seq<Json>)
    requires |r| >= |out + rows| && r[..|out + rows|] == out + rows
    ensures r[|out|..] == rows + r[|out + rows|..]
  {
    assert r == r[..|out + rows|] + r[|out + rows|..];
  }

  /** Why the paging loop stopped: the quota is met, or the last page read was not full. */
  predicate StopsAfter(fetch: Request -> Fetched, addr: string, maxClosed: int, size: int, total: seq<Json>, page: nat, n: nat) {
    |total| >= maxClosed || (n > 0 && !FullPage(fetch, addr, size, page + n - 1))
  }

  /**
   * The loop reads consecutive pages from `page` on: what it adds to `out` is the
   * concatenation of some `n` pages, every one of them read without error and all but the
   * last full, and it stops only with the quota met or after a page that was not full
   * (empty, not a list, or short). So an error on any page it reads fails the whole loop.
   */
  lemma {:induction false} ClosedPagesReadsPages(fetch: Request -> Fetched, addr: string, maxClosed: int, size: int, out: seq<Json>, page: nat)
    requires size >= 1
    requires ClosedPages(fetch, addr, maxClosed, size, out, page).Ok?
    ensures var r := ClosedPages(fetch, addr, maxClosed, size, out, page).value;
            exists n: nat :: ReadsPages(fetch, addr, size, page, n, r[|out|..]) && StopsAfter(fetch, addr, maxClosed, size, r, page, n)
    decreases if |out| < maxClosed then maxClosed - |out| else 0
  {
    var r := ClosedPages(fetch, addr, maxClosed, size, out, page).value;
    if |out| >= maxClosed {
      assert r[|out|..] == [];
      assert ReadsPages(fetch, addr, size, page, 0, r[|out|..]);
      assert StopsAfter(fetch, addr, maxClosed, size, r, page, 0);
    } else {
      var rows := PageAt(fetch, addr, size, page).value;
      if |rows| == 0 || |rows| < size {
        assert r[|out|..] == rows;
        ReadsOnePage(fetch, addr, size, page, rows);
        assert StopsAfter(fetch, addr, maxClosed, size, r, page, 1);
      } else {
        var out' := out + rows;
        assert r == ClosedPages(fetch, addr, maxClosed, size, out', page + 1).value;
        ClosedPagesReadsPages(fetch, addr, maxClosed, size, out', page + 1);
        var n: nat :| ReadsPages(fetch, addr, size, page + 1, n, r[|out'|..]) && StopsAfter(fetch, addr, maxClosed, size, r, page + 1, n);
        ReadsPagesStep(fetch, addr, maxClosed, size, out, page, rows, r, n);
      }
    }
  }

  /**
   * `_fetch_closed_positions` returns the first `max_closed` rows of consecutive pages from
   * offset 0, each read without error, having stopped at the quota or after a page that
   * was not full.
   */
  lemma FetchClosedIsPagePrefix(fetch: Request -> Fetched, addr: string, maxClosed: int, pageSize: int)
    requires FetchClosed(fetch, addr, maxClosed, pageSize).Ok?
    ensures exists n: nat, all: seq<Json> ::
              ReadsPages(fetch, addr, ClosedLimit(pageSize), 0, n, all)
              && StopsAfter(fetch, addr, maxClosed, ClosedLimit(pageSize), all, 0, n)
              && FetchClosed(fetch, addr, maxClosed, pageSize).value == SliceTo(all, maxClosed)
  {
    var size := ClosedLimit(pageSize);
    ClosedPagesReadsPages(fetch, addr, maxClosed, size, [], 0);
    var r := ClosedPages(fetch, addr, maxClosed, size, [], 0).value;
    assert r[0..] == r;
    var n: nat :| ReadsPages(fetch, addr, size, 0, n, r[0..]) && StopsAfter(fetch, addr, maxClosed, size, r, 0, n);
    assert ReadsPages(fetch, addr, size, 0, n, r);
  }

  /** When every page is full the loop collects at least `max_closed` rows. */
  lemma {:induction false} FullPagesReachQuota(fetch: Request -> Fetched, addr: string, maxClosed: int, size: int, out: seq<Json>, page: nat)
    requires size >= 1
    requires forall k: nat :: FullPage(fetch, addr, size, k)
    ensures ClosedPages(fetch, addr, maxClosed, size, out, page).Ok?
    ensures |ClosedPages(fetch, addr, maxClosed, size, out, page).value| >= maxClosed
    decreases if |out| < maxClosed then maxClosed - |out| else 0
  {
    if |out| < maxClosed {
      assert FullPage(fetch, addr, size, page);
      FullPagesReachQuota(fetch, addr, maxClosed, size, out + PageAt(fetch, addr, size, page).value, page + 1);
    }
  }

  /** A wallet whose every page is full yields exactly `max_closed` closed rows. */
  lemma FullPagesFillQuota(fetch: Request -> Fetched, addr: string, maxClosed: int, pageSize: int)
    requires maxClosed >= 0
    requires forall k: nat :: FullPage(fetch, addr, ClosedLimit(pageSize), k)
    ensures FetchClosed(fetch, addr, maxClosed, pageSize).Ok?
    ensures |FetchClosed(fetch, addr, maxClosed, pageSize).value| == maxClosed
  {
    FullPagesReachQuota(fetch, addr, maxClosed, ClosedLimit(pageSize), [], 0);
  }

  // ---------------------------------------------------------------------------
  // One wallet
  // ---------------------------------------------------------------------------

  /** Open positions requested per wallet. */
  const PositionsPerWallet: int := 200

  /** Why a holder did not become a row. */
  datatype DropReason = PnlUnknown | PnlBelowMinProfit | PositionsError | NoPositionInMarket | PositionZeroValue

  /** The counter key the report uses for a drop reason. */
  function DropKey(d: DropReason): string {
    match d
    case PnlUnknown => "pnl_unknown"
    case PnlBelowMinProfit => "pnl_below_min_profit"
    case PositionsError => "positions_error"
    case NoPositionInMarket => "no_position_in_market"
    case PositionZeroValue => "position_zero_value"
  }

  datatype Enriched = Kept(row: WalletRow) | Dropped(reason: DropReason)

  /** All-time PnL from the leaderboard; a failed lookup counts as no row. */
  function LeaderboardPnl(fetch: Request -> Fetched, addr: string): Option<real> {
    match LeaderboardUser(fetch, addr)
    case Ok(row) => PickPnlAllTime(row)
    case Err(_) => None
  }

  /** The closed history; a failed read counts as empty. */
  function ClosedOrEmpty(fetch: Request -> Fetched, addr: string, maxClosed: int, pageSize: int): (c: seq<Json>)
    ensures |c| <= (if maxClosed > 0 then maxClosed else 0)
  {
    match FetchClosed(fetch, addr, maxClosed, pageSize)
    case Ok(rows) => rows
    case Err(_) => []
  }

  /** The row of a wallet that passed every filter. */
  function WalletRowFor(env: Env, addr: string, pnl: Option<real>, outcome: string, mv: real, maxClosed: int, pageSize: int): WalletRow {
    var closed := ClosedOrEmpty(env.fetch, addr, maxClosed, pageSize);
    var ws := WinRateAndRecency(closed, env.now);
    var conv := ConvictionRatio(mv, closed);
    var recent := SumRealizedPnl(closed);
    var pnlAll := pnl.GetOr(0.0);
    var feats := WalletFeatures(pnlAll, ws.winRate, 0, ws.daysSince, conv, Some(outcome), mv, 0.0);
    WalletRow(addr, outcome, mv, ws.winRate, ws.wrN, |closed|, ws.daysSince, conv, WalletWeight(feats, env.exp, env.sqrt),
              pnlAll, pnl.Some?, if pnl.Some? then "LB" else "UNK", recent.0, recent.1)
  }

  /** The leaderboard PnL filter passes: a known PnL at or above the threshold, or an unknown one under a non-positive threshold. */
  predicate PnlPasses(pnl: Option<real>, minProfit: real) {
    if pnl.None? then minProfit <= 0.0 else pnl.value >= minProfit
  }

  /**
   * `_enrich_wallet_for_market`: the PnL filter first (unknown PnL only passes a
   * non-positive threshold), then the open position in this market, then the closed
   * history and the weight.
   */
  function EnrichWallet(env: Env, addr: string, conditionId: string, minProfit: real, maxClosed: int, pageSize: int): (e: Enriched)
    ensures e == Dropped(PnlUnknown) <==> LeaderboardPnl(env.fetch, addr).None? && minProfit > 0.0
    ensures e == Dropped(PnlBelowMinProfit) <==> LeaderboardPnl(env.fetch, addr).Some? && LeaderboardPnl(env.fetch, addr).value < minProfit
    ensures e.Kept? ==>
              e.row.addr == addr && e.row.outcome != "" && e.row.marketValue > 0.0 && e.row.weight >= 0.0
              && e.row.closedScanned <= (if maxClosed > 0 then maxClosed else 0)
              && (e.row.pnlAllKnown <==> LeaderboardPnl(env.fetch, addr).Some?)
              && (e.row.pnlAllKnown <==> e.row.pnlSrc == "LB")
              && (e.row.pnlSrc == "LB" || e.row.pnlSrc == "UNK")
              && (e.row.pnlAllKnown ==> e.row.pnlAll == LeaderboardPnl(env.fetch, addr).value && e.row.pnlAll >= minProfit)
              && (!e.row.pnlAllKnown ==> e.row.pnlAll == 0.0 && minProfit <= 0.0)
    ensures e.Kept? ==> PositionsForUserMarket(env.fetch, addr, conditionId, PositionsPerWallet).Ok?
    ensures var pos := PositionsForUserMarket(env.fetch, addr, conditionId, PositionsPerWallet);
            e == Dropped(PositionsError) <==> PnlPasses(LeaderboardPnl(env.fetch, addr), minProfit) && pos.Err?
    ensures var pos := PositionsForUserMarket(env.fetch, addr, conditionId, PositionsPerWallet);
            e == Dropped(NoPositionInMarket) <==>
              PnlPasses(LeaderboardPnl(env.fetch, addr), minProfit) && pos.Ok?
              && (PositionSummary(pos.value).0.None? || PositionSummary(pos.value).0.value == "")
    ensures var pos := PositionsForUserMarket(env.fetch, addr, conditionId, PositionsPerWallet);
            e == Dropped(PositionZeroValue) <==>
              PnlPasses(LeaderboardPnl(env.fetch, addr), minProfit) && pos.Ok?
              && PositionSummary(pos.value).0.Some? && PositionSummary(pos.value).0.value != ""
              && PositionSummary(pos.value).1 <= 0.0
    ensures var pos := PositionsForUserMarket(env.fetch, addr, conditionId, PositionsPerWallet);
            e.Kept? <==>
              PnlPasses(LeaderboardPnl(env.fetch, addr), minProfit) && pos.Ok?
              && PositionSummary(pos.value).0.Some? && PositionSummary(pos.value).0.value != ""
              && PositionSummary(pos.value).1 > 0.0
    ensures e.Kept? ==>
              var summary := PositionSummary(PositionsForUserMarket(env.fetch, addr, conditionId, PositionsPerWallet).value);
              var closed := ClosedOrEmpty(env.fetch, addr, maxClosed, pageSize);
              var ws := WinRateAndRecency(closed, env.now);
              e.row.outcome == summary.0.value && e.row.marketValue == summary.1
              && e.row.closedScanned == |closed|
              && e.row.winRate == ws.winRate && e.row.wrN == ws.wrN && e.row.daysSinceActive == ws.daysSince
              && e.row.convictionRatio == ConvictionRatio(summary.1, closed)
              && e.row.pnlRecent == SumRealizedPnl(closed).0 && e.row.pnlRecentN == SumRealizedPnl(closed).1
              && e.row.weight == WalletWeight(WalletFeatures(e.row.pnlAll, ws.winRate, 0, ws.daysSince, e.row.convictionRatio,
                                                             Some(e.row.outcome), e.row.marketValue, 0.0), env.exp, env.sqrt)
  {
    var pnl := LeaderboardPnl(env.fetch, addr);
    if pnl.None? && minProfit > 0.0 then Dropped(PnlUnknown)
    else if pnl.Some? && pnl.value < minProfit then Dropped(PnlBelowMinProfit)
    else match PositionsForUserMarket(env.fetch, addr, conditionId, PositionsPerWallet)
      case Err(_) => Dropped(PositionsError)
      case Ok(positions) =>
        var summary := PositionSummary(positions);
        if summary.0.None? || summary.0.value == "" then Dropped(NoPositionInMarket)
        else if summary.1 <= 0.0 then Dropped(PositionZeroValue)
        else Kept(WalletRowFor(env, addr, pnl, summary.0.value, summary.1, maxClosed, pageSize))
  }

  /**
   * The PnL threshold only filters: lowering it never drops a kept wallet and never
   * changes its row.
   */
  lemma ThresholdOnlyFilters(env: Env, addr: string, conditionId: string, lower: real, higher: real, maxClosed: int, pageSize: int)
    requires lower <= higher
    requires EnrichWallet(env, addr, conditionId, higher, maxClosed, pageSize).Kept?
    ensures EnrichWallet(env, addr, conditionId, lower, maxClosed, pageSize) == EnrichWallet(env, addr, conditionId, higher, maxClosed, pageSize)
  {
  }

  /** A wallet with no open position in the market (an empty positions list) is dropped, never kept. */
  lemma NoPositionNoRow(env: Env, addr: string, conditionId: string, minProfit: real, maxClosed: int, pageSize: int)
    requires PositionsForUserMarket(env.fetch, addr, conditionId, PositionsPerWallet).Ok?
    requires PositionRows(PositionsForUserMarket(env.fetch, addr, conditionId, PositionsPerWallet).value) == []
    ensures EnrichWallet(env, addr, conditionId, minProfit, maxClosed, pageSize).Dropped?
  {
  }

  function KeptRow(e: Enriched): seq<WalletRow> {
    if e.Kept? then [e.row] else []
  }

  function DroppedKey(e: Enriched): seq<string> {
    if e.Dropped? then [DropKey(e.reason)] else []
  }

  function Enricher(env: Env, conditionId: string, cfg: Config): string -> Enriched {
    addr => EnrichWallet(env, addr, conditionId, cfg.minProfit, cfg.maxClosed, cfg.closedPageSize)
  }

  /** The gathered enrichment results, in wallet order. */
  function EnrichAll(env: Env, wallets: seq<string>, conditionId: string, cfg: Config): (es: seq<Enriched>)
    ensures |es| == |wallets|
    ensures forall i :: 0 <= i < |wallets| ==> es[i] == Enricher(env, conditionId, cfg)(wallets[i])
  {
    Map(Enricher(env, conditionId, cfg), wallets)
  }

  /** The kept rows, in wallet order. */
  function KeptRows(es: seq<Enriched>): seq<WalletRow> {
    FlatMap(KeptRow, es)
  }

  /** The drop counter: one key per dropped wallet. */
  function DropCounts(es: seq<Enriched>): multiset<string> {
    multiset(FlatMap(DroppedKey, es))
  }

  /** Every wallet is either a row or a counted drop, never both. */
  lemma {:induction false} KeptPlusDropped(es: seq<Enriched>)
    ensures |KeptRows(es)| + |DropCounts(es)| == |es|
  {
    if |es| > 0 {
      var init := es[..|es| - 1];
      KeptPlusDropped(init);
      assert es == init + [es[|es| - 1]];
      FlatMapConcat(KeptRow, init, [es[|es| - 1]]);
      FlatMapConcat(DroppedKey, init, [es[|es| - 1]]);
      assert [es[|es| - 1]][..0] == [];
    }
  }

  /** A row is kept exactly when some wallet's enrichment kept it. */
  lemma KeptRowsMembership(es: seq<Enriched>, r: WalletRow)
    ensures r in KeptRows(es) <==> Kept(r) in es
  {
    FlatMapMembership(KeptRow, es, r);
    if Kept(r) in es {
      var i :| 0 <= i < |es| && es[i] == Kept(r);
      assert r in KeptRow(es[i]);
    }
  }

  /** Holder order does not matter: reordered wallets give the same rows and drop counts. */
  lemma EnrichOrderFree(env: Env, w1: seq<string>, w2: seq<string>, conditionId: string, cfg: Config)
    requires multiset(w1) == multiset(w2)
    ensures multiset(KeptRows(EnrichAll(env, w1, conditionId, cfg))) == multiset(KeptRows(EnrichAll(env, w2, conditionId, cfg)))
    ensures DropCounts(EnrichAll(env, w1, conditionId, cfg)) == DropCounts(EnrichAll(env, w2, conditionId, cfg))
  {
    var f := Enricher(env, conditionId, cfg);
    MapPermutation(f, w1, w2);
    FlatMapPermutation(KeptRow, Map(f, w1), Map(f, w2));
    FlatMapPermutation(DroppedKey, Map(f, w1), Map(f, w2));
  }

  // ---------------------------------------------------------------------------
  // Market metadata from the Gamma record
  // ---------------------------------------------------------------------------

  function PyStrOf(j: Json): string {
    PyStr(j)
  }

  /** `_market_outcomes_from_gamma`: the decoded `outcomes` list as text, or `[]`. */
  function MarketOutcomes(gamma: Json, loads: string -> Option<Json>): (r: seq<string>)
    ensures ParseJsonishList(Get(gamma, "outcomes"), loads).None? ==> r == []
    ensures ParseJsonishList(Get(gamma, "outcomes"), loads).Some? ==>
              |r| == |ParseJsonishList(Get(gamma, "outcomes"), loads).value|
    ensures forall i :: 0 <= i < |r| ==> r[i] == PyStr(ParseJsonishList(Get(gamma, "outcomes"), loads).value[i])
  {
    Map(PyStrOf, ParseJsonishList(Get(gamma, "outcomes"), loads).GetOr([]))
  }

  function FloatOrZero(j: Json): real {
    SafeFloat(j, 0.0)
  }

  /** The prices as floats, before the percent check. */
  function RawProbs(gamma: Json, loads: string -> Option<Json>): seq<real> {
    Map(FloatOrZero, ParseJsonishList(Get(gamma, "outcomePrices"), loads).GetOr([]))
  }

  /** The largest price above which prices are read as percentages. */
  const PercentCutoff: real := 1.5

  /**
   * `_market_probs_from_gamma`: the decoded `outcomePrices` as floats, divided by 100
   * when any of them exceeds 1.5 (the feed gave percentages).
   */
  function MarketProbs(gamma: Json, loads: string -> Option<Json>): (r: seq<real>)
    ensures |r| == |RawProbs(gamma, loads)|
    ensures (forall i :: 0 <= i < |r| ==> RawProbs(gamma, loads)[i] <= PercentCutoff) ==> r == RawProbs(gamma, loads)
    ensures (exists i :: 0 <= i < |r| && RawProbs(gamma, loads)[i] > PercentCutoff) ==>
              forall i :: 0 <= i < |r| ==> r[i] == RawProbs(gamma, loads)[i] / 100.0
  {
    var probs := RawProbs(gamma, loads);
    if |probs| > 0 && MaxOf(probs) > PercentCutoff then DivideAll(probs, 100.0) else probs
  }

  /** Prices given as percentages (within [0, 100], one above 1.5) come out as probabilities in [0, 1]. */
  lemma PercentPricesBecomeProbabilities(gamma: Json, loads: string -> Option<Json>)
    requires forall i :: 0 <= i < |RawProbs(gamma, loads)| ==> 0.0 <= RawProbs(gamma, loads)[i] <= 100.0
    requires exists i :: 0 <= i < |RawProbs(gamma, loads)| && RawProbs(gamma, loads)[i] > PercentCutoff
    ensures forall i :: 0 <= i < |MarketProbs(gamma, loads)| ==> 0.0 <= MarketProbs(gamma, loads)[i] <= 1.0
  {
  }

  // ---------------------------------------------------------------------------
  // One market
  // ---------------------------------------------------------------------------

  /** The full Gamma record fetched for a partial event market; `None` when there is nothing to merge. */
  function FullMarket(fetch: Request -> Fetched, market: Json): Option<Json> {
    if !market.JObj? || Truthy(Get(market, "conditionId")) || !Truthy(Get(market, "slug")) then None
    else match MarketBySlug(fetch, PyStr(Get(market, "slug")))
      case Ok(full) => if full.JObj? && Truthy(full) then Some(full) else None
      case Err(_) => None
  }

  /**
   * `_resolve_market_if_needed`: a dict without a truthy `conditionId` but with a slug is
   * completed from the Gamma record, its own fields winning; any failure keeps it as is.
   */
  function ResolveMarketIfNeeded(fetch: Request -> Fetched, market: Json): (m: Json)
    ensures !market.JObj? || Truthy(Get(market, "conditionId")) ==> m == market
    ensures m.JObj? <==> market.JObj?
    ensures FullMarket(fetch, market).None? ==> m == market
    ensures FullMarket(fetch, market).Some? ==>
              forall k :: Get(m, k) == (if Has(market, k) then Get(market, k) else Get(FullMarket(fetch, market).value, k))
  {
    match FullMarket(fetch, market)
    case None => market
    case Some(full) =>
      var merged := JObj(market.fields + full.fields);
      forall k
        ensures Get(merged, k) == (if Has(market, k) then Get(market, k) else Get(full, k))
      {
        LookupConcat(market.fields, full.fields, k);
      }
      merged
  }

  /** Why the analysis of a market could not complete. */
  datatype Failure = FetchFailed(error: FetchError) | ValueFailed(msg: string) | NotADict

  function FromFetch<T>(r: Result<T, FetchError>): (r': Result<T, Failure>)
    ensures r.Ok? <==> r'.Ok?
    ensures r.Ok? ==> r'.value == r.value
    ensures r.Err? ==> r' == Err(FetchFailed(r.error))
  {
    match r
    case Ok(v) => Ok(v)
    case Err(e) => Err(FetchFailed(e))
  }

  function FromValue<T>(r: Result<T, string>): (r': Result<T, Failure>)
    ensures r.Ok? <==> r'.Ok?
    ensures r.Ok? ==> r'.value == r.value
  {
    match r
    case Ok(v) => Ok(v)
    case Err(msg) => Err(ValueFailed(msg))
  }

  /** What the report shows from the Gamma record. */
  datatype GammaDetails = GammaDetails(outcomes: seq<string>, probs: seq<real>, active: Json, closed: Json, endDate: Json, closedTime: Json)

  datatype MarketInfo = MarketInfo(question: Json, slug: Json, conditionId: Option<string>, details: Option<GammaDetails>)

  /** The diagnostics of a report: which early exit was taken, or the gate's findings. */
  datatype Diagnostics =
    | MissingConditionId
    | StatusGated(status: StatusGate)
    | Decided(gate: GateDiag, drops: multiset<string>, holdersLimit: int, holdersFound: nat)

  /** The result dict of `_analyze_single_market`. */
  datatype MarketReport = MarketReport(
    market: MarketInfo,
    rec: Recommendation,
    confidence: real,
    nQualified: nat,
    nConsidered: nat,
    dist: seq<(string, real)>,
    rows: seq<WalletRow>,
    diagnostics: Diagnostics)

  /** The counter entry for a market whose holder list came back empty. */
  function NoHoldersDrop(wallets: seq<string>): multiset<string> {
    if |wallets| == 0 then multiset{"no_holders_returned"} else multiset{}
  }

  /** The wallet-driven part of the analysis. */
  datatype Verdict = Verdict(rows: seq<WalletRow>, dist: seq<(string, real)>, confidence: real, gate: GateResult, drops: multiset<string>)

  /**
   * The verdict over already-sorted rows: their weighted distribution, its confidence, and
   * the gate, which says BUY exactly when every gate passes.
   */
  function VerdictOf(rows: seq<WalletRow>, drops: multiset<string>, cfg: Config): (v: Verdict)
    ensures v.rows == rows && v.drops == drops
    ensures 0.0 <= v.confidence <= 10.0
    ensures v.gate.rec.Buy? ==> |v.dist| > 0 && v.gate.rec.outcome == v.dist[0].0
    ensures v.gate.rec.Buy? <==>
              |v.dist| > 0 && |rows| > 0 && |rows| >= cfg.minQualified && TopWalletShare(rows) < cfg.whale
              && v.dist[0].1 >= cfg.consensus
    ensures v.dist == WeightedDistribution(rows)
    ensures TotalWeight(rows) > 0.0 ==> Tabulates(v.dist, OutcomeShares(rows))
    ensures v.confidence == Confidence(v.dist)
    ensures v.gate == GateRecommendation(v.dist, rows, cfg.consensus, cfg.whale, cfg.minQualified)
    ensures v.gate.rec.Buy? <==> v.gate.diag.gate.None?
  {
    var dist := WeightedDistribution(rows);
    DistributionSpec(rows);
    Verdict(rows, dist, Confidence(dist), GateRecommendation(dist, rows, cfg.consensus, cfg.whale, cfg.minQualified), drops)
  }

  /**
   * Enrich every holder, sort the kept rows by weight (heaviest first, stable), and
   * derive the distribution, the confidence and the gate from them.
   */
  function Decide(env: Env, wallets: seq<string>, conditionId: string, cfg: Config): (v: Verdict)
    ensures SortedDesc(v.rows, Weight)
    ensures multiset(v.rows) == multiset(KeptRows(EnrichAll(env, wallets, conditionId, cfg)))
    ensures |v.rows| + |v.drops| == |wallets| + (if |wallets| == 0 then 1 else 0)
    ensures v.drops["no_holders_returned"] == (if |wallets| == 0 then 1 else 0)
    ensures |v.rows| <= |wallets|
    ensures 0.0 <= v.confidence <= 10.0
    ensures v.gate.rec.Buy? ==> |v.dist| > 0 && v.gate.rec.outcome == v.dist[0].0 && v.dist[0].1 >= cfg.consensus
                                && |v.rows| >= cfg.minQualified && |v.rows| > 0 && TopWalletShare(v.rows) < cfg.whale
    ensures v.gate.rec.Buy? <==>
              |v.dist| > 0 && |v.rows| > 0 && |v.rows| >= cfg.minQualified && TopWalletShare(v.rows) < cfg.whale
              && v.dist[0].1 >= cfg.consensus
    ensures v.dist == WeightedDistribution(v.rows)
    ensures TotalWeight(v.rows) > 0.0 ==> Tabulates(v.dist, OutcomeShares(v.rows))
    ensures v.confidence == Confidence(v.dist)
    ensures v.gate == GateRecommendation(v.dist, v.rows, cfg.consensus, cfg.whale, cfg.minQualified)
    ensures v.gate.rec.Buy? <==> v.gate.diag.gate.None?
  {
    var es := EnrichAll(env, wallets, conditionId, cfg);
    var rows := SortDesc(KeptRows(es), Weight);
    var drops := DropCounts(es) + NoHoldersDrop(wallets);
    assert |rows| + |drops| == |wallets| + (if |wallets| == 0 then 1 else 0) by { KeptPlusDropped(es); }
    assert drops["no_holders_returned"] == (if |wallets| == 0 then 1 else 0) by {
      NoHoldersKeyIsNotADropReason(es);
    }
    VerdictOf(rows, drops, cfg)
  }

  /**
   * The weight sort is stable: rows of equal weight keep the order of the wallets they
   * came from, and equal shares in the distribution keep the order in which their
   * outcomes first counted in the sorted rows.
   */
  lemma DecideTieOrder(env: Env, wallets: seq<string>, conditionId: string, cfg: Config)
    ensures EqualWeightsInOrder(Decide(env, wallets, conditionId, cfg).rows, KeptRows(EnrichAll(env, wallets, conditionId, cfg)))
    ensures TiesInFirstSeenOrder(Decide(env, wallets, conditionId, cfg).dist, Decide(env, wallets, conditionId, cfg).rows)
  {
    var v := Decide(env, wallets, conditionId, cfg);
    var kept := KeptRows(EnrichAll(env, wallets, conditionId, cfg));
    DecideSortsKept(env, wallets, conditionId, cfg);
    SortedRowsTieOrder(kept, v.rows);
    DistributionTieOrder(v.rows);
  }

  /** The verdict's rows are the kept rows sorted by weight. */
  lemma DecideSortsKept(env: Env, wallets: seq<string>, conditionId: string, cfg: Config)
    ensures Decide(env, wallets, conditionId, cfg).rows == SortDesc(KeptRows(EnrichAll(env, wallets, conditionId, cfg)), Weight)
  {
  }

  /** `rows` lists the rows of each weight in the same order as `kept`. */
  ghost predicate EqualWeightsInOrder(rows: seq<WalletRow>, kept: seq<WalletRow>) {
    forall w :: Filter(KeyIs(Weight, w), rows) == Filter(KeyIs(Weight, w), kept)
  }

  /** Sorting by weight keeps the order among rows of equal weight. */
  lemma SortedRowsTieOrder(kept: seq<WalletRow>, rows: seq<WalletRow>)
    requires rows == SortDesc(kept, Weight)
    ensures EqualWeightsInOrder(rows, kept)
  {
    forall w
      ensures Filter(KeyIs(Weight, w), rows) == Filter(KeyIs(Weight, w), kept)
    {
      SortDescStable(kept, Weight, w);
    }
  }

  /** No enrichment drop reason is spelled like the empty-holders marker. */
  lemma {:induction false} NoHoldersKeyIsNotADropReason(es: seq<Enriched>)
    ensures DropCounts(es)["no_holders_returned"] == 0
  {
    FlatMapMembership(DroppedKey, es, "no_holders_returned");
  }

  /**
   * `_analyze_single_market`: resolve a partial market, stop early without a condition id
   * or when the status gate fires, otherwise read the holders and decide.
   */
  function AnalyzeSingleMarket(env: Env, market: Json, cfg: Config): (r: Result<MarketReport, Failure>)
    ensures !market.JObj? ==> r == Err(NotADict)
    ensures r.Ok? ==> 0.0 <= r.value.confidence <= 10.0 && SortedDesc(r.value.rows, Weight)
    ensures r.Ok? ==> r.value.nQualified == |r.value.rows| && r.value.nQualified <= r.value.nConsidered
    ensures r.Ok? && !r.value.diagnostics.Decided? ==>
              r.value.rec == StayOut && r.value.confidence == 0.0 && r.value.rows == [] && r.value.dist == []
              && r.value.nConsidered == 0
    ensures r.Ok? && r.value.diagnostics.MissingConditionId? <==>
              market.JObj? && PyStr(Or(Get(ResolveMarketIfNeeded(env.fetch, market), "conditionId"), JStr(""))) == ""
    ensures r.Ok? && r.value.rec.Buy? ==>
              r.value.diagnostics.Decided? && r.value.diagnostics.gate.gate.None?
              && |r.value.dist| > 0 && r.value.rec.outcome == r.value.dist[0].0 && r.value.dist[0].1 >= cfg.consensus
              && r.value.nQualified >= cfg.minQualified && |r.value.rows| > 0 && TopWalletShare(r.value.rows) < cfg.whale
    ensures var m := ResolveMarketIfNeeded(env.fetch, market);
            m.JObj? && PyStr(Or(Get(m, "conditionId"), JStr(""))) == "" ==>
              r == Ok(MarketReport(MarketInfo(Get(m, "question"), Get(m, "slug"), None, None), StayOut, 0.0, 0, 0, [], [],
                                   MissingConditionId))
    ensures var m := ResolveMarketIfNeeded(env.fetch, market);
            var cid := PyStr(Or(Get(m, "conditionId"), JStr("")));
            var gamma := GammaMarket(env.fetch, cid);
            m.JObj? && cid != "" ==>
              (gamma.Err? ==> r == Err(FetchFailed(gamma.error)))
              && (gamma.Ok? ==>
                    var gate := MarketStatusGate(m, gamma.value, env.now, env.parseIso);
                    (gate.Err? ==> r == Err(ValueFailed(gate.error)))
                    && (gate.Ok? && gate.value.Some? ==>
                          r == Ok(MarketReport(InfoOf(env, m, cid, gamma.value), StayOut, 0.0, 0, 0, [], [],
                                               StatusGated(gate.value.value))))
                    && (gate == Ok(None) ==> r == HoldersReport(env, InfoOf(env, m, cid, gamma.value), cid, cfg)))
  {
    var m := ResolveMarketIfNeeded(env.fetch, market);
    if !m.JObj? then Err(NotADict)
    else
      var cid := PyStr(Or(Get(m, "conditionId"), JStr("")));
      if cid == "" then
        Ok(MarketReport(MarketInfo(Get(m, "question"), Get(m, "slug"), None, None), StayOut, 0.0, 0, 0, [], [], MissingConditionId))
      else
        var gamma :- FromFetch(GammaMarket(env.fetch, cid));
        var info := InfoOf(env, m, cid, gamma);
        var status :- FromValue(MarketStatusGate(m, gamma, env.now, env.parseIso));
        if status.Some? then Ok(MarketReport(info, StayOut, 0.0, 0, 0, [], [], StatusGated(status.value)))
        else
          HoldersReport(env, info, cid, cfg)
  }

  /** The report once a market has passed the status gate: read the holders and decide. */
  /** The market block of a report: the listing's question and slug, and the Gamma record's details. */
  function InfoOf(env: Env, m: Json, cid: string, gamma: Json): (info: MarketInfo)
    ensures info.conditionId == Some(cid) && info.details.Some?
    ensures info.question == Get(m, "question") && info.slug == Get(m, "slug")
    ensures info.details.value.outcomes == MarketOutcomes(gamma, env.loads)
    ensures info.details.value.probs == MarketProbs(gamma, env.loads)
  {
    var details := GammaDetails(MarketOutcomes(gamma, env.loads), MarketProbs(gamma, env.loads),
                                Get(gamma, "active"), Get(gamma, "closed"), Get(gamma, "endDate"), Get(gamma, "closedTime"));
    MarketInfo(Get(m, "question"), Get(m, "slug"), Some(cid), Some(details))
  }

  /**
   * The report of a decided market, carrying the verdict over `nConsidered` holders.
   */
  function DecidedReport(info: MarketInfo, v: Verdict, nConsidered: nat, cfg: Config): (rep: MarketReport)
    ensures rep.market == info && rep.rows == v.rows && rep.nQualified == |v.rows| && rep.nConsidered == nConsidered
    ensures rep.rec == v.gate.rec && rep.dist == v.dist && rep.confidence == v.confidence
    ensures rep.diagnostics == Decided(v.gate.diag, v.drops, cfg.holdersLimit, nConsidered)
  {
    MarketReport(info, v.gate.rec, v.confidence, |v.rows|, nConsidered, v.dist, v.rows,
                 Decided(v.gate.diag, v.drops, cfg.holdersLimit, nConsidered))
  }

  function HoldersReport(env: Env, info: MarketInfo, cid: string, cfg: Config): (r: Result<MarketReport, Failure>)
    ensures r.Ok? ==> r.value.diagnostics.Decided? && r.value.market == info
    ensures r.Ok? ==> 0.0 <= r.value.confidence <= 10.0 && SortedDesc(r.value.rows, Weight)
    ensures r.Ok? ==> r.value.nQualified == |r.value.rows| && r.value.nQualified <= r.value.nConsidered
    ensures r.Ok? && r.value.rec.Buy? ==>
              r.value.diagnostics.gate.gate.None?
              && |r.value.dist| > 0 && r.value.rec.outcome == r.value.dist[0].0 && r.value.dist[0].1 >= cfg.consensus
              && r.value.nQualified >= cfg.minQualified && |r.value.rows| > 0 && TopWalletShare(r.value.rows) < cfg.whale
  {
    match Holders(env.fetch, cid, cfg.holdersLimit, Trunc(cfg.minBalance))
    case Err(e) => Err(FetchFailed(e))
    case Ok(holders) => Ok(DecidedReport(info, Decide(env, ExtractWallets(holders), cid, cfg), |ExtractWallets(holders)|, cfg))
  }

  /**
   * A failed holders fetch is a `FetchFailed` error; otherwise the report carries `Decide`'s
   * verdict over the extracted wallets, so its distribution is the weighted one over its rows
   * and it says BUY exactly when every gate passes.
   */
  lemma HoldersReportDecides(env: Env, info: MarketInfo, cid: string, cfg: Config)
    ensures var h := Holders(env.fetch, cid, cfg.holdersLimit, Trunc(cfg.minBalance));
            var r := HoldersReport(env, info, cid, cfg);
            (h.Err? ==> r == Err(FetchFailed(h.error)))
            && (h.Ok? ==>
                  var wallets := ExtractWallets(h.value);
                  var v := Decide(env, wallets, cid, cfg);
                  r.Ok? && r.value.rows == v.rows && r.value.rec == v.gate.rec && r.value.dist == v.dist
                  && r.value.confidence == v.confidence && r.value.nConsidered == |wallets|
                  && r.value.diagnostics == Decided(v.gate.diag, v.drops, cfg.holdersLimit, |wallets|))
    ensures var r := HoldersReport(env, info, cid, cfg);
            r.Ok? ==>
              r.value.dist == WeightedDistribution(r.value.rows) && r.value.confidence == Confidence(r.value.dist)
              && (r.value.rec.Buy? <==>
                    |r.value.dist| > 0 && |r.value.rows| > 0 && r.value.nQualified >= cfg.minQualified
                    && TopWalletShare(r.value.rows) < cfg.whale && r.value.dist[0].1 >= cfg.consensus)
  {
    var h := Holders(env.fetch, cid, cfg.holdersLimit, Trunc(cfg.minBalance));
    if h.Ok? {
      var wallets := ExtractWallets(h.value);
      var v := Decide(env, wallets, cid, cfg);
      assert HoldersReport(env, info, cid, cfg) == Ok(DecidedReport(info, v, |wallets|, cfg));
    }
  }

  /** Two fetch oracles that answer every Gamma request alike. */
  ghost predicate AgreeOnGamma(f1: Request -> Fetched, f2: Request -> Fetched) {
    forall req: Request :: StartsWith(req.url, GammaBase) ==> f1(req) == f2(req)
  }

  lemma MarketBySlugReadsGamma(f1: Request -> Fetched, f2: Request -> Fetched, slug: string)
    requires AgreeOnGamma(f1, f2)
    ensures MarketBySlug(f1, slug) == MarketBySlug(f2, slug)
  {
    PrefixOfConcat(GammaBase, "/markets/slug/" + slug);
    assert GammaBase + "/markets/slug/" + slug == GammaBase + ("/markets/slug/" + slug);
    PrefixOfConcat(GammaBase, "/markets");
  }

  lemma GammaMarketReadsGamma(f1: Request -> Fetched, f2: Request -> Fetched, conditionId: string)
    requires AgreeOnGamma(f1, f2)
    ensures GammaMarket(f1, conditionId) == GammaMarket(f2, conditionId)
  {
    PrefixOfConcat(GammaBase, "/markets");
  }

  /**
   * A market stopped before the holders are read (it has no condition id, or the status
   * gate fires on its Gamma record) is decided from Gamma data alone: the Data API
   * (holders, positions, leaderboard) is never consulted, so any answers it would give
   * leave the report unchanged.
   */
  lemma StatusGateShortCircuit(env: Env, f2: Request -> Fetched, market: Json, cfg: Config)
    requires AgreeOnGamma(env.fetch, f2)
    requires var m := ResolveMarketIfNeeded(env.fetch, market);
             var cid := PyStr(Or(Get(m, "conditionId"), JStr("")));
             m.JObj? &&
             (cid == ""
              || (GammaMarket(env.fetch, cid).Ok?
                  && MarketStatusGate(m, GammaMarket(env.fetch, cid).value, env.now, env.parseIso).Ok?
                  && MarketStatusGate(m, GammaMarket(env.fetch, cid).value, env.now, env.parseIso).value.Some?))
    ensures AnalyzeSingleMarket(env.(fetch := f2), market, cfg) == AnalyzeSingleMarket(env, market, cfg)
    ensures AnalyzeSingleMarket(env, market, cfg).Ok? && !AnalyzeSingleMarket(env, market, cfg).value.diagnostics.Decided?
  {
    if market.JObj? && !Truthy(Get(market, "conditionId")) && Truthy(Get(market, "slug")) {
      MarketBySlugReadsGamma(env.fetch, f2, PyStr(Get(market, "slug")));
    }
    assert FullMarket(f2, market) == FullMarket(env.fetch, market);
    var m := ResolveMarketIfNeeded(env.fetch, market);
    if m.JObj? {
      GammaMarketReadsGamma(env.fetch, f2, PyStr(Or(Get(m, "conditionId"), JStr(""))));
    }
  }

  // ---------------------------------------------------------------------------
  // Holder order
  // ---------------------------------------------------------------------------

  function Over(t: real): real -> real
    requires t != 0.0
  {
    x => x / t
  }

  lemma MaxOfPermutation(a: seq<real>, b: seq<real>)
    requires |a| > 0 && |b| > 0 && multiset(a) == multiset(b)
    ensures MaxOf(a) == MaxOf(b)
  {
    assert MaxOf(a) in multiset(b);
    assert MaxOf(b) in multiset(a);
  }

  /** The largest single-wallet share depends only on the multiset of rows. */
  lemma TopWalletShareOrderFree(a: seq<WalletRow>, b: seq<WalletRow>)
    requires |a| > 0 && |b| > 0 && multiset(a) == multiset(b)
    ensures TopWalletShare(a) == TopWalletShare(b)
  {
    MapPermutation(NonNegWeight, a, b);
    var wa, wb := Map(NonNegWeight, a), Map(NonNegWeight, b);
    SumOfPermutation(wa, wb);
    var tot := SumOf(wa);
    if tot > 0.0 {
      assert DivideAll(wa, tot) == Map(Over(tot), wa);
      assert DivideAll(wb, tot) == Map(Over(tot), wb);
      MapPermutation(Over(tot), wa, wb);
      MaxOfPermutation(DivideAll(wa, tot), DivideAll(wb, tot));
    }
  }

  /** A sorted distribution starts with its largest share. */
  lemma TopShareIsLargest(d: seq<(string, real)>, p: (string, real))
    requires SortedDesc(d, Second) && p in d
    ensures d[0].1 >= p.1
  {
    var i :| 0 <= i < |d| && d[i] == p;
    if i > 0 {
      assert Second(d[0]) >= Second(d[i]);
    }
  }

  /**
   * Holder order does not change the verdict's substance: the same rows (as a multiset),
   * drop counts, distribution entries, top share and gate outcome; only the name of the
   * top outcome may differ, and only when two outcomes tie for the top share.
   */
  lemma DecideOrderFree(env: Env, w1: seq<string>, w2: seq<string>, conditionId: string, cfg: Config)
    requires multiset(w1) == multiset(w2)
    ensures var v1, v2 := Decide(env, w1, conditionId, cfg), Decide(env, w2, conditionId, cfg);
            multiset(v1.rows) == multiset(v2.rows)
            && v1.drops == v2.drops
            && (forall p :: p in v1.dist <==> p in v2.dist)
            && |v1.dist| == |v2.dist|
            && (|v1.dist| > 0 ==> v1.dist[0].1 == v2.dist[0].1)
            && v1.gate.diag.gate == v2.gate.diag.gate
            && v1.gate.rec.Buy? == v2.gate.rec.Buy?
  {
    var v1, v2 := Decide(env, w1, conditionId, cfg), Decide(env, w2, conditionId, cfg);
    EnrichOrderFree(env, w1, w2, conditionId, cfg);
    assert |w1| == |w2| by {
      assert |multiset(w1)| == |multiset(w2)|;
    }
    DistributionTopOrderFree(v1.rows, v2.rows);
    assert |v1.rows| == |v2.rows| by {
      assert |multiset(v1.rows)| == |multiset(v2.rows)|;
    }
    if |v1.rows| > 0 {
      TopWalletShareOrderFree(v1.rows, v2.rows);
    }
    GateOrderFree(v1.dist, v2.dist, v1.rows, v2.rows, cfg);
  }

  /** Reordered rows give a distribution with the same entries and the same top share. */
  lemma DistributionTopOrderFree(a: seq<WalletRow>, b: seq<WalletRow>)
    requires multiset(a) == multiset(b)
    ensures forall p :: p in WeightedDistribution(a) <==> p in WeightedDistribution(b)
    ensures |WeightedDistribution(a)| == |WeightedDistribution(b)|
    ensures |WeightedDistribution(a)| > 0 ==> WeightedDistribution(a)[0].1 == WeightedDistribution(b)[0].1
  {
    var da, db := WeightedDistribution(a), WeightedDistribution(b);
    DistributionOrderFree(a, b);
    DistributionSpec(a);
    DistributionSpec(b);
    if |da| > 0 {
      TopShareIsLargest(db, da[0]);
      TopShareIsLargest(da, db[0]);
    }
  }

  /** The gate reads only the number of rows, the top share and the largest wallet share. */
  lemma GateOrderFree(d1: seq<(string, real)>, d2: seq<(string, real)>, r1: seq<WalletRow>, r2: seq<WalletRow>, cfg: Config)
    requires |d1| == |d2| && (|d1| > 0 ==> d1[0].1 == d2[0].1)
    requires |r1| == |r2| && (|r1| > 0 ==> TopWalletShare(r1) == TopWalletShare(r2))
    ensures GateRecommendation(d1, r1, cfg.consensus, cfg.whale, cfg.minQualified).diag.gate
            == GateRecommendation(d2, r2, cfg.consensus, cfg.whale, cfg.minQualified).diag.gate
    ensures GateRecommendation(d1, r1, cfg.consensus, cfg.whale, cfg.minQualified).rec.Buy?
            == GateRecommendation(d2, r2, cfg.consensus, cfg.whale, cfg.minQualified).rec.Buy?
  {
  }

  // ---------------------------------------------------------------------------
  // A market reference or an event
  // ---------------------------------------------------------------------------

  datatype EventInfo = EventInfo(title: Json, slug: Json, id: Json)

  /** One line of the market menu of a multi-market event. */
  datatype Choice = Choice(index: nat, question: Json, slug: Json)

  /** What `analyze_market` returns. */
  datatype MarketAnalysis =
    | Single(report: MarketReport)
    | NeedsSelection(event: EventInfo, choices: seq<Choice>)
    | AllMarkets(event: EventInfo, results: seq<MarketReport>)

  /** `event.get("markets") or []`, with anything but a list read as `[]`. */
  function EventMarkets(event: Json): seq<Json> {
    var ms := Or(Get(event, "markets"), JArr([]));
    if ms.JArr? then ms.items else []
  }

  /** The market menu; a non-dict entry cannot be listed. */
  function Choices(markets: seq<Json>): (r: Result<seq<Choice>, Failure>)
    ensures r.Ok? <==> forall i :: 0 <= i < |markets| ==> markets[i].JObj?
    ensures r.Ok? ==> |r.value| == |markets|
                      && forall i :: 0 <= i < |markets| ==> r.value[i] == Choice(i, Get(markets[i], "question"), Get(markets[i], "slug"))
  {
    if forall i :: 0 <= i < |markets| ==> markets[i].JObj? then
      Ok(seq(|markets|, i requires 0 <= i < |markets| => Choice(i, Get(markets[i], "question"), Get(markets[i], "slug"))))
    else Err(NotADict)
  }

  /** Every market of the event in turn; the first failure stops the run. */
  function AnalyzeEach(env: Env, markets: seq<Json>, cfg: Config): (r: Result<seq<MarketReport>, Failure>)
    ensures r.Ok? <==> forall i :: 0 <= i < |markets| ==> AnalyzeSingleMarket(env, markets[i], cfg).Ok?
    ensures r.Ok? ==> |r.value| == |markets|
                      && forall i :: 0 <= i < |markets| ==> AnalyzeSingleMarket(env, markets[i], cfg) == Ok(r.value[i])
  {
    if |markets| == 0 then Ok([])
    else
      var first :- AnalyzeSingleMarket(env, markets[0], cfg);
      var rest :- AnalyzeEach(env, markets[1..], cfg);
      Ok([first] + rest)
  }

  function FromReport(r: Result<MarketReport, Failure>): Result<MarketAnalysis, Failure> {
    match r
    case Ok(rep) => Ok(Single(rep))
    case Err(e) => Err(e)
  }

  /** The message of an out-of-range `market_index`. */
  function IndexError(idx: int, n: nat): string {
    "market_index out of range: " + IntToString(idx) + " (0.." + IntToString(n - 1) + ")"
  }

  /**
   * The event-level part of `analyze_market`, given a truthy event dict. The selection
   * rules: no markets is an error; several markets with no index and no "all" ask for a
   * choice (one per market, numbered in order); "all" analyses every market; otherwise
   * the index (default 0) must be in range and picks the one market analysed.
   */
  function AnalyzeEvent(env: Env, event: Json, index: Option<int>, all: bool, cfg: Config): (r: Result<MarketAnalysis, Failure>)
    ensures |EventMarkets(event)| == 0 ==> r.Err?
    ensures r.Ok? && r.value.NeedsSelection? ==>
              |EventMarkets(event)| > 1 && index.None? && !all && |r.value.choices| == |EventMarkets(event)|
              && forall i :: 0 <= i < |r.value.choices| ==> r.value.choices[i].index == i
    ensures |EventMarkets(event)| > 1 && index.None? && !all
            && (forall i :: 0 <= i < |EventMarkets(event)| ==> EventMarkets(event)[i].JObj?) ==>
              r.Ok? && r.value.NeedsSelection?
    ensures all && |EventMarkets(event)| > 0 ==>
              (r.Ok? <==> forall i :: 0 <= i < |EventMarkets(event)| ==> AnalyzeSingleMarket(env, EventMarkets(event)[i], cfg).Ok?)
    ensures |EventMarkets(event)| > 1 && index.None? && !all ==>
              var choices := Choices(EventMarkets(event));
              (choices.Err? ==> r == Err(NotADict))
              && (choices.Ok? ==>
                    r == Ok(NeedsSelection(EventInfo(Get(event, "title"), Get(event, "slug"), Get(event, "id")), choices.value)))
    ensures all && r.Ok? ==> r.value.AllMarkets? && |r.value.results| == |EventMarkets(event)|
    ensures all && r.Ok? ==>
              forall i :: 0 <= i < |EventMarkets(event)| ==> AnalyzeSingleMarket(env, EventMarkets(event)[i], cfg) == Ok(r.value.results[i])
    ensures !all && index.Some? && (index.value < 0 || index.value >= |EventMarkets(event)|) ==>
              (|EventMarkets(event)| > 0 ==> r == Err(ValueFailed(IndexError(index.value, |EventMarkets(event)|))))
              && r.Err?
    ensures !all && (index.None? ==> |EventMarkets(event)| == 1) && 0 <= index.GetOr(0) < |EventMarkets(event)| ==>
              r == FromReport(AnalyzeSingleMarket(env, EventMarkets(event)[index.GetOr(0)], cfg))
  {
    var markets := EventMarkets(event);
    var info := EventInfo(Get(event, "title"), Get(event, "slug"), Get(event, "id"));
    if |markets| == 0 then Err(ValueFailed("Event has no markets attached."))
    else if |markets| > 1 && index.None? && !all then
      var choices :- Choices(markets);
      Ok(NeedsSelection(info, choices))
    else if all then
      var results :- AnalyzeEach(env, markets, cfg);
      Ok(AllMarkets(info, results))
    else
      var idx := index.GetOr(0);
      if idx < 0 || idx >= |markets| then Err(ValueFailed(IndexError(idx, |markets|)))
      else
        var report :- AnalyzeSingleMarket(env, markets[idx], cfg);
        Ok(Single(report))
  }

  /**
   * `analyze_market(ref, market_index, all_markets_in_event)`: a market reference is
   * analysed directly; an event (or category) reference asks for a choice when it has
   * several markets and none was picked, analyses all of them on request, or the one at
   * `market_index` (default 0).
   */
  function AnalyzeMarket(env: Env, input: string, index: Option<int>, all: bool, cfg: Config): (r: Result<MarketAnalysis, Failure>)
    ensures Strip(input) == "" ==> r.Err?
    ensures r.Ok? && ParsePolymarketRef(input, env.urlparse).value.kind == MarketRef ==> r.value.Single?
    ensures var ref := ParsePolymarketRef(input, env.urlparse);
            ref.Ok? && ref.value.kind == MarketRef ==>
              var market := MarketBySlug(env.fetch, ref.value.slug);
              (market.Err? ==> r == Err(FetchFailed(market.error)))
              && (market.Ok? && !Truthy(market.value) ==> r.Err?)
              && (market.Ok? && Truthy(market.value) ==>
                    var report := AnalyzeSingleMarket(env, market.value, cfg);
                    (report.Ok? <==> r.Ok?) && (report.Ok? ==> r.value == Single(report.value))
                    && (report.Err? ==> r == Err(report.error)))
    ensures var ref := ParsePolymarketRef(input, env.urlparse);
            ref.Ok? && ref.value.kind != MarketRef ==>
              var event := EventBySlug(env.fetch, ref.value.slug);
              (event.Err? ==> r == Err(FetchFailed(event.error)))
              && (event.Ok? && !Truthy(event.value) ==> r.Err?)
              && (event.Ok? && Truthy(event.value) ==> r == AnalyzeEvent(env, event.value, index, all, cfg))
  {
    var ref :- FromValue(ParsePolymarketRef(input, env.urlparse));
    if ref.kind == MarketRef then
      var market :- FromFetch(MarketBySlug(env.fetch, ref.slug));
      if !Truthy(market) then Err(ValueFailed("Market not found for slug: " + ref.slug))
      else
        var report :- AnalyzeSingleMarket(env, market, cfg);
        Ok(Single(report))
    else
      var event :- FromFetch(EventBySlug(env.fetch, ref.slug));
      if !Truthy(event) then Err(ValueFailed("Event not found for slug: " + ref.slug))
      else AnalyzeEvent(env, event, index, all, cfg)
  }
}

=== FILE: polymarket.dfy ===
/**
 * The bookkeeping of `PolymarketClient`: cache keys, per-host freshness windows,
 * cache hit/miss accounting, request statistics, one `_get_json` step, the retry
 * predicate, payload-shape normalisation and the request-parameter clamps.
 *
 * The HTTP transport is not modelled: one attempt's outcome is an input (`Response`),
 * and the endpoint wrappers read remote data through a `Fetcher` oracle that stands for
 * `_get_json` with `allow_404=True` (a 404 arrives as `Got(JNull)`).
 */
module Polymarket {
  import opened Wrappers
  import opened JsonValues
  import opened Strs
  import opened Seqs

  const GammaBase: string := "https://gamma-api.polymarket.com"
  const DataBase: string := "https://data-api.polymarket.com"
  const GammaHost: string := "gamma-api.polymarket.com"
  const DataHost: string := "data-api.polymarket.com"

  /** Status 429 Too Many Requests (section 4 of RFC 6585). */
  const TooManyRequests: int := 429

  // ---------------------------------------------------------------------------
  // Errors and retry classification
  // ---------------------------------------------------------------------------

  /** What a fetch can raise. */
  datatype FetchError =
    | HttpStatus(code: int)     // httpx.HTTPStatusError from raise_for_status
    | ReadTimeout
    | ConnectTimeout
    | ConnectError
    | OtherTransportError       // any other httpx transport failure
    | InvalidJson               // resp.json() failed
    | ValueError(msg: string)   // raised by the endpoint wrappers themselves

  /**
   * The transient server statuses worth retrying: 500, 502, 503 and 504
   * (section 15.6 of RFC 9110); 501 Not Implemented and 505 are permanent.
   */
  predicate IsTransientServerStatus(code: int) {
    code == 500 || code == 502 || code == 503 || code == 504
  }

  /** `_is_retryable(exc)` */
  predicate IsRetryable(e: FetchError) {
    match e
    case HttpStatus(code) => code == TooManyRequests || IsTransientServerStatus(code)
    case ReadTimeout => true
    case ConnectTimeout => true
    case ConnectError => true
    case _ => false
  }

  /** Only 429 and the four transient 5xx statuses are retried; every other status error propagates at once. */
  lemma RetryableStatuses(code: int)
    ensures IsRetryable(HttpStatus(code)) <==> code in {429, 500, 502, 503, 504}
    ensures 400 <= code < 500 && code != 429 ==> !IsRetryable(HttpStatus(code))
  {
  }

  /** The whole retry set: the statuses above plus the three timeout/connect failures, nothing else. */
  lemma RetryableErrors(e: FetchError)
    ensures IsRetryable(e) <==>
      (e.HttpStatus? && e.code in {429, 500, 502, 503, 504}) || e.ReadTimeout? || e.ConnectTimeout? || e.ConnectError?
  {
    if e.HttpStatus? {
      RetryableStatuses(e.code);
    }
  }

  // ---------------------------------------------------------------------------
  // Request statistics
  // ---------------------------------------------------------------------------

  /** `RequestStats` (the start time and elapsed-time snapshot are not modelled). `byHost` keeps the dict's insertion order. */
  datatype Stats = Stats(httpRequests: nat, cacheHits: nat, cacheMisses: nat, httpTime: real, byHost: seq<(string, nat)>)

  const EmptyStats: Stats := Stats(0, 0, 0, 0.0, [])

  /** Sum of the per-host tallies. */
  function HostTotal(byHost: seq<(string, nat)>): nat {
    if |byHost| == 0 then 0 else HostTotal(byHost[..|byHost| - 1]) + byHost[|byHost| - 1].1
  }

  /** `by_host.get(host, 0)` */
  function HostCount(byHost: seq<(string, nat)>, host: string): nat {
    if |byHost| == 0 then 0
    else if byHost[0].0 == host then byHost[0].1
    else HostCount(byHost[1..], host)
  }

  predicate HostsDistinct(byHost: seq<(string, nat)>) {
    forall i, j :: 0 <= i < j < |byHost| ==> byHost[i].0 != byHost[j].0
  }

  /** The counters' invariant: the per-host tallies add up to the request count and time is non-negative. */
  predicate StatsValid(s: Stats) {
    HostsDistinct(s.byHost) && HostTotal(s.byHost) == s.httpRequests && s.httpTime >= 0.0
  }

  /** `by_host[host] = by_host.get(host, 0) + 1` on an insertion-ordered dict. */
  function Bump(byHost: seq<(string, nat)>, host: string): seq<(string, nat)> {
    if |byHost| == 0 then [(host, 1)]
    else if byHost[0].0 == host then [(host, byHost[0].1 + 1)] + byHost[1..]
    else [byHost[0]] + Bump(byHost[1..], host)
  }

  function HostKeys(byHost: seq<(string, nat)>): set<string> {
    set i | 0 <= i < |byHost| :: byHost[i].0
  }

  /** Bumping adds one to `host`'s tally and to the total, and leaves every other host alone. */
  lemma {:induction false} BumpCounts(byHost: seq<(string, nat)>, host: string)
    ensures HostTotal(Bump(byHost, host)) == HostTotal(byHost) + 1
    ensures HostCount(Bump(byHost, host), host) == HostCount(byHost, host) + 1
    ensures forall h :: h != host ==> HostCount(Bump(byHost, host), h) == HostCount(byHost, h)
    decreases |byHost|
  {
    if |byHost| > 0 {
      var r := Bump(byHost, host);
      HostTotalHead(byHost);
      HostTotalHead(r);
      assert r[1..] == (if byHost[0].0 == host then byHost[1..] else Bump(byHost[1..], host));
      if byHost[0].0 != host {
        BumpCounts(byHost[1..], host);
      }
    }
  }

  /** Bumping adds at most `host` to the set of hosts. */
  lemma {:induction false} BumpKeys(byHost: seq<(string, nat)>, host: string)
    ensures HostKeys(Bump(byHost, host)) <= HostKeys(byHost) + {host}
    decreases |byHost|
  {
    if |byHost| > 0 && byHost[0].0 != host {
      BumpKeys(byHost[1..], host);
      var r := Bump(byHost, host);
      var t := Bump(byHost[1..], host);
      forall k | k in HostKeys(r)
        ensures k in HostKeys(byHost) + {host}
      {
        var i :| 0 <= i < |r| && r[i].0 == k;
        if i > 0 {
          assert r[i] == t[i - 1];
          assert t[i - 1].0 == k;
          assert k in HostKeys(t);
          if k != host {
            assert k in HostKeys(byHost[1..]);
            var j :| 0 <= j < |byHost[1..]| && byHost[1..][j].0 == k;
            assert byHost[j + 1].0 == k;
          }
        } else {
          assert byHost[0].0 == k;
        }
      }
    } else if |byHost| > 0 {
      var r := Bump(byHost, host);
      forall k | k in HostKeys(r)
        ensures k in HostKeys(byHost) + {host}
      {
        var i :| 0 <= i < |r| && r[i].0 == k;
        if i > 0 {
          assert byHost[i].0 == k;
        }
      }
    }
  }

  /** Bumping never duplicates a host. */
  lemma {:induction false} BumpDistinct(byHost: seq<(string, nat)>, host: string)
    requires HostsDistinct(byHost)
    ensures HostsDistinct(Bump(byHost, host))
    decreases |byHost|
  {
    if |byHost| > 0 && byHost[0].0 != host {
      var t := Bump(byHost[1..], host);
      BumpDistinct(byHost[1..], host);
      BumpKeys(byHost[1..], host);
      forall i | 0 <= i < |t|
        ensures t[i].0 != byHost[0].0
      {
        assert t[i].0 in HostKeys(t);
        if t[i].0 != host {
          var j :| 0 <= j < |byHost[1..]| && byHost[1..][j].0 == t[i].0;
          assert byHost[j + 1].0 == t[i].0;
        }
      }
    }
  }

  /** The total can equally be taken head first. */
  lemma {:induction false} HostTotalHead(byHost: seq<(string, nat)>)
    requires |byHost| > 0
    ensures HostTotal(byHost) == byHost[0].1 + HostTotal(byHost[1..])
    decreases |byHost|
  {
    if |byHost| > 1 {
      HostTotalHead(byHost[..|byHost| - 1]);
      assert byHost[..|byHost| - 1][1..] == byHost[1..][..|byHost[1..]| - 1];
    }
  }

  /**
   * `RequestStats.record_http(host, dt)`: one more request, one more for `host`,
   * `max(0, dt)` more time; the cache counters are untouched and the invariant is kept.
   */
  function RecordHttp(s: Stats, host: string, dt: real): (s': Stats)
    requires StatsValid(s)
    ensures StatsValid(s')
    ensures s'.httpRequests == s.httpRequests + 1
    ensures HostCount(s'.byHost, host) == HostCount(s.byHost, host) + 1
    ensures forall h :: h != host ==> HostCount(s'.byHost, h) == HostCount(s.byHost, h)
    ensures s'.httpTime >= s.httpTime && (dt >= 0.0 ==> s'.httpTime == s.httpTime + dt)
    ensures dt < 0.0 ==> s'.httpTime == s.httpTime
    ensures s'.cacheHits == s.cacheHits && s'.cacheMisses == s.cacheMisses
  {
    BumpCounts(s.byHost, host);
    BumpDistinct(s.byHost, host);
    Stats(s.httpRequests + 1, s.cacheHits, s.cacheMisses,
          s.httpTime + (if dt > 0.0 then dt else 0.0), Bump(s.byHost, host))
  }

  // ---------------------------------------------------------------------------
  // Cache keys
  // ---------------------------------------------------------------------------

  /** A query parameter value after `str()`: `None`, a scalar, or a list expanded one pair per element. */
  datatype ParamValue = PNone | PText(text: string) | PList(items: seq<string>)

  /** Query parameters in dict insertion order. */
  type Params = seq<(string, ParamValue)>

  /** An integer parameter, rendered by `str(int)`. */
  function PInt(n: int): ParamValue {
    PText(IntToString(n))
  }

  /** The pairs one parameter contributes to the cache key. */
  function PairsOf(p: (string, ParamValue)): seq<(string, string)> {
    match p.1
    case PNone => []
    case PText(t) => [(p.0, t)]
    case PList(vs) => Map((v: string) => (p.0, v), vs)
  }

  /** The `items` list `_cache_key` builds: `None` values dropped, list values expanded. */
  function ParamPairs(params: Params): seq<(string, string)> {
    FlatMap(PairsOf, params)
  }

  /** A pair is in the item list exactly when some parameter of that name carries that value (directly or in its list). */
  lemma ParamPairsContents(params: Params, k: string, v: string)
    ensures (k, v) in ParamPairs(params) <==>
            exists i :: 0 <= i < |params| && params[i].0 == k && (params[i].1 == PText(v) || (params[i].1.PList? && v in params[i].1.items))
  {
    FlatMapMembership(PairsOf, params, (k, v));
    forall i | 0 <= i < |params|
      ensures (k, v) in PairsOf(params[i]) <==> params[i].0 == k && (params[i].1 == PText(v) || (params[i].1.PList? && v in params[i].1.items))
    {
      if params[i].1.PList? && params[i].0 == k && v in params[i].1.items {
        var j :| 0 <= j < |params[i].1.items| && params[i].1.items[j] == v;
        assert PairsOf(params[i])[j] == (k, v);
      }
    }
  }

  /** Python's `<` on `(key, value)` tuples of strings. */
  predicate PairLt(a: (string, string), b: (string, string)) {
    StrLt(a.0, b.0) || (a.0 == b.0 && StrLt(a.1, b.1))
  }

  lemma PairLtTotal(a: (string, string), b: (string, string))
    requires a != b
    ensures PairLt(a, b) || PairLt(b, a)
  {
    if a.0 != b.0 {
      StrLtTotal(a.0, b.0);
    } else {
      StrLtTotal(a.1, b.1);
    }
  }

  lemma PairLtIrreflexive(a: (string, string))
    ensures !PairLt(a, a)
  {
    StrLtIrreflexive(a.0);
    StrLtIrreflexive(a.1);
  }

  lemma PairLtTransitive(a: (string, string), b: (string, string), c: (string, string))
    requires PairLt(a, b) && PairLt(b, c)
    ensures PairLt(a, c)
  {
    if StrLt(a.0, b.0) && StrLt(b.0, c.0) {
      StrLtTransitive(a.0, b.0, c.0);
    } else if a.0 == b.0 && b.0 == c.0 {
      StrLtTransitive(a.1, b.1, c.1);
    }
  }

  predicate SortedPairs(s: seq<(string, string)>) {
    forall i, j :: 0 <= i < j < |s| ==> !PairLt(s[j], s[i])
  }

  /** Insert `x` before the first element not smaller than it. */
  function InsertPair(x: (string, string), s: seq<(string, string)>): (r: seq<(string, string)>)
    requires SortedPairs(s)
    ensures multiset(r) == multiset(s) + multiset{x}
    ensures SortedPairs(r)
  {
    if |s| == 0 then [x]
    else if !PairLt(s[0], x) then
      NotLtChain(x, s);
      [x] + s
    else
      var t := InsertPair(x, s[1..]);
      assert s == [s[0]] + s[1..];
      InsertAfterSmaller(x, s, t);
      [s[0]] + t
  }

  lemma NotLtChain(x: (string, string), s: seq<(string, string)>)
    requires SortedPairs(s) && |s| > 0 && !PairLt(s[0], x)
    ensures SortedPairs([x] + s)
  {
    forall j | 0 <= j < |s|
      ensures !PairLt(s[j], x)
    {
      if PairLt(s[j], x) {
        if s[j] == s[0] {
        } else {
          PairLtTotal(s[0], s[j]);
          PairLtTransitive(s[0], s[j], x);
        }
      }
    }
  }

  lemma InsertAfterSmaller(x: (string, string), s: seq<(string, string)>, t: seq<(string, string)>)
    requires SortedPairs(s) && |s| > 0 && PairLt(s[0], x)
    requires SortedPairs(t) && multiset(t) == multiset(s[1..]) + multiset{x}
    ensures SortedPairs([s[0]] + t)
  {
    forall j | 0 <= j < |t|
      ensures !PairLt(t[j], s[0])
    {
      assert t[j] in multiset(t);
      if t[j] == x {
        StrLtAsymmetricPair(s[0], x);
      } else {
        assert t[j] in multiset(s[1..]);
        var k :| 0 <= k < |s[1..]| && s[1..][k] == t[j];
        assert s[k + 1] == t[j];
      }
    }
  }

  lemma StrLtAsymmetricPair(a: (string, string), b: (string, string))
    requires PairLt(a, b)
    ensures !PairLt(b, a)
  {
    if StrLt(a.0, b.0) {
      StrLtAsymmetric(a.0, b.0);
      if a.0 == b.0 {
        StrLtIrreflexive(a.0);
      }
    } else {
      StrLtAsymmetric(a.1, b.1);
      StrLtIrreflexive(a.0);
    }
  }

  /** `sorted(items)` */
  function SortPairs(s: seq<(string, string)>): (r: seq<(string, string)>)
    ensures multiset(r) == multiset(s)
    ensures SortedPairs(r)
  {
    if |s| == 0 then []
    else
      assert s == [s[0]] + s[1..];
      InsertPair(s[0], SortPairs(s[1..]))
  }

  /** Two sorted arrangements of one collection start with the same pair. */
  lemma SortedHeadsAgree(a: seq<(string, string)>, b: seq<(string, string)>)
    requires SortedPairs(a) && SortedPairs(b) && multiset(a) == multiset(b) && |a| > 0 && |b| > 0
    ensures a[0] == b[0]
  {
    assert a[0] in multiset(b) && b[0] in multiset(a);
    var i :| 0 <= i < |b| && b[i] == a[0];
    var j :| 0 <= j < |a| && a[j] == b[0];
    PairLtIrreflexive(a[0]);
    PairLtIrreflexive(b[0]);
    assert !PairLt(a[0], b[0]) by {
      if i > 0 {
        assert !PairLt(b[i], b[0]);
      }
    }
    assert !PairLt(b[0], a[0]) by {
      if j > 0 {
        assert !PairLt(a[j], a[0]);
      }
    }
    if a[0] != b[0] {
      PairLtTotal(a[0], b[0]);
    }
  }

  /** There is only one sorted arrangement of a collection of pairs. */
  lemma {:induction false} SortedPairsUnique(a: seq<(string, string)>, b: seq<(string, string)>)
    requires SortedPairs(a) && SortedPairs(b) && multiset(a) == multiset(b)
    ensures a == b
    decreases |a|
  {
    assert |a| == |multiset(a)| == |multiset(b)| == |b|;
    if |a| > 0 {
      SortedHeadsAgree(a, b);
      assert a == [a[0]] + a[1..] && b == [b[0]] + b[1..];
      assert multiset(a) == multiset{a[0]} + multiset(a[1..]);
      assert multiset(b) == multiset{b[0]} + multiset(b[1..]);
      assert multiset(a[1..]) == multiset(a) - multiset{a[0]};
      assert multiset(b[1..]) == multiset(b) - multiset{b[0]};
      SortedPairsUnique(a[1..], b[1..]);
    }
  }

  /** `quote_plus`'s always-safe characters. */
  predicate Unreserved(c: char) {
    ('a' <= c <= 'z') || ('A' <= c <= 'Z') || ('0' <= c <= '9') || c == '_' || c == '.' || c == '-' || c == '~'
  }

  function HexDigit(n: nat): char
    requires n < 16
  {
    if n < 10 then ('0' as int + n) as char else ('A' as int + n - 10) as char
  }

  /** UTF-8 encoding of one code point. */
  function Utf8(c: char): (bytes: seq<nat>)
    ensures 1 <= |bytes| <= 4
    ensures forall i :: 0 <= i < |bytes| ==> bytes[i] < 256
  {
    var n := c as int;
    if n < 0x80 then [n]
    else if n < 0x800 then [0xC0 + n / 64, 0x80 + n % 64]
    else if n < 0x10000 then [0xE0 + n / 4096, 0x80 + (n / 64) % 64, 0x80 + n % 64]
    else [0xF0 + n / 262144 % 8, 0x80 + (n / 4096) % 64, 0x80 + (n / 64) % 64, 0x80 + n % 64]
  }

  function PercentByte(b: nat): string
    requires b < 256
  {
    ['%', HexDigit(b / 16), HexDigit(b % 16)]
  }

  function QuoteChar(c: char): (r: string)
    ensures '&' !in r && '=' !in r
  {
    if Unreserved(c) then [c]
    else if c == ' ' then "+"
    else
      var bytes := Utf8(c);
      PercentBytes(bytes)
  }

  function PercentBytes(bytes: seq<nat>): (r: string)
    requires forall i :: 0 <= i < |bytes| ==> bytes[i] < 256
    ensures '&' !in r && '=' !in r
  {
    if |bytes| == 0 then "" else PercentByte(bytes[0]) + PercentBytes(bytes[1..])
  }

  /** `quote_plus(s)`: the encoded text never contains the separators `&` and `=`. */
  function QuotePlus(s: string): (r: string)
    ensures '&' !in r && '=' !in r
  {
    if |s| == 0 then "" else QuoteChar(s[0]) + QuotePlus(s[1..])
  }

  /** `urlencode(pairs, doseq=True)` */
  function UrlEncode(pairs: seq<(string, string)>): string {
    if |pairs| == 0 then ""
    else if |pairs| == 1 then QuotePlus(pairs[0].0) + "=" + QuotePlus(pairs[0].1)
    else QuotePlus(pairs[0].0) + "=" + QuotePlus(pairs[0].1) + "&" + UrlEncode(pairs[1..])
  }

  /** `_cache_key(url, params)` */
  function CacheKey(url: string, params: Params): (key: string)
    ensures |params| == 0 ==> key == "GET:" + url
    ensures StartsWith(key, "GET:" + url)
  {
    if |params| == 0 then "GET:" + url
    else "GET:" + url + "?" + UrlEncode(SortPairs(ParamPairs(params)))
  }

  /**
   * Two parameter dicts with the same contents give the same key, whatever their
   * insertion order: the pairs are sorted before encoding.
   */
  lemma CacheKeyOrderIndependent(url: string, p1: Params, p2: Params)
    requires multiset(p1) == multiset(p2)
    ensures CacheKey(url, p1) == CacheKey(url, p2)
  {
    assert |p1| == |multiset(p1)| == |p2|;
    FlatMapPermutation(PairsOf, p1, p2);
    SortedPairsUnique(SortPairs(ParamPairs(p1)), SortPairs(ParamPairs(p2)));
  }

  /** A `None`-valued parameter contributes nothing to the key. */
  lemma CacheKeyIgnoresNone(url: string, params: Params, k: string)
    requires |params| > 0
    ensures CacheKey(url, params + [(k, PNone)]) == CacheKey(url, params)
  {
    FlatMapConcat(PairsOf, params, [(k, PNone)]);
    assert FlatMap(PairsOf, [(k, PNone)]) == [] by {
      assert [(k, PNone)][..0] == [];
    }
    assert ParamPairs(params + [(k, PNone)]) == ParamPairs(params);
  }

  // ---------------------------------------------------------------------------
  // The client's cache
  // ---------------------------------------------------------------------------

  /** A stored response and the expiry it was stored with (`None`: never expires). */
  datatype Entry = Entry(value: Json, expire: Option<int>)

  /** The client state the fetch layer threads: configuration, the cache and the counters. */
  datatype Client = Client(useCache: bool, ttlGamma: int, ttlData: int, cache: map<string, Entry>, stats: Stats)

  /** `_ttl_for_url(url)` given the URL's network location. */
  function TtlForUrl(c: Client, netloc: string): (ttl: Option<int>)
    ensures ttl.Some? ==> ttl.value > 0
    ensures Contains(Lower(netloc), GammaHost) ==> ttl == (if c.ttlGamma <= 0 then None else Some(c.ttlGamma))
    ensures !Contains(Lower(netloc), GammaHost) && Contains(Lower(netloc), DataHost) ==>
              ttl == (if c.ttlData <= 0 then None else Some(c.ttlData))
    ensures ttl.Some? && !Contains(Lower(netloc), GammaHost) && !Contains(Lower(netloc), DataHost) ==>
              ttl.value <= c.ttlGamma && ttl.value <= c.ttlData && (ttl.value == c.ttlGamma || ttl.value == c.ttlData)
    ensures !Contains(Lower(netloc), GammaHost) && !Contains(Lower(netloc), DataHost) ==>
              (ttl.None? <==> c.ttlGamma <= 0 || c.ttlData <= 0)
  {
    var host := Lower(netloc);
    var ttl := if Contains(host, GammaHost) then c.ttlGamma
               else if Contains(host, DataHost) then c.ttlData
               else if c.ttlGamma <= c.ttlData then c.ttlGamma else c.ttlData;
    if ttl <= 0 then None else Some(ttl)
  }

  /** The outcome of `_cache_get(key)`. */
  datatype Lookup = Lookup(hit: bool, value: Json, client: Client)

  /**
   * `_cache_get(key)`: with caching off nothing is counted; otherwise exactly one of
   * hits and misses goes up, and a stored explicit `None` is a hit.
   */
  function CacheGet(c: Client, key: string): (r: Lookup)
    ensures !c.useCache ==> r == Lookup(false, JNull, c)
    ensures c.useCache ==> (r.hit <==> key in c.cache)
    ensures r.hit ==> r.value == c.cache[key].value
    ensures r.client.cache == c.cache && r.client.useCache == c.useCache
    ensures r.client.ttlGamma == c.ttlGamma && r.client.ttlData == c.ttlData
    ensures r.client.stats.httpRequests == c.stats.httpRequests && r.client.stats.httpTime == c.stats.httpTime
    ensures r.client.stats.byHost == c.stats.byHost
    ensures c.useCache ==> r.client.stats.cacheHits + r.client.stats.cacheMisses == c.stats.cacheHits + c.stats.cacheMisses + 1
    ensures r.client.stats.cacheHits == c.stats.cacheHits + (if r.hit then 1 else 0)
  {
    if !c.useCache then Lookup(false, JNull, c)
    else if key in c.cache then
      Lookup(true, c.cache[key].value, c.(stats := c.stats.(cacheHits := c.stats.cacheHits + 1)))
    else
      Lookup(false, JNull, c.(stats := c.stats.(cacheMisses := c.stats.cacheMisses + 1)))
  }

  /** `_cache_set(key, value, url=url)`: store with the host's expiry (a no-op with caching off). */
  function CacheSet(c: Client, key: string, value: Json, netloc: string): (c': Client)
    ensures !c.useCache ==> c' == c
    ensures c.useCache ==> c'.cache == c.cache[key := Entry(value, TtlForUrl(c, netloc))]
    ensures c'.stats == c.stats && c'.useCache == c.useCache
    ensures c'.ttlGamma == c.ttlGamma && c'.ttlData == c.ttlData
  {
    if !c.useCache then c else c.(cache := c.cache[key := Entry(value, TtlForUrl(c, netloc))])
  }

  /** What one transport attempt produced. */
  datatype Response =
    | Answered(status: int, body: Option<Json>, elapsed: real)  // body None: not decodable as JSON
    | TransportFailed(error: FetchError)

  predicate IsSuccess(status: int) {
    200 <= status < 300
  }

  /** The value of one `_get_json` attempt and the client state after it. */
  datatype Step = Step(result: Result<Json, FetchError>, client: Client)

  /**
   * One attempt of `_get_json(url, params, allow_404)`: look the key up, and on a miss
   * perform the request (its outcome `resp` is an input), record it, and store a 404
   * (as `None`) or a successful body under the same key.
   */
  function GetJson(c: Client, url: string, netloc: string, params: Params, allow404: bool, resp: Response): (s: Step)
    requires StatsValid(c.stats)
    ensures StatsValid(s.client.stats)
    ensures s.client.useCache == c.useCache && s.client.ttlGamma == c.ttlGamma && s.client.ttlData == c.ttlData
    ensures s.client.stats.httpTime >= c.stats.httpTime
    ensures c.useCache && CacheKey(url, params) in c.cache ==>
              s.result == Ok(c.cache[CacheKey(url, params)].value)
              && s.client.cache == c.cache
              && s.client.stats.httpRequests == c.stats.httpRequests
              && s.client.stats.cacheHits == c.stats.cacheHits + 1
    ensures s.client.stats.httpRequests == c.stats.httpRequests + (if s.client.stats.cacheHits == c.stats.cacheHits && resp.Answered? then 1 else 0)
    ensures c.useCache ==> s.client.stats.cacheHits + s.client.stats.cacheMisses == c.stats.cacheHits + c.stats.cacheMisses + 1
    ensures !c.useCache ==> s.client.stats.cacheHits == c.stats.cacheHits && s.client.stats.cacheMisses == c.stats.cacheMisses
    ensures allow404 && resp.Answered? && resp.status == 404 && !(c.useCache && CacheKey(url, params) in c.cache) ==>
              s.result == Ok(JNull)
              && (c.useCache ==> s.client.cache == c.cache[CacheKey(url, params) := Entry(JNull, TtlForUrl(c, netloc))])
    ensures s.result.Ok? && s.client.useCache ==>
              CacheKey(url, params) in s.client.cache && s.client.cache[CacheKey(url, params)].value == s.result.value
    ensures s.result.Err? ==> s.client.cache == c.cache
    ensures !(c.useCache && CacheKey(url, params) in c.cache) && resp.TransportFailed? ==> s.result == Err(resp.error)
    ensures !(c.useCache && CacheKey(url, params) in c.cache) && resp.Answered? && !(allow404 && resp.status == 404)
              && !IsSuccess(resp.status) ==>
              s.result == Err(HttpStatus(resp.status))
    ensures !(c.useCache && CacheKey(url, params) in c.cache) && resp.Answered? && IsSuccess(resp.status) && !(allow404 && resp.status == 404) ==>
              (resp.body.None? ==> s.result == Err(InvalidJson))
              && (resp.body.Some? ==>
                    s.result == Ok(resp.body.value)
                    && (c.useCache ==> s.client.cache == c.cache[CacheKey(url, params) := Entry(resp.body.value, TtlForUrl(c, netloc))]))
  {
    var key := CacheKey(url, params);
    var look := CacheGet(c, key);
    if look.hit then Step(Ok(look.value), look.client)
    else
      match resp
      case TransportFailed(e) => Step(Err(e), look.client)
      case Answered(status, body, dt) =>
        var c2 := look.client.(stats := RecordHttp(look.client.stats, netloc, dt));
        if allow404 && status == 404 then Step(Ok(JNull), CacheSet(c2, key, JNull, netloc))
        else if !IsSuccess(status) then Step(Err(HttpStatus(status)), c2)
        else match body
          case None => Step(Err(InvalidJson), c2)
          case Some(data) => Step(Ok(data), CacheSet(c2, key, data, netloc))
  }

  // ---------------------------------------------------------------------------
  // Payload normalisation
  // ---------------------------------------------------------------------------

  /**
   * `_leaderboard_row_from_payload`: the first row of a list whose head is a dict, the
   * first row of a dict's non-empty `data` list of dicts, or the dict itself.
   */
  function LeaderboardRowFromPayload(payload: Json): (row: Option<Json>)
    ensures !Truthy(payload) ==> row.None?
    ensures row.Some? ==> row.value.JObj?
    ensures payload.JArr? && Truthy(payload) ==> row == (if payload.items[0].JObj? then Some(payload.items[0]) else None)
    ensures payload.JObj? && Truthy(payload) ==> row.Some?
    ensures payload.JObj? && Truthy(payload) ==>
      var data := Get(payload, "data");
      row == Some(if data.JArr? && |data.items| > 0 && data.items[0].JObj? then data.items[0] else payload)
    ensures !payload.JArr? && !payload.JObj? ==> row.None?
  {
    if !Truthy(payload) then None
    else match payload
      case JArr(items) => if items[0].JObj? then Some(items[0]) else None
      case JObj(_) =>
        var data := Get(payload, "data");
        if data.JArr? && |data.items| > 0 && data.items[0].JObj? then Some(data.items[0]) else Some(payload)
      case _ => None
  }

  /** A payload that names one record: a dict, or a non-empty list whose first element is a dict. */
  predicate IsRecord(data: Json) {
    data.JObj? || (data.JArr? && |data.items| > 0 && data.items[0].JObj?)
  }

  /** The dict `gamma_market` returns for a `/markets` response: first row of a list, a dict, or `{}`. */
  function GammaMarketFromPayload(data: Json): (m: Json)
    ensures m.JObj?
    ensures data.JObj? ==> m == data
    ensures data.JArr? && |data.items| > 0 && data.items[0].JObj? ==> m == data.items[0]
    ensures !data.JObj? && !(data.JArr? && |data.items| > 0 && data.items[0].JObj?) ==> m == JObj([])
  {
    if data.JArr? && |data.items| > 0 && data.items[0].JObj? then data.items[0]
    else if data.JObj? then data
    else JObj([])
  }

  // ---------------------------------------------------------------------------
  // Endpoint wrappers over a fetch oracle
  // ---------------------------------------------------------------------------

  /** One `_get_json` call: the URL and its parameters (`None` params are the empty list). */
  datatype Request = Request(url: string, params: Params)

  /** What `_get_json` gave back for a request: decoded data, or the exception it raised. */
  datatype Fetched = Got(data: Json) | Raised(error: FetchError)

  function Call(fetch: Request -> Fetched, req: Request): Result<Json, FetchError> {
    match fetch(req)
    case Got(d) => Ok(d)
    case Raised(e) => Err(e)
  }

  /** The holders endpoint caps `limit` to [1, 20]. */
  function HoldersLimit(limit: int): (l: int)
    ensures 1 <= l <= 20
    ensures 1 <= limit <= 20 ==> l == limit
  {
    if limit < 1 then 1 else if limit > 20 then 20 else limit
  }

  /** `max(0, n)`: `minBalance` and `offset` are never negative. */
  function NonNegative(n: int): (b: int)
    ensures b >= 0
    ensures n >= 0 ==> b == n
    ensures n < 0 ==> b == 0
  {
    if n < 0 then 0 else n
  }

  /** The positions endpoint caps `limit` to [1, 500]. */
  function PositionsLimit(limit: int): (l: int)
    ensures 1 <= l <= 500
    ensures 1 <= limit <= 500 ==> l == limit
  {
    if limit < 1 then 1 else if limit > 500 then 500 else limit
  }

  /**
   * The closed-positions endpoint caps `limit` to [1, 50]; the closed-history pager
   * clamps its page size to the same range.
   */
  function ClosedLimit(limit: int): (l: int)
    ensures 1 <= l <= 50
    ensures 1 <= limit <= 50 ==> l == limit
  {
    if limit < 1 then 1 else if limit > 50 then 50 else limit
  }

  function GammaMarketRequest(conditionId: string): Request {
    Request(GammaBase + "/markets", [("condition_ids", PList([conditionId])), ("limit", PInt(1))])
  }

  /** `gamma_market(condition_id=...)`: always a dict, `{}` when the service has nothing usable. */
  function GammaMarket(fetch: Request -> Fetched, conditionId: string): (r: Result<Json, FetchError>)
    ensures r.Ok? ==> r.value.JObj?
    ensures fetch(GammaMarketRequest(conditionId)).Got? ==> r == Ok(GammaMarketFromPayload(fetch(GammaMarketRequest(conditionId)).data))
    ensures fetch(GammaMarketRequest(conditionId)).Raised? ==> r == Err(fetch(GammaMarketRequest(conditionId)).error)
  {
    var data :- Call(fetch, GammaMarketRequest(conditionId));
    Ok(GammaMarketFromPayload(data))
  }

  function MarketSlugRequest(slug: string): Request {
    Request(GammaBase + "/markets/slug/" + slug, [])
  }

  function MarketListRequest(slug: string): Request {
    Request(GammaBase + "/markets", [("slug", PList([slug])), ("limit", PInt(1))])
  }

  /**
   * `get_market_by_slug`: the slug endpoint's dict, else the list endpoint's first dict
   * row or dict; anything else raises.
   */
  function MarketBySlug(fetch: Request -> Fetched, slug: string): (r: Result<Json, FetchError>)
    ensures r.Ok? ==> r.value.JObj?
    ensures fetch(MarketSlugRequest(slug)).Got? && fetch(MarketSlugRequest(slug)).data.JObj? ==> r == Ok(fetch(MarketSlugRequest(slug)).data)
    ensures fetch(MarketSlugRequest(slug)).Raised? ==> r == Err(fetch(MarketSlugRequest(slug)).error)
    ensures var first, second := fetch(MarketSlugRequest(slug)), fetch(MarketListRequest(slug));
            first.Got? && !first.data.JObj? ==>
              (second.Raised? ==> r == Err(second.error))
              && (second.Got? && IsRecord(second.data) ==> r == Ok(GammaMarketFromPayload(second.data)))
              && (second.Got? && !IsRecord(second.data) ==> r == Err(ValueError("Gamma market lookup returned non-dict")))
  {
    var data :- Call(fetch, MarketSlugRequest(slug));
    if data.JObj? then Ok(data)
    else
      var data2 :- Call(fetch, MarketListRequest(slug));
      if data2.JArr? && |data2.items| > 0 && data2.items[0].JObj? then Ok(data2.items[0])
      else if data2.JObj? then Ok(data2)
      else Err(ValueError("Gamma market lookup returned non-dict"))
  }

  function EventSlugRequest(slug: string): Request {
    Request(GammaBase + "/events/slug/" + slug, [])
  }

  function EventListRequest(slug: string): Request {
    Request(GammaBase + "/events", [("slug", PList([slug])), ("limit", PInt(1))])
  }

  /** `get_event_by_slug`: a dict or a list headed by a dict from either endpoint; anything else raises. */
  function EventBySlug(fetch: Request -> Fetched, slug: string): (r: Result<Json, FetchError>)
    ensures r.Ok? ==> r.value.JObj?
    ensures var first := fetch(EventSlugRequest(slug));
            (first.Raised? ==> r == Err(first.error))
            && (first.Got? && IsRecord(first.data) ==> r == Ok(GammaMarketFromPayload(first.data)))
    ensures var first, second := fetch(EventSlugRequest(slug)), fetch(EventListRequest(slug));
            first.Got? && !IsRecord(first.data) ==>
              (second.Raised? ==> r == Err(second.error))
              && (second.Got? && IsRecord(second.data) ==> r == Ok(GammaMarketFromPayload(second.data)))
              && (second.Got? && !IsRecord(second.data) ==> r == Err(ValueError("Gamma event lookup returned non-dict")))
  {
    var data :- Call(fetch, EventSlugRequest(slug));
    if data.JObj? then Ok(data)
    else if data.JArr? && |data.items| > 0 && data.items[0].JObj? then Ok(data.items[0])
    else
      var data2 :- Call(fetch, EventListRequest(slug));
      if data2.JArr? && |data2.items| > 0 && data2.items[0].JObj? then Ok(data2.items[0])
      else if data2.JObj? then Ok(data2)
      else Err(ValueError("Gamma event lookup returned non-dict"))
  }

  /** The `/holders` request `get_holders` issues: `limit` in [1, 20] and `minBalance` >= 0. */
  function HoldersRequest(conditionId: string, limit: int, minBalance: int): (req: Request)
    ensures req.url == DataBase + "/holders"
    ensures req.params == [("market", PList([conditionId])), ("limit", PInt(HoldersLimit(limit))), ("minBalance", PInt(NonNegative(minBalance)))]
    ensures 1 <= limit <= 20 && minBalance >= 0 ==>
      req.params == [("market", PList([conditionId])), ("limit", PInt(limit)), ("minBalance", PInt(minBalance))]
  {
    Request(DataBase + "/holders",
            [("market", PList([conditionId])), ("limit", PInt(HoldersLimit(limit))), ("minBalance", PInt(NonNegative(minBalance)))])
  }

  function Holders(fetch: Request -> Fetched, conditionId: string, limit: int, minBalance: int): Result<Json, FetchError> {
    Call(fetch, HoldersRequest(conditionId, limit, minBalance))
  }

  /** The `/positions` request: `limit` in [1, 500]. */
  function PositionsRequest(user: string, conditionId: string, limit: int): (req: Request)
    ensures req.url == DataBase + "/positions"
    ensures req.params == [("user", PText(user)), ("market", PList([conditionId])), ("limit", PInt(PositionsLimit(limit)))]
    ensures 1 <= limit <= 500 ==> req.params == [("user", PText(user)), ("market", PList([conditionId])), ("limit", PInt(limit))]
  {
    Request(DataBase + "/positions", [("user", PText(user)), ("market", PList([conditionId])), ("limit", PInt(PositionsLimit(limit)))])
  }

  /** `get_positions_for_user_market`: an empty user raises before any request. */
  function PositionsForUserMarket(fetch: Request -> Fetched, user: string, conditionId: string, limit: int): (r: Result<Json, FetchError>)
    ensures user == "" ==> r.Err?
    ensures user != "" ==> r == Call(fetch, PositionsRequest(user, conditionId, limit))
  {
    if user == "" then Err(ValueError("get_positions_for_user_market requires user/addr"))
    else Call(fetch, PositionsRequest(user, conditionId, limit))
  }

  /** The `/closed-positions` request: `limit` in [1, 50], `offset` >= 0, newest first. */
  function ClosedPositionsRequest(user: string, limit: int, offset: int): (req: Request)
    ensures req.url == DataBase + "/closed-positions"
    ensures req.params ==
              [("user", PText(user)), ("limit", PInt(ClosedLimit(limit))), ("offset", PInt(NonNegative(offset))),
               ("sortBy", PText("timestamp")), ("sortDirection", PText("desc"))]
    ensures 1 <= limit <= 50 && offset >= 0 ==>
              req.params == [("user", PText(user)), ("limit", PInt(limit)), ("offset", PInt(offset)), ("sortBy", PText("timestamp")), ("sortDirection", PText("desc"))]
  {
    Request(DataBase + "/closed-positions",
            [("user", PText(user)), ("limit", PInt(ClosedLimit(limit))), ("offset", PInt(NonNegative(offset))),
             ("sortBy", PText("timestamp")), ("sortDirection", PText("desc"))])
  }

  /** `get_closed_positions_recent`: an empty user raises before any request. */
  function ClosedPositionsRecent(fetch: Request -> Fetched, user: string, limit: int, offset: int): (r: Result<Json, FetchError>)
    ensures user == "" ==> r.Err?
    ensures user != "" ==> r == Call(fetch, ClosedPositionsRequest(user, limit, offset))
    ensures user != "" && 1 <= limit <= 50 && offset >= 0 ==>
      r == Call(fetch, Request(DataBase + "/closed-positions",
                              [("user", PText(user)), ("limit", PInt(limit)), ("offset", PInt(offset)),
                               ("sortBy", PText("timestamp")), ("sortDirection", PText("desc"))]))
  {
    if user == "" then Err(ValueError("get_closed_positions_recent requires user/addr"))
    else Call(fetch, ClosedPositionsRequest(user, limit, offset))
  }

  function LeaderboardV1Request(user: string): Request {
    Request(DataBase + "/v1/leaderboard", [("user", PText(user)), ("timePeriod", PText("ALL")), ("category", PText("OVERALL")), ("limit", PInt(1))])
  }

  function LeaderboardLegacyRequest(user: string): Request {
    Request(DataBase + "/leaderboard", [("user", PText(user)), ("limit", PInt(1))])
  }

  /** `get_leaderboard_user`: the v1 endpoint's row if it has one, otherwise the legacy endpoint's. */
  function LeaderboardUser(fetch: Request -> Fetched, user: string): (r: Result<Option<Json>, FetchError>)
    ensures r.Ok? && r.value.Some? ==> r.value.value.JObj?
    ensures fetch(LeaderboardV1Request(user)).Got? && LeaderboardRowFromPayload(fetch(LeaderboardV1Request(user)).data).Some? ==>
              r == Ok(LeaderboardRowFromPayload(fetch(LeaderboardV1Request(user)).data))
    ensures fetch(LeaderboardV1Request(user)).Raised? ==> r == Err(fetch(LeaderboardV1Request(user)).error)
    ensures var v1, legacy := fetch(LeaderboardV1Request(user)), fetch(LeaderboardLegacyRequest(user));
            v1.Got? && LeaderboardRowFromPayload(v1.data).None? ==>
              (legacy.Raised? ==> r == Err(legacy.error))
              && (legacy.Got? ==> r == Ok(LeaderboardRowFromPayload(legacy.data)))
  {
    var v1 :- Call(fetch, LeaderboardV1Request(user));
    var row := LeaderboardRowFromPayload(v1);
    if row.Some? then Ok(row)
    else
      var legacy :- Call(fetch, LeaderboardLegacyRequest(user));
      Ok(LeaderboardRowFromPayload(legacy))
  }
}

=== FILE: scoring.dfy ===
/**
 * The wallet weighting of `scoring.py`: a product of five clamped multipliers.
 * Floating point is modelled by `real`; `math.exp` and `math.sqrt` are parameters,
 * constrained only by the range facts `ExpLaws` and `SqrtLaws` where a property needs them.
 */
module Scoring {
  import opened Wrappers

  /** Timestamps above this many seconds (year ~2286) are taken to be milliseconds. */
  const MillisThreshold: int := 10_000_000_000
  const SecondsPerDay: real := 86400.0
  /** The profit that earns one unit of profit multiplier. */
  const ProfitUnit: real := 5000.0

  /** Per-wallet inputs to the weighting. `marketValue` and `positionSize` are the two accepted names of the position value. */
  datatype WalletFeatures = WalletFeatures(
    pnlAll: real,
    winRate: Option<real>,
    wrN: int,
    daysSinceActive: Option<real>,
    convictionRatio: Option<real>,
    marketOutcome: Option<string>,
    marketValue: real,
    positionSize: real)

  /** `math.exp` is positive everywhere and at most 1 on non-positive arguments. */
  ghost predicate ExpLaws(exp: real -> real) {
    forall x :: exp(x) > 0.0 && (x <= 0.0 ==> exp(x) <= 1.0)
  }

  /** `math.sqrt` maps a non-negative number to its non-negative square root. */
  ghost predicate SqrtLaws(sqrt: real -> real) {
    forall x :: x >= 0.0 ==> sqrt(x) >= 0.0 && sqrt(x) * sqrt(x) == x
  }

  function Max(a: real, b: real): real { if a >= b then a else b }
  function Min(a: real, b: real): real { if a <= b then a else b }

  /** Second-resolution view of a timestamp that may be in milliseconds (`t //= 1000` when large). */
  function ToSeconds(t: int): (s: int)
    ensures t <= MillisThreshold ==> s == t
    ensures t > MillisThreshold ==> s * 1000 <= t < s * 1000 + 1000
  {
    if t > MillisThreshold then t / 1000 else t
  }

  /**
   * `to_days_since(ts)` with the clock reading `now` (whole seconds) as a parameter:
   * `None` for a missing, non-positive or more-than-a-minute-in-the-future timestamp,
   * otherwise the non-negative age in days.
   */
  function ToDaysSince(ts: Option<int>, now: int): (r: Option<real>)
    ensures ts.None? ==> r.None?
    ensures r.Some? <==> ts.Some? && 0 < ToSeconds(ts.value) <= now + 60
    ensures r.Some? ==> r.value >= 0.0
    ensures r.Some? && ToSeconds(ts.value) <= now ==> r.value * SecondsPerDay == (now - ToSeconds(ts.value)) as real
    ensures r.Some? && ToSeconds(ts.value) > now ==> r.value == 0.0
  {
    match ts
    case None => None
    case Some(raw) =>
      var t := ToSeconds(raw);
      if t <= 0 || t > now + 60 then None
      else Some(Max(0.0, (now - t) as real / SecondsPerDay))
  }

  /** `_safe(v, default)`: the value, or the documented default for a missing one. */
  function Safe(v: Option<real>, default: real): real {
    v.GetOr(default)
  }

  /** `clamp(max(0, pnl) / 5000, 1, 5)` */
  function ProfitMultiplier(pnlAll: real): (m: real)
    ensures 1.0 <= m <= 5.0
    ensures pnlAll <= ProfitUnit ==> m == 1.0
    ensures pnlAll >= 5.0 * ProfitUnit ==> m == 5.0
  {
    var pnl := Max(0.0, pnlAll);
    Min(5.0, Max(1.0, pnl / ProfitUnit))
  }

  /** `0.5 + win_rate`, an unknown win rate counting as the midpoint 0.5. */
  function WinMultiplier(winRate: Option<real>): (m: real)
    ensures winRate.None? ==> m == 1.0
    ensures winRate.Some? && 0.0 <= winRate.value <= 1.0 ==> 0.5 <= m <= 1.5
  {
    0.5 + Safe(winRate, 0.5)
  }

  /** Recency: fixed 0.75 when unknown, else `0.5 + 0.5 * exp(-days / 30)`. */
  function RecencyMultiplier(days: Option<real>, exp: real -> real): (m: real)
    ensures days.None? ==> m == 0.75
    ensures ExpLaws(exp) ==> m > 0.5
    ensures ExpLaws(exp) && days.Some? && days.value >= 0.0 ==> m <= 1.0
  {
    match days
    case None => 0.75
    case Some(d) => 0.5 + 0.5 * exp(-d / 30.0)
  }

  /** `clamp(conviction_ratio, 0.5, 3)`, an unknown ratio counting as 1. */
  function ConvictionMultiplier(ratio: Option<real>): (m: real)
    ensures 0.5 <= m <= 3.0
    ensures ratio.None? ==> m == 1.0
  {
    Min(3.0, Max(0.5, Safe(ratio, 1.0)))
  }

  /** The position value: `market_value` when positive, else `position_size`. */
  function PositionValue(f: WalletFeatures): (v: real)
    ensures f.marketValue > 0.0 ==> v == f.marketValue
    ensures f.marketValue <= 0.0 ==> v == f.positionSize
  {
    if f.marketValue > 0.0 then f.marketValue else f.positionSize
  }

  /** `sqrt(max(1, value))`: at least 1, so a tiny or missing position never shrinks the weight. */
  function ValueMultiplier(f: WalletFeatures, sqrt: real -> real): (m: real)
    ensures SqrtLaws(sqrt) ==> m >= 1.0
  {
    var x := Max(1.0, PositionValue(f));
    SqrtAtLeastOne(sqrt, x);
    sqrt(x)
  }

  lemma SqrtAtLeastOne(sqrt: real -> real, x: real)
    requires x >= 1.0
    ensures SqrtLaws(sqrt) ==> sqrt(x) >= 1.0
  {
    if SqrtLaws(sqrt) {
      var s := sqrt(x);
      assert s >= 0.0 && s * s == x;
      if s < 1.0 {
        MulLeOne(s);
      }
    }
  }

  lemma MulLeOne(s: real)
    requires 0.0 <= s < 1.0
    ensures s * s < 1.0
  {
    assert s * s <= s * 1.0;
  }

  /** `wallet_weight(f)`: the product of the five multipliers, floored at 0. */
  function WalletWeight(f: WalletFeatures, exp: real -> real, sqrt: real -> real): (w: real)
    ensures w >= 0.0
  {
    var w := ProfitMultiplier(f.pnlAll) * WinMultiplier(f.winRate) * RecencyMultiplier(f.daysSinceActive, exp)
             * ConvictionMultiplier(f.convictionRatio) * ValueMultiplier(f, sqrt);
    Max(0.0, w)
  }

  /** The weight is the profit multiplier times the product of the other four, floored at 0. */
  lemma WeightFactors(f: WalletFeatures, exp: real -> real, sqrt: real -> real)
    ensures WalletWeight(f, exp, sqrt) == Max(0.0, ProfitMultiplier(f.pnlAll) * OtherFactors(f, exp, sqrt))
  {
    var p, a, b, c, d := ProfitMultiplier(f.pnlAll), WinMultiplier(f.winRate), RecencyMultiplier(f.daysSinceActive, exp),
                         ConvictionMultiplier(f.convictionRatio), ValueMultiplier(f, sqrt);
    Regroup(p, a, b, c, d);
  }

  lemma Regroup(p: real, a: real, b: real, c: real, d: real)
    ensures p * a * b * c * d == p * (a * b * c * d)
  {
  }

  function OtherFactors(f: WalletFeatures, exp: real -> real, sqrt: real -> real): real {
    WinMultiplier(f.winRate) * RecencyMultiplier(f.daysSinceActive, exp)
    * ConvictionMultiplier(f.convictionRatio) * ValueMultiplier(f, sqrt)
  }

  /** The profit multiplier never decreases as profit grows. */
  lemma ProfitMultiplierMonotone(p1: real, p2: real)
    requires p1 <= p2
    ensures ProfitMultiplier(p1) <= ProfitMultiplier(p2)
  {
    assert Max(0.0, p1) / ProfitUnit <= Max(0.0, p2) / ProfitUnit;
  }

  /**
   * "Stable, monotonic weighting": with every other feature fixed, more all-time profit
   * never lowers the weight. This holds for any `exp` and `sqrt`.
   */
  lemma {:induction false} WeightMonotoneInPnl(f: WalletFeatures, p1: real, p2: real, exp: real -> real, sqrt: real -> real)
    requires p1 <= p2
    ensures WalletWeight(f.(pnlAll := p1), exp, sqrt) <= WalletWeight(f.(pnlAll := p2), exp, sqrt)
  {
    WeightAtPnl(f, p1, exp, sqrt);
    WeightAtPnl(f, p2, exp, sqrt);
    ProfitMultiplierMonotone(p1, p2);
    ScaledFloorMonotone(ProfitMultiplier(p1), ProfitMultiplier(p2), OtherFactors(f, exp, sqrt));
  }

  /** The weight at profit `p`, the other features fixed. */
  lemma WeightAtPnl(f: WalletFeatures, p: real, exp: real -> real, sqrt: real -> real)
    ensures WalletWeight(f.(pnlAll := p), exp, sqrt) == Max(0.0, ProfitMultiplier(p) * OtherFactors(f, exp, sqrt))
  {
    WeightFactors(f.(pnlAll := p), exp, sqrt);
    OtherFactorsIgnorePnl(f, p, exp, sqrt);
  }

  lemma OtherFactorsIgnorePnl(f: WalletFeatures, p: real, exp: real -> real, sqrt: real -> real)
    ensures OtherFactors(f.(pnlAll := p), exp, sqrt) == OtherFactors(f, exp, sqrt)
  {
    assert ValueMultiplier(f.(pnlAll := p), sqrt) == ValueMultiplier(f, sqrt);
  }

  /** `max(0, m * r)` is non-decreasing in a positive factor `m`, whatever the sign of `r`. */
  lemma ScaledFloorMonotone(m1: real, m2: real, r: real)
    requires 0.0 < m1 <= m2
    ensures Max(0.0, m1 * r) <= Max(0.0, m2 * r)
  {
    if r >= 0.0 {
      MulMonotone(m1, m2, r);
    } else {
      MulMonotone(0.0, m1, -r);
    }
  }

  lemma MulMonotone(a: real, b: real, c: real)
    requires a <= b && c >= 0.0
    ensures a * c <= b * c
  {
  }

  /**
   * With lawful `exp`/`sqrt` and a win rate that is unknown or non-negative (as computed
   * from closed positions), every factor is positive, so the weight is strictly positive.
   */
  lemma {:induction false} WeightPositive(f: WalletFeatures, exp: real -> real, sqrt: real -> real)
    requires ExpLaws(exp) && SqrtLaws(sqrt)
    requires f.winRate.None? || f.winRate.value >= 0.0
    ensures WalletWeight(f, exp, sqrt) > 0.0
  {
    var p, a, b, c, d := ProfitMultiplier(f.pnlAll), WinMultiplier(f.winRate), RecencyMultiplier(f.daysSinceActive, exp),
                         ConvictionMultiplier(f.convictionRatio), ValueMultiplier(f, sqrt);
    assert p > 0.0 && a > 0.0 && b > 0.0 && c > 0.0 && d > 0.0;
    PositiveProduct(p, a);
    PositiveProduct(p * a, b);
    PositiveProduct(p * a * b, c);
    PositiveProduct(p * a * b * c, d);
  }

  lemma PositiveProduct(x: real, y: real)
    requires x > 0.0 && y > 0.0
    ensures x * y > 0.0
  {
  }
}

=== FILE: seqs.dfy ===
/**
 * Sequence folds shared by the engine: sums, flat-maps, first-seen de-duplication
 * and the stable descending sort Python's `sorted(..., reverse=True)` performs,
 * together with the facts that these do not depend on the order of their input.
 */
module Seqs {

  /** Left-to-right sum, as a Python `for` loop accumulating into `total` computes it. */
  function SumOf(s: seq<real>): real
  {
    if |s| == 0 then 0.0 else SumOf(s[..|s| - 1]) + s[|s| - 1]
  }

  lemma {:induction false} SumOfConcat(a: seq<real>, b: seq<real>)
    ensures SumOf(a + b) == SumOf(a) + SumOf(b)
    decreases |b|
  {
    if |b| == 0 {
      assert a + b == a;
    } else {
      assert (a + b)[..|a + b| - 1] == a + b[..|b| - 1];
      SumOfConcat(a, b[..|b| - 1]);
    }
  }

  /** A sum of non-negative terms is non-negative. */
  lemma {:induction false} SumOfNonNegative(s: seq<real>)
    requires forall i :: 0 <= i < |s| ==> s[i] >= 0.0
    ensures SumOf(s) >= 0.0
  {
    if |s| > 0 {
      SumOfNonNegative(s[..|s| - 1]);
    }
  }

  /** Every non-negative term is bounded by the sum. */
  lemma {:induction false} TermAtMostSum(s: seq<real>, k: nat)
    requires forall i :: 0 <= i < |s| ==> s[i] >= 0.0
    requires k < |s|
    ensures s[k] <= SumOf(s)
  {
    SumOfNonNegative(s[..|s| - 1]);
    if k < |s| - 1 {
      TermAtMostSum(s[..|s| - 1], k);
    }
  }

  /** Taking one element out of the middle takes exactly it out of the sum. */
  lemma SumOfRemove(left: seq<real>, x: real, right: seq<real>)
    ensures SumOf(left + [x] + right) == SumOf(left + right) + x
  {
    SumOfConcat(left + [x], right);
    SumOfConcat(left, [x]);
    SumOfConcat(left, right);
    assert SumOf([x]) == x by {
      assert [x][..0] == [];
    }
  }

  /** Reordering the terms does not change the (exact, real-valued) sum. */
  lemma {:induction false} SumOfPermutation(a: seq<real>, b: seq<real>)
    requires multiset(a) == multiset(b)
    ensures SumOf(a) == SumOf(b)
    decreases |a|
  {
    if |a| == 0 {
      assert |b| == |multiset(b)| == 0;
    } else {
      var left, right := SplitAtLast(a, b);
      SumOfPermutation(a[..|a| - 1], left + right);
      SumOfRemove(left, a[|a| - 1], right);
      SumOfRemove(a[..|a| - 1], a[|a| - 1], []);
      SnocSplit(a);
      assert a[..|a| - 1] + [a[|a| - 1]] + [] == a;
      assert a[..|a| - 1] + [] == a[..|a| - 1];
    }
  }

  /** `b`, a permutation of `a`, split around an occurrence of `a`'s last element. */
  lemma SplitAtLast<A>(a: seq<A>, b: seq<A>) returns (left: seq<A>, right: seq<A>)
    requires |a| > 0 && multiset(a) == multiset(b)
    ensures b == left + [a[|a| - 1]] + right
    ensures multiset(a[..|a| - 1]) == multiset(left + right)
  {
    var init := a[..|a| - 1];
    var x := a[|a| - 1];
    SnocSplit(a);
    assert multiset(a) == multiset(init) + multiset{x};
    assert x in multiset(b);
    var i :| 0 <= i < |b| && b[i] == x;
    left, right := b[..i], b[i + 1..];
    assert b == left + [x] + right;
    assert multiset(b) == multiset(left) + multiset{x} + multiset(right);
    assert multiset(left + right) == multiset(left) + multiset(right);
    assert multiset(init) == multiset(a) - multiset{x};
    assert multiset(left + right) == multiset(b) - multiset{x};
  }

  /** `[y for x in s for y in f(x)]`, accumulated left to right. */
  function FlatMap<A, B>(f: A -> seq<B>, s: seq<A>): seq<B>
  {
    if |s| == 0 then [] else FlatMap(f, s[..|s| - 1]) + f(s[|s| - 1])
  }

  lemma {:induction false} FlatMapConcat<A, B>(f: A -> seq<B>, a: seq<A>, b: seq<A>)
    ensures FlatMap(f, a + b) == FlatMap(f, a) + FlatMap(f, b)
    decreases |b|
  {
    if |b| == 0 {
      assert a + b == a;
    } else {
      assert (a + b)[..|a + b| - 1] == a + b[..|b| - 1];
      FlatMapConcat(f, a, b[..|b| - 1]);
    }
  }

  /** An element of the flat-map comes from the image of some input element, and conversely. */
  lemma {:induction false} FlatMapMembership<A, B>(f: A -> seq<B>, s: seq<A>, y: B)
    ensures y in FlatMap(f, s) <==> exists i :: 0 <= i < |s| && y in f(s[i])
    decreases |s|
  {
    if |s| > 0 {
      FlatMapMembership(f, s[..|s| - 1], y);
      if y in FlatMap(f, s[..|s| - 1]) {
        var i :| 0 <= i < |s| - 1 && y in f(s[..|s| - 1][i]);
        assert y in f(s[i]);
      }
    }
  }

  /** Taking one element out of the middle takes exactly its image out of the flat-map. */
  lemma FlatMapRemove<A, B>(f: A -> seq<B>, left: seq<A>, x: A, right: seq<A>)
    ensures multiset(FlatMap(f, left + [x] + right)) == multiset(FlatMap(f, left + right)) + multiset(f(x))
  {
    assert FlatMap(f, [x]) == f(x) by {
      assert [x][..0] == [];
    }
    FlatMapConcat(f, left + [x], right);
    FlatMapConcat(f, left, [x]);
    FlatMapConcat(f, left, right);
  }

  /** The flat-map's contents, counted with multiplicity, do not depend on the input's order. */
  lemma {:induction false} FlatMapPermutation<A, B>(f: A -> seq<B>, a: seq<A>, b: seq<A>)
    requires multiset(a) == multiset(b)
    ensures multiset(FlatMap(f, a)) == multiset(FlatMap(f, b))
    decreases |a|
  {
    if |a| == 0 {
      assert |b| == |multiset(b)| == 0;
    } else {
      var init := a[..|a| - 1];
      var x := a[|a| - 1];
      var left, right := SplitAtLast(a, b);
      FlatMapPermutation(f, init, left + right);
      FlatMapRemove(f, left, x, right);
      FlatMapRemove(f, init, x, []);
      assert init + [x] + [] == a;
      assert init + [] == init;
    }
  }

  /** `[f(x) for x in s]` */
  function Map<A, B>(f: A -> B, s: seq<A>): (r: seq<B>)
    ensures |r| == |s|
    ensures forall i :: 0 <= i < |s| ==> r[i] == f(s[i])
  {
    seq(|s|, i requires 0 <= i < |s| => f(s[i]))
  }

  /** A map is the flat-map of singletons, so it inherits the flat-map's order independence. */
  lemma {:induction false} MapIsFlatMap<A, B>(f: A -> B, s: seq<A>)
    ensures Map(f, s) == FlatMap(x => [f(x)], s)
    decreases |s|
  {
    if |s| > 0 {
      MapIsFlatMap(f, s[..|s| - 1]);
    }
  }

  lemma MapPermutation<A, B>(f: A -> B, a: seq<A>, b: seq<A>)
    requires multiset(a) == multiset(b)
    ensures multiset(Map(f, a)) == multiset(Map(f, b))
  {
    MapIsFlatMap(f, a);
    MapIsFlatMap(f, b);
    FlatMapPermutation(x => [f(x)], a, b);
  }

  /** No element occurs twice. */
  predicate NoDup<T(==)>(s: seq<T>) {
    forall i, j :: 0 <= i < j < |s| ==> s[i] != s[j]
  }

  /** Position of the first occurrence of `x` (`s.index(x)`). */
  function FirstIndex<T(==)>(s: seq<T>, x: T): (i: nat)
    requires x in s
    ensures i < |s| && s[i] == x && x !in s[..i]
  {
    if s[0] == x then 0 else 1 + FirstIndex(s[1..], x)
  }

  /** The first occurrence is the position that holds `x` with no `x` before it. */
  lemma {:induction false} FirstIndexUnique<T>(s: seq<T>, x: T, k: nat)
    requires k < |s| && s[k] == x
    requires forall m :: 0 <= m < k ==> s[m] != x
    ensures FirstIndex(s, x) == k
  {
    if k > 0 {
      FirstIndexUnique(s[1..], x, k - 1);
    }
  }

  /** First occurrences agree between a sequence and any extension of it. */
  lemma FirstIndexPrefix<T>(s: seq<T>, t: seq<T>, x: T)
    requires x in s
    ensures FirstIndex(s + t, x) == FirstIndex(s, x)
  {
    var i := FirstIndex(s, x);
    forall m | 0 <= m < i
      ensures (s + t)[m] != x
    {
      assert s[..i][m] == s[m];
    }
    FirstIndexUnique(s + t, x, i);
  }

  /**
   * `r` lists the distinct elements of `s` once each, in order of first appearance.
   */
  predicate ListsDistinct<T(==)>(s: seq<T>, r: seq<T>) {
    && NoDup(r)
    && (forall i :: 0 <= i < |r| ==> r[i] in s)
    && (forall i :: 0 <= i < |s| ==> s[i] in r)
    && (forall i, j :: 0 <= i < j < |r| ==> FirstIndex(s, r[i]) < FirstIndex(s, r[j]))
  }

  /** A listing of the distinct elements has exactly the elements of the input. */
  lemma ListsDistinctMembers<T>(s: seq<T>, r: seq<T>)
    requires ListsDistinct(s, r)
    ensures forall x :: x in r <==> x in s
  {
    forall x | x in r
      ensures x in s
    {
      var i :| 0 <= i < |r| && r[i] == x;
    }
    forall x | x in s
      ensures x in r
    {
      var i :| 0 <= i < |s| && s[i] == x;
    }
  }

  /**
   * The `seen`-set loop: keep each element the first time it appears. The result has no
   * duplicates, the same elements as the input, and lists them by first appearance.
   */
  function Dedup<T(==)>(s: seq<T>): (r: seq<T>)
    ensures ListsDistinct(s, r)
    decreases |s|
  {
    if |s| == 0 then []
    else
      var d := Dedup(s[..|s| - 1]);
      DedupStep(s, d);
      if s[|s| - 1] in d then d else d + [s[|s| - 1]]
  }

  /** One step of the loop: a new element is appended, a repeated one skipped. */
  lemma DedupStep<T>(s: seq<T>, d: seq<T>)
    requires |s| > 0 && ListsDistinct(s[..|s| - 1], d)
    ensures ListsDistinct(s, if s[|s| - 1] in d then d else d + [s[|s| - 1]])
  {
    var init, last := s[..|s| - 1], s[|s| - 1];
    var r := if last in d then d else d + [last];
    SnocSplit(s);
    FirstIndexSnoc(s);
    assert forall x :: x in init ==> x in s;
    forall i | 0 <= i < |s|
      ensures s[i] in r
    {
      if i < |s| - 1 {
        assert s[i] == init[i];
      }
    }
    forall i | 0 <= i < |r|
      ensures r[i] in s
    {
      if i < |d| {
        assert r[i] == d[i];
      }
    }
    if last !in d {
      assert last !in init;
      forall i, j | 0 <= i < j < |r|
        ensures r[i] != r[j]
        ensures FirstIndex(s, r[i]) < FirstIndex(s, r[j])
      {
        assert r[i] == d[i];
        if j < |d| {
          assert r[j] == d[j];
        }
      }
    }
    assert NoDup(r);
  }

  /** Appending an element keeps the first occurrences of everything before it. */
  lemma FirstIndexSnoc<T>(s: seq<T>)
    requires |s| > 0
    ensures forall x :: x in s[..|s| - 1] ==> FirstIndex(s, x) == FirstIndex(s[..|s| - 1], x)
    ensures s[|s| - 1] !in s[..|s| - 1] ==> FirstIndex(s, s[|s| - 1]) == |s| - 1
  {
    var init, last := s[..|s| - 1], s[|s| - 1];
    SnocSplit(s);
    forall x | x in init
      ensures FirstIndex(s, x) == FirstIndex(init, x)
    {
      FirstIndexPrefix(init, [last], x);
    }
    if last !in init {
      FirstIndexAfter(init, last);
    }
  }

  lemma SnocSplit<T>(s: seq<T>)
    requires |s| > 0
    ensures s == s[..|s| - 1] + [s[|s| - 1]]
  {
  }

  /** A new element appended at the end first occurs there. */
  lemma FirstIndexAfter<T>(s: seq<T>, x: T)
    requires x !in s
    ensures FirstIndex(s + [x], x) == |s|
  {
    forall m | 0 <= m < |s|
      ensures (s + [x])[m] != x
    {
      assert (s + [x])[m] == s[m];
    }
    FirstIndexUnique(s + [x], x, |s|);
  }

  /** Index of the first element with the largest key (`max` keeps the first of equals). */
  function FirstMaxIndex<T>(s: seq<T>, key: T -> real): (i: nat)
    requires |s| > 0
    ensures i < |s|
    ensures forall j :: 0 <= j < |s| ==> key(s[j]) <= key(s[i])
    ensures forall j :: 0 <= j < i ==> key(s[j]) < key(s[i])
  {
    if |s| == 1 then 0
    else
      var k := FirstMaxIndex(s[1..], key) + 1;
      if key(s[0]) >= key(s[k]) then 0 else k
  }

  /** Non-increasing in `key`. */
  predicate SortedDesc<T>(s: seq<T>, key: T -> real) {
    forall i, j :: 0 <= i < j < |s| ==> key(s[i]) >= key(s[j])
  }

  /**
   * Python's stable `sorted(s, key=key, reverse=True)`: repeatedly take the first element
   * of largest key. The result is a permutation of `s`, sorted by non-increasing key, and
   * its head is the earliest element of `s` among those with the largest key.
   */
  function SortDesc<T(==)>(s: seq<T>, key: T -> real): (r: seq<T>)
    ensures |r| == |s|
    ensures multiset(r) == multiset(s)
    ensures SortedDesc(r, key)
    ensures |s| > 0 ==> r[0] == s[FirstMaxIndex(s, key)]
    decreases |s|
  {
    if |s| == 0 then []
    else
      var i := FirstMaxIndex(s, key);
      var rest := s[..i] + s[i + 1..];
      SplitAt(s, i);
      var sorted := SortDesc(rest, key);
      BoundedByMax(s, i, rest, sorted, key);
      [s[i]] + sorted
  }

  lemma SplitAt<T>(s: seq<T>, i: nat)
    requires i < |s|
    ensures multiset(s) == multiset(s[..i] + s[i + 1..]) + multiset{s[i]}
  {
    assert s == s[..i] + [s[i]] + s[i + 1..];
  }

  /** Helper for `SortDesc`: the extracted maximum bounds everything sorted after it. */
  lemma BoundedByMax<T>(s: seq<T>, i: nat, rest: seq<T>, sorted: seq<T>, key: T -> real)
    requires i < |s|
    requires forall j :: 0 <= j < |s| ==> key(s[j]) <= key(s[i])
    requires multiset(s) == multiset(rest) + multiset{s[i]}
    requires multiset(sorted) == multiset(rest)
    requires SortedDesc(sorted, key)
    ensures SortedDesc([s[i]] + sorted, key)
  {
    forall j | 0 <= j < |sorted|
      ensures key(sorted[j]) <= key(s[i])
    {
      assert sorted[j] in multiset(rest);
      assert sorted[j] in multiset(s);
      var k :| 0 <= k < |s| && s[k] == sorted[j];
    }
  }

  /** `[x for x in s if p(x)]` */
  function Filter<T>(p: T -> bool, s: seq<T>): (r: seq<T>)
    ensures |r| <= |s|
    ensures forall i :: 0 <= i < |r| ==> p(r[i]) && r[i] in s
    ensures forall i :: 0 <= i < |s| && p(s[i]) ==> s[i] in r
  {
    if |s| == 0 then []
    else
      var init := Filter(p, s[..|s| - 1]);
      var last := s[|s| - 1];
      assert forall i :: 0 <= i < |s| - 1 ==> s[i] == s[..|s| - 1][i];
      if p(last) then init + [last] else init
  }

  /** How many elements satisfy `p` (`sum(1 for x in s if p(x))`). */
  function Count<T>(p: T -> bool, s: seq<T>): (n: nat)
    ensures n <= |s|
  {
    if |s| == 0 then 0 else Count(p, s[..|s| - 1]) + (if p(s[|s| - 1]) then 1 else 0)
  }

  lemma {:induction false} CountIsFilterLength<T>(p: T -> bool, s: seq<T>)
    ensures Count(p, s) == |Filter(p, s)|
  {
    if |s| > 0 {
      CountIsFilterLength(p, s[..|s| - 1]);
    }
  }

  lemma {:induction false} CountConcat<T>(p: T -> bool, a: seq<T>, b: seq<T>)
    ensures Count(p, a + b) == Count(p, a) + Count(p, b)
    decreases |b|
  {
    if |b| == 0 {
      assert a + b == a;
    } else {
      assert (a + b)[..|a + b| - 1] == a + b[..|b| - 1];
      CountConcat(p, a, b[..|b| - 1]);
    }
  }

  /** Taking one element out of the middle takes exactly it out of the count. */
  lemma CountRemove<T>(p: T -> bool, left: seq<T>, x: T, right: seq<T>)
    ensures Count(p, left + [x] + right) == Count(p, left + right) + (if p(x) then 1 else 0)
  {
    CountConcat(p, left + [x], right);
    CountConcat(p, left, [x]);
    CountConcat(p, left, right);
    assert Count(p, [x]) == (if p(x) then 1 else 0) by {
      assert [x][..0] == [];
    }
  }

  /** Counting does not depend on the order of the elements. */
  lemma {:induction false} CountPermutation<T>(p: T -> bool, a: seq<T>, b: seq<T>)
    requires multiset(a) == multiset(b)
    ensures Count(p, a) == Count(p, b)
    decreases |a|
  {
    if |a| == 0 {
      assert |b| == |multiset(b)| == 0;
    } else {
      var left, right := SplitAtLast(a, b);
      CountPermutation(p, a[..|a| - 1], left + right);
      CountRemove(p, left, a[|a| - 1], right);
      CountRemove(p, a[..|a| - 1], a[|a| - 1], []);
      SnocSplit(a);
      assert a[..|a| - 1] + [a[|a| - 1]] + [] == a;
      assert a[..|a| - 1] + [] == a[..|a| - 1];
    }
  }

  /** Every element satisfies `p` exactly when the count is the length. */
  lemma {:induction false} CountAll<T>(p: T -> bool, s: seq<T>)
    ensures Count(p, s) == |s| <==> forall i :: 0 <= i < |s| ==> p(s[i])
  {
    if |s| > 0 {
      CountAll(p, s[..|s| - 1]);
      assert forall i :: 0 <= i < |s| - 1 ==> s[i] == s[..|s| - 1][i];
    }
  }

  /** No element satisfies `p` exactly when the count is zero. */
  lemma {:induction false} CountNone<T>(p: T -> bool, s: seq<T>)
    ensures Count(p, s) == 0 <==> forall i :: 0 <= i < |s| ==> !p(s[i])
  {
    if |s| > 0 {
      CountNone(p, s[..|s| - 1]);
      assert forall i :: 0 <= i < |s| - 1 ==> s[i] == s[..|s| - 1][i];
    }
  }

  /** The largest element (Python's `max` on a non-empty list). */
  function MaxOf(s: seq<real>): (m: real)
    requires |s| > 0
    ensures forall i :: 0 <= i < |s| ==> s[i] <= m
    ensures m in s
  {
    if |s| == 1 then s[0]
    else
      var m := MaxOf(s[..|s| - 1]);
      assert forall i :: 0 <= i < |s| - 1 ==> s[i] == s[..|s| - 1][i];
      if s[|s| - 1] > m then s[|s| - 1] else m
  }

  /** Changing one term changes the sum by the difference. */
  lemma SumOfUpdate(s: seq<real>, i: nat, x: real)
    requires i < |s|
    ensures SumOf(s[i := x]) == SumOf(s) - s[i] + x
  {
    assert s == s[..i] + [s[i]] + s[i + 1..];
    assert s[i := x] == s[..i] + [x] + s[i + 1..];
    SumOfConcat(s[..i] + [s[i]], s[i + 1..]);
    SumOfConcat(s[..i] + [x], s[i + 1..]);
    SumOfConcat(s[..i], [s[i]]);
    SumOfConcat(s[..i], [x]);
    assert [x][..0] == [] && [s[i]][..0] == [];
  }

  /** Each term divided by `t`. */
  function DivideAll(s: seq<real>, t: real): (r: seq<real>)
    requires t != 0.0
    ensures |r| == |s| && forall i :: 0 <= i < |s| ==> r[i] == s[i] / t
  {
    seq(|s|, i requires 0 <= i < |s| => s[i] / t)
  }

  /** Dividing every term divides the sum. */
  lemma {:induction false} SumOfDivideAll(s: seq<real>, t: real)
    requires t != 0.0
    ensures SumOf(DivideAll(s, t)) == SumOf(s) / t
  {
    if |s| > 0 {
      SumOfDivideAll(s[..|s| - 1], t);
      assert DivideAll(s, t)[..|s| - 1] == DivideAll(s[..|s| - 1], t);
      AddDivided(SumOf(s[..|s| - 1]), s[|s| - 1], t);
    }
  }

  lemma AddDivided(x: real, y: real, t: real)
    requires t != 0.0
    ensures x / t + y / t == (x + y) / t
  {
  }

  function Negate(x: real): real {
    -x
  }

  predicate SortedAsc(s: seq<real>) {
    forall i, j :: 0 <= i < j < |s| ==> s[i] <= s[j]
  }

  /** `sorted(s)` on numbers. */
  function SortAsc(s: seq<real>): (r: seq<real>)
    ensures |r| == |s| && multiset(r) == multiset(s)
    ensures SortedAsc(r)
  {
    var r := SortDesc(s, Negate);
    assert forall i, j :: 0 <= i < j < |r| ==> Negate(r[i]) >= Negate(r[j]);
    r
  }

  function Below(v: real): real -> bool {
    x => x < v
  }

  function AtMost(v: real): real -> bool {
    x => x <= v
  }

  lemma BelowSortedPrefix(a: seq<real>, k: nat)
    requires k < |a| && SortedAsc(a)
    ensures Count(Below(a[k]), a) <= k
  {
    var v := a[k];
    assert a == a[..k] + a[k..];
    CountConcat(Below(v), a[..k], a[k..]);
    assert forall i :: 0 <= i < |a[k..]| ==> !Below(v)(a[k..][i]) by {
      forall i | 0 <= i < |a[k..]|
        ensures !Below(v)(a[k..][i])
      {
        assert a[k..][i] == a[k + i];
      }
    }
    CountNone(Below(v), a[k..]);
  }

  lemma AtMostSortedPrefix(a: seq<real>, k: nat)
    requires k < |a| && SortedAsc(a)
    ensures Count(AtMost(a[k]), a) >= k + 1
  {
    var v := a[k];
    var pre := a[..k + 1];
    assert a == pre + a[k + 1..];
    CountConcat(AtMost(v), pre, a[k + 1..]);
    assert forall i :: 0 <= i < |pre| ==> AtMost(v)(pre[i]) by {
      forall i | 0 <= i < |pre|
        ensures AtMost(v)(pre[i])
      {
        assert pre[i] == a[i];
      }
    }
    CountAll(AtMost(v), pre);
  }

  /**
   * `sorted(s)[k]` is the k-th order statistic of `s`: at most k elements of `s` are
   * smaller, and at least k + 1 are no larger.
   */
  lemma OrderStatistic(s: seq<real>, k: nat)
    requires k < |s|
    ensures Count(Below(SortAsc(s)[k]), s) <= k
    ensures Count(AtMost(SortAsc(s)[k]), s) >= k + 1
  {
    var a := SortAsc(s);
    BelowSortedPrefix(a, k);
    AtMostSortedPrefix(a, k);
    CountPermutation(Below(a[k]), a, s);
    CountPermutation(AtMost(a[k]), a, s);
  }

  /** The first maximum is the index that bounds everything and beats everything before it. */
  lemma FirstMaxUnique<T>(s: seq<T>, key: T -> real, i: nat)
    requires i < |s|
    requires forall j :: 0 <= j < |s| ==> key(s[j]) <= key(s[i])
    requires forall j :: 0 <= j < i ==> key(s[j]) < key(s[i])
    ensures FirstMaxIndex(s, key) == i
  {
    var m := FirstMaxIndex(s, key);
    assert key(s[m]) <= key(s[i]) && key(s[i]) <= key(s[m]);
    assert !(m < i) && !(i < m);
  }

  /** The element-wise singleton lists `Filter` keeps. */
  function Keep<T>(p: T -> bool): T -> seq<T> {
    x => if p(x) then [x] else []
  }

  lemma {:induction false} FilterIsFlatMap<T>(p: T -> bool, s: seq<T>)
    ensures Filter(p, s) == FlatMap(Keep(p), s)
  {
    if |s| > 0 {
      FilterIsFlatMap(p, s[..|s| - 1]);
    }
  }

  /** Filtering does not depend on the order of the elements, up to reordering. */
  lemma FilterPermutation<T>(p: T -> bool, a: seq<T>, b: seq<T>)
    requires multiset(a) == multiset(b)
    ensures multiset(Filter(p, a)) == multiset(Filter(p, b))
  {
    FilterIsFlatMap(p, a);
    FilterIsFlatMap(p, b);
    FlatMapPermutation(Keep(p), a, b);
  }

  /** Appending an element moves the first maximum to it exactly when it is strictly larger. */
  lemma FirstMaxSnoc<T>(s: seq<T>, key: T -> real)
    requires |s| >= 2
    ensures var init := s[..|s| - 1];
            FirstMaxIndex(s, key) ==
              (if key(s[|s| - 1]) > key(init[FirstMaxIndex(init, key)]) then |s| - 1 else FirstMaxIndex(init, key))
  {
    var init := s[..|s| - 1];
    var i0 := FirstMaxIndex(init, key);
    assert forall j :: 0 <= j < |init| ==> init[j] == s[j];
    if key(s[|s| - 1]) > key(init[i0]) {
      FirstMaxUnique(s, key, |s| - 1);
    } else {
      FirstMaxUnique(s, key, i0);
    }
  }

  /** `lambda x: key(x) == v` */
  function KeyIs<T>(key: T -> real, v: real): T -> bool {
    x => key(x) == v
  }

  lemma FilterConcat<T>(p: T -> bool, a: seq<T>, b: seq<T>)
    ensures Filter(p, a + b) == Filter(p, a) + Filter(p, b)
  {
    FilterIsFlatMap(p, a);
    FilterIsFlatMap(p, b);
    FilterIsFlatMap(p, a + b);
    FlatMapConcat(Keep(p), a, b);
  }

  lemma FilterCons<T>(p: T -> bool, x: T, t: seq<T>)
    ensures Filter(p, [x] + t) == (if p(x) then [x] else []) + Filter(p, t)
  {
    FilterConcat(p, [x], t);
    FilterSingleton(p, x);
  }

  lemma FilterSingleton<T>(p: T -> bool, x: T)
    ensures Filter(p, [x]) == if p(x) then [x] else []
  {
    assert [x][..0] == [];
  }

  lemma Around<T>(s: seq<T>, i: nat)
    requires i < |s|
    ensures s == s[..i] + [s[i]] + s[i + 1..]
  {
  }

  /** Taking one element out of the middle takes exactly it out of the filtered sequence. */
  lemma FilterAround<T>(p: T -> bool, left: seq<T>, x: T, right: seq<T>)
    ensures Filter(p, left + [x] + right) == Filter(p, left) + (if p(x) then [x] else []) + Filter(p, right)
    ensures Filter(p, left + right) == Filter(p, left) + Filter(p, right)
  {
    ConcatAssoc(left, [x], right);
    FilterConcat(p, left, [x] + right);
    FilterCons(p, x, right);
    ConcatAssoc(Filter(p, left), if p(x) then [x] else [], Filter(p, right));
    FilterConcat(p, left, right);
  }

  lemma ConcatAssoc<T>(a: seq<T>, b: seq<T>, c: seq<T>)
    ensures a + b + c == a + (b + c)
  {
  }

  lemma FilterNone<T>(p: T -> bool, s: seq<T>)
    requires forall i :: 0 <= i < |s| ==> !p(s[i])
    ensures Filter(p, s) == []
  {
    if |s| > 0 {
      FilterNone(p, s[..|s| - 1]);
    }
  }

  /** One step of `SortDesc`: the first maximum, then the rest sorted. */
  lemma SortDescStep<T>(s: seq<T>, key: T -> real)
    requires |s| > 0
    ensures var i := FirstMaxIndex(s, key);
            SortDesc(s, key) == [s[i]] + SortDesc(s[..i] + s[i + 1..], key)
  {
  }

  /**
   * `SortDesc` is stable: for every key value, the elements with that key come out in the
   * order they went in.
   */
  lemma {:induction false} SortDescStable<T>(s: seq<T>, key: T -> real, v: real)
    ensures Filter(KeyIs(key, v), SortDesc(s, key)) == Filter(KeyIs(key, v), s)
    decreases |s|
  {
    if |s| > 0 {
      var i := FirstMaxIndex(s, key);
      var left, x, right := s[..i], s[i], s[i + 1..];
      SortDescStep(s, key);
      SortDescStable(left + right, key, v);
      BeforeFirstMax(s, key, v);
      Around(s, i);
      PickedFirst(KeyIs(key, v), left, x, right, SortDesc(left + right, key));
    }
  }

  /** Nothing before the first maximum has the maximum's key. */
  lemma BeforeFirstMax<T>(s: seq<T>, key: T -> real, v: real)
    requires |s| > 0
    ensures var i := FirstMaxIndex(s, key);
            key(s[i]) == v ==> Filter(KeyIs(key, v), s[..i]) == []
  {
    var i := FirstMaxIndex(s, key);
    if key(s[i]) == v {
      assert forall j :: 0 <= j < i ==> s[..i][j] == s[j];
      FilterNone(KeyIs(key, v), s[..i]);
    }
  }

  /**
   * Moving `x` to the front keeps the filtered order when nothing before it passes the
   * filter or it does not pass itself.
   */
  lemma PickedFirst<T>(p: T -> bool, left: seq<T>, x: T, right: seq<T>, sortedRest: seq<T>)
    requires Filter(p, sortedRest) == Filter(p, left + right)
    requires p(x) ==> Filter(p, left) == []
    ensures Filter(p, [x] + sortedRest) == Filter(p, left + [x] + right)
  {
    FilterAround(p, left, x, right);
    FilterCons(p, x, sortedRest);
    MoveToFront(Filter(p, left), if p(x) then [x] else [], Filter(p, right), Filter(p, sortedRest));
  }

  /** `mid` may move in front of `fl` when one of the two is empty. */
  lemma MoveToFront<T>(fl: seq<T>, mid: seq<T>, fr: seq<T>, rest: seq<T>)
    requires rest == fl + fr
    requires mid == [] || fl == []
    ensures mid + rest == fl + mid + fr
  {
    if mid == [] {
      assert mid + rest == rest && fl + mid == fl;
    } else {
      assert fl + mid == mid && fl + fr == fr;
    }
  }

  /** Elements of equal key appear in increasing `rank`. */
  predicate TiesInRankOrder<T>(s: seq<T>, key: T -> real, rank: T -> int) {
    forall i, j :: 0 <= i < j < |s| && key(s[i]) == key(s[j]) ==> rank(s[i]) < rank(s[j])
  }

  lemma TiesInRankOrderRemove<T>(s: seq<T>, key: T -> real, rank: T -> int, i: nat)
    requires i < |s| && TiesInRankOrder(s, key, rank)
    ensures TiesInRankOrder(s[..i] + s[i + 1..], key, rank)
  {
    var rest := s[..i] + s[i + 1..];
    forall a, b | 0 <= a < b < |rest| && key(rest[a]) == key(rest[b])
      ensures rank(rest[a]) < rank(rest[b])
    {
      var a' := if a < i then a else a + 1;
      var b' := if b < i then b else b + 1;
      assert rest[a] == s[a'] && rest[b] == s[b'];
    }
  }

  /** An element of `s` without position `i` sits at another position of `s`. */
  lemma InRemoved<T>(s: seq<T>, i: nat, y: T) returns (m: nat)
    requires i < |s| && y in s[..i] + s[i + 1..]
    ensures m < |s| && m != i && s[m] == y
  {
    var rest := s[..i] + s[i + 1..];
    var a :| 0 <= a < |rest| && rest[a] == y;
    m := if a < i then a else a + 1;
  }

  /**
   * `SortDesc` keeps any tie order its input has: if equal-key elements of `s` are in
   * increasing `rank`, so are those of the result.
   */
  lemma {:induction false} SortDescKeepsTieOrder<T>(s: seq<T>, key: T -> real, rank: T -> int)
    requires TiesInRankOrder(s, key, rank)
    ensures TiesInRankOrder(SortDesc(s, key), key, rank)
    decreases |s|
  {
    if |s| > 0 {
      var i := FirstMaxIndex(s, key);
      var rest := s[..i] + s[i + 1..];
      TiesInRankOrderRemove(s, key, rank, i);
      SortDescKeepsTieOrder(rest, key, rank);
      SortDescStep(s, key);
      MaxFirstKeepsTieOrder(s, key, rank, i, SortDesc(rest, key));
    }
  }

  /** Putting the first maximum in front of a tie-ordered rearrangement of the rest keeps the tie order. */
  lemma MaxFirstKeepsTieOrder<T>(s: seq<T>, key: T -> real, rank: T -> int, i: nat, sorted: seq<T>)
    requires i < |s| && TiesInRankOrder(s, key, rank)
    requires forall j :: 0 <= j < i ==> key(s[j]) < key(s[i])
    requires multiset(sorted) == multiset(s[..i] + s[i + 1..])
    requires TiesInRankOrder(sorted, key, rank)
    ensures TiesInRankOrder([s[i]] + sorted, key, rank)
  {
    var r := [s[i]] + sorted;
    forall a, b | 0 <= a < b < |r| && key(r[a]) == key(r[b])
      ensures rank(r[a]) < rank(r[b])
    {
      if a == 0 {
        assert r[b] == sorted[b - 1];
        assert sorted[b - 1] in multiset(s[..i] + s[i + 1..]);
        var m := InRemoved(s, i, sorted[b - 1]);
        assert key(s[m]) == key(s[i]);
      } else {
        assert r[a] == sorted[a - 1] && r[b] == sorted[b - 1];
      }
    }
  }
}

=== FILE: strs.dfy ===
/** The handful of Python `str` operations the engine relies on, over `string == seq<char>`. */
module Strs {

  /** Python's `str.isspace()` for one character (the Unicode White_Space set Python uses). */
  predicate IsSpace(c: char) {
    var n := c as int;
    n == 0x20 || (0x09 <= n <= 0x0D) || (0x1C <= n <= 0x1F) || n == 0x85 || n == 0xA0
    || n == 0x1680 || (0x2000 <= n <= 0x200A) || n == 0x2028 || n == 0x2029
    || n == 0x202F || n == 0x205F || n == 0x3000
  }

  /** How many leading characters of `s` satisfy `strip` (what `s.lstrip(chars)` removes). */
  function LeadCount(s: string, strip: char -> bool): (n: nat)
    ensures n <= |s|
    ensures forall i :: 0 <= i < n ==> strip(s[i])
    ensures n < |s| ==> !strip(s[n])
  {
    if |s| > 0 && strip(s[0]) then 1 + LeadCount(s[1..], strip) else 0
  }

  /** How many trailing characters of `s` satisfy `strip` (what `s.rstrip(chars)` removes). */
  function TrailCount(s: string, strip: char -> bool): (n: nat)
    ensures n <= |s|
    ensures forall i :: |s| - n <= i < |s| ==> strip(s[i])
    ensures n < |s| ==> !strip(s[|s| - n - 1])
  {
    if |s| > 0 && strip(s[|s| - 1]) then 1 + TrailCount(s[..|s| - 1], strip) else 0
  }

  /** `s.strip(chars)`: the middle slice left after removing the leading and trailing stripped characters. */
  function StripBy(s: string, strip: char -> bool): (r: string)
    ensures |r| <= |s|
    ensures exists i :: OccursAt(s, r, i)
    ensures |r| > 0 ==> !strip(r[0]) && !strip(r[|r| - 1])
    ensures r == [] <==> forall i :: 0 <= i < |s| ==> strip(s[i])
  {
    var a := LeadCount(s, strip);
    var t := s[a..];
    var b := TrailCount(t, strip);
    var r := t[..|t| - b];
    assert OccursAt(s, r, a);
    assert a < |s| ==> !strip(t[0]);
    r
  }

  /** `s.strip()` */
  function Strip(s: string): (r: string)
    ensures |r| <= |s|
    ensures |r| > 0 ==> !IsSpace(r[0]) && !IsSpace(r[|r| - 1])
    ensures r == [] <==> forall i :: 0 <= i < |s| ==> IsSpace(s[i])
  {
    StripBy(s, IsSpace)
  }

  /** A string whose ends are not whitespace is its own `strip()`. */
  lemma StripUnchanged(s: string)
    requires |s| > 0 ==> !IsSpace(s[0]) && !IsSpace(s[|s| - 1])
    ensures Strip(s) == s
  {
    assert LeadCount(s, IsSpace) == 0;
    assert s[0..] == s;
    assert TrailCount(s, IsSpace) == 0;
  }

  function LowerChar(c: char): (d: char)
  {
    if 'A' <= c <= 'Z' then (c as int + 32) as char else c
  }

  function UpperChar(c: char): (d: char)
  {
    if 'a' <= c <= 'z' then (c as int - 32) as char else c
  }

  /** `s.lower()` on the ASCII letters. */
  function Lower(s: string): (r: string)
    ensures |r| == |s|
    ensures forall i :: 0 <= i < |s| ==> r[i] == LowerChar(s[i])
  {
    seq(|s|, i requires 0 <= i < |s| => LowerChar(s[i]))
  }

  /** `s.upper()` on the ASCII letters. */
  function Upper(s: string): (r: string)
    ensures |r| == |s|
    ensures forall i :: 0 <= i < |s| ==> r[i] == UpperChar(s[i])
  {
    seq(|s|, i requires 0 <= i < |s| => UpperChar(s[i]))
  }

  /** Text without lower-case ASCII letters is its own upper case. */
  lemma UpperFixed(s: string)
    requires forall i :: 0 <= i < |s| ==> !('a' <= s[i] <= 'z')
    ensures Upper(s) == s
  {
  }

  predicate StartsWith(s: string, prefix: string) {
    |prefix| <= |s| && s[..|prefix|] == prefix
  }

  predicate EndsWith(s: string, suffix: string) {
    |suffix| <= |s| && s[|s| - |suffix|..] == suffix
  }

  /** `needle` occurs in `hay` starting at offset `i`. */
  predicate OccursAt(hay: string, needle: string, i: int) {
    0 <= i <= |hay| - |needle| && hay[i..i + |needle|] == needle
  }

  /** Python's `needle in hay` on strings. */
  predicate Contains(hay: string, needle: string)
    decreases |hay|
  {
    StartsWith(hay, needle) || (|hay| > 0 && Contains(hay[1..], needle))
  }

  /** `needle in hay` holds exactly when `needle` occurs at some offset of `hay`. */
  lemma {:induction false} ContainsIffOccurs(hay: string, needle: string)
    ensures Contains(hay, needle) <==> exists i :: OccursAt(hay, needle, i)
    decreases |hay|
  {
    if StartsWith(hay, needle) {
      assert OccursAt(hay, needle, 0);
    } else if |hay| > 0 {
      ContainsIffOccurs(hay[1..], needle);
      if exists i :: OccursAt(hay, needle, i) {
        var i :| OccursAt(hay, needle, i);
        assert i != 0;
        assert OccursAt(hay[1..], needle, i - 1);
      }
      if Contains(hay[1..], needle) {
        var j :| OccursAt(hay[1..], needle, j);
        assert OccursAt(hay, needle, j + 1);
      }
    } else {
      assert forall i :: OccursAt(hay, needle, i) ==> i == 0;
    }
  }

  /** `s.split(sep)` for a one-character separator: never empty, and the pieces joined by `sep` give `s` back. */
  function Split(s: string, sep: char): (r: seq<string>)
    ensures |r| >= 1
    ensures forall k :: 0 <= k < |r| ==> sep !in r[k]
    ensures Join(r, sep) == s
  {
    if sep in s then
      var i := IndexOf(s, sep);
      var rest := Split(s[i + 1..], sep);
      assert s == s[..i] + [sep] + s[i + 1..];
      [s[..i]] + rest
    else
      [s]
  }

  /** Index of the first occurrence of `c` in `s`. */
  function IndexOf(s: string, c: char): (i: nat)
    requires c in s
    ensures i < |s| && s[i] == c && c !in s[..i]
  {
    if s[0] == c then 0 else IndexOf(s[1..], c) + 1
  }

  /** Splitting at the first separator: the piece before it, then the split of the rest. */
  lemma SplitAround(s: string, sep: char, front: string, back: string)
    requires s == front + [sep] + back && sep !in front
    ensures Split(s, sep) == [front] + Split(back, sep)
  {
    assert s[|front|] == sep;
    assert s[..|front|] == front && s[|front| + 1..] == back;
  }

  /** A separator in front of `t` only adds an empty first piece. */
  lemma SplitLeadingSep(t: string, sep: char)
    ensures Split([sep] + t, sep) == [""] + Split(t, sep)
  {
    SplitAround([sep] + t, sep, "", t);
  }

  /** A separator after `t` only adds an empty last piece. */
  lemma {:induction false} SplitTrailingSep(t: string, sep: char)
    ensures Split(t + [sep], sep) == Split(t, sep) + [""]
    decreases |t|
  {
    if sep in t {
      var i := IndexOf(t, sep);
      var front, back := t[..i], t[i + 1..];
      assert t == front + [sep] + back;
      SplitTrailingSep(back, sep);
      SplitTrailingSepStep(t, front, back, sep);
    } else {
      SplitAfterLastSep(t, sep);
    }
  }

  /** The inductive step of `SplitTrailingSep`: the piece before the first separator is shared. */
  lemma SplitTrailingSepStep(t: string, front: string, back: string, sep: char)
    requires t == front + [sep] + back && sep !in front
    requires Split(back + [sep], sep) == Split(back, sep) + [""]
    ensures Split(t + [sep], sep) == Split(t, sep) + [""]
  {
    var rest := Split(back, sep);
    var x := Split(t, sep);
    var y := Split(t + [sep], sep);
    assert x == [front] + rest by {
      SplitAround(t, sep, front, back);
    }
    assert y == [front] + (rest + [""]) by {
      assert t + [sep] == front + [sep] + (back + [sep]);
      SplitAround(t + [sep], sep, front, back + [sep]);
    }
    ConsSnoc(front, rest, "");
  }

  lemma ConsSnoc<T>(x: T, mid: seq<T>, y: T)
    ensures [x] + (mid + [y]) == ([x] + mid) + [y]
  {
  }

  /** With no separator in `t`, `t + [sep]` splits into `t` and an empty piece. */
  lemma SplitAfterLastSep(t: string, sep: char)
    requires sep !in t
    ensures Split(t + [sep], sep) == [t, ""]
  {
    assert t + [sep] == t + [sep] + "";
    SplitAround(t + [sep], sep, t, "");
  }

  /** `sep.join(pieces)` */
  function Join(pieces: seq<string>, sep: char): string
  {
    if |pieces| == 0 then ""
    else if |pieces| == 1 then pieces[0]
    else pieces[0] + [sep] + Join(pieces[1..], sep)
  }

  /** Decimal digits of a natural number, most significant first. */
  function NatToString(n: nat): (r: string)
    ensures |r| >= 1
    ensures forall i :: 0 <= i < |r| ==> '0' <= r[i] <= '9'
  {
    if n < 10 then [('0' as int + n) as char]
    else NatToString(n / 10) + [('0' as int + n % 10) as char]
  }

  /** `str(n)` for an `int`. */
  function IntToString(n: int): (r: string)
    ensures |r| >= 1
    ensures (r[0] == '-') <==> n < 0
  {
    if n < 0 then "-" + NatToString(-n) else NatToString(n)
  }

  /** Python's `<` on strings: lexicographic by code point, a proper prefix sorting first. */
  predicate StrLt(a: string, b: string)
    decreases |a|
  {
    if |a| == 0 then |b| > 0
    else if |b| == 0 then false
    else if a[0] != b[0] then a[0] < b[0]
    else StrLt(a[1..], b[1..])
  }

  lemma {:induction false} StrLtIrreflexive(a: string)
    ensures !StrLt(a, a)
    decreases |a|
  {
    if |a| > 0 {
      StrLtIrreflexive(a[1..]);
    }
  }

  lemma {:induction false} StrLtTransitive(a: string, b: string, c: string)
    requires StrLt(a, b) && StrLt(b, c)
    ensures StrLt(a, c)
    decreases |a|
  {
    if |a| > 0 && |b| > 0 && |c| > 0 && a[0] == b[0] && b[0] == c[0] {
      StrLtTransitive(a[1..], b[1..], c[1..]);
    }
  }

  /** Any two distinct strings are ordered one way or the other. */
  lemma {:induction false} StrLtTotal(a: string, b: string)
    requires a != b
    ensures StrLt(a, b) || StrLt(b, a)
    decreases |a|
  {
    if |a| > 0 && |b| > 0 && a[0] == b[0] {
      assert a == [a[0]] + a[1..] && b == [b[0]] + b[1..];
      StrLtTotal(a[1..], b[1..]);
    }
  }

  lemma {:induction false} StrLtAsymmetric(a: string, b: string)
    requires StrLt(a, b)
    ensures !StrLt(b, a)
    decreases |a|
  {
    if |a| > 0 && |b| > 0 && a[0] == b[0] {
      StrLtAsymmetric(a[1..], b[1..]);
    }
  }

  /** A string starts with anything it was built by extending. */
  lemma PrefixOfConcat(a: string, b: string)
    ensures StartsWith(a + b, a)
  {
    assert (a + b)[..|a|] == a;
  }
}

=== FILE: utils.dfy ===
/** Reference parsing: lenient list decoding and the market/event/category reference grammar. */
module RefParse {
  import opened Wrappers
  import opened JsonValues
  import opened Strs

  /** Replace every single quote by a double quote (`re.sub("'", '"', s)`). */
  function SingleToDoubleQuotes(s: string): (r: string)
    ensures |r| == |s|
    ensures '\'' !in r
    ensures forall i :: 0 <= i < |s| ==> r[i] == (if s[i] == '\'' then '"' else s[i])
  {
    seq(|s|, i requires 0 <= i < |s| => if s[i] == '\'' then '"' else s[i])
  }

  /** `v if isinstance(v, list) else None` */
  function ListOrNone(v: Option<Json>): Option<seq<Json>> {
    if v.Some? && v.value.JArr? then Some(v.value.items) else None
  }

  /**
   * `parse_jsonish_list(x)`: a list is itself; a string is decoded as JSON (`loads`
   * returns `None` where `json.loads` raises), retried with single quotes turned into
   * double quotes when the strict decode fails and the text is bracketed; anything
   * else, and any decode that is not a list, gives `None`.
   */
  function ParseJsonishList(x: Json, loads: string -> Option<Json>): (r: Option<seq<Json>>)
    ensures x.JArr? ==> r == Some(x.items)
    ensures !x.JArr? && !x.JStr? ==> r.None?
    ensures x.JStr? && Strip(x.s) == "" ==> r.None?
    ensures x.JStr? && Strip(x.s) != "" && loads(Strip(x.s)).Some? ==> r == ListOrNone(loads(Strip(x.s)))
    ensures r.Some? && x.JStr? ==>
              loads(Strip(x.s)) == Some(JArr(r.value)) || loads(SingleToDoubleQuotes(Strip(x.s))) == Some(JArr(r.value))
    ensures r.Some? && x.JStr? && loads(Strip(x.s)).None? ==> StartsWith(Strip(x.s), "[") && EndsWith(Strip(x.s), "]")
    ensures x.JStr? && Strip(x.s) != "" && loads(Strip(x.s)).None? ==>
              r == (if StartsWith(Strip(x.s), "[") && EndsWith(Strip(x.s), "]")
                    then ListOrNone(loads(SingleToDoubleQuotes(Strip(x.s))))
                    else None)
  {
    match x
    case JArr(items) => Some(items)
    case JStr(raw) =>
      var s := Strip(raw);
      if s == "" then None
      else
        var v := loads(s);
        if v.Some? then ListOrNone(v)
        else if StartsWith(s, "[") && EndsWith(s, "]") then ListOrNone(loads(SingleToDoubleQuotes(s)))
        else None
    case _ => None
  }

  /** The three kinds of reference. */
  datatype RefKind = MarketRef | EventRef | CategoryRef

  /** `(kind, slug_or_ref)` */
  datatype Ref = Ref(kind: RefKind, slug: string)

  /** The two fields of `urlparse(s)` the parser reads; empty when absent. */
  datatype UrlParts = UrlParts(netloc: string, path: string)

  /** The explicit short-form prefix of each kind. */
  function KindPrefix(k: RefKind): (p: string)
    ensures Lower(p) == p && |p| > 0 && p[|p| - 1] == ':'
  {
    match k
    case MarketRef => "market:"
    case EventRef => "event:"
    case CategoryRef => "category:"
  }

  /** The kind whose prefix `lowered` starts with, tried in the order market, event, category. */
  function PrefixKind(lowered: string): (k: Option<RefKind>)
    ensures k.Some? ==> StartsWith(lowered, KindPrefix(k.value))
    ensures k.None? ==> forall kind :: !StartsWith(lowered, KindPrefix(kind))
  {
    if StartsWith(lowered, "market:") then Some(MarketRef)
    else if StartsWith(lowered, "event:") then Some(EventRef)
    else if StartsWith(lowered, "category:") then Some(CategoryRef)
    else None
  }

  /** `[p for p in parts if p]` */
  function NonEmpty(parts: seq<string>): (r: seq<string>)
    ensures forall i :: 0 <= i < |r| ==> r[i] != "" && r[i] in parts
    ensures forall i :: 0 <= i < |parts| && parts[i] != "" ==> parts[i] in r
  {
    if |parts| == 0 then []
    else if parts[0] == "" then NonEmpty(parts[1..])
    else [parts[0]] + NonEmpty(parts[1..])
  }

  predicate IsSlash(c: char) {
    c == '/'
  }

  /** Dropping empty pieces distributes over concatenation. */
  lemma {:induction false} NonEmptyAppend(a: seq<string>, b: seq<string>)
    ensures NonEmpty(a + b) == NonEmpty(a) + NonEmpty(b)
  {
    if |a| > 0 {
      assert (a + b)[1..] == a[1..] + b;
      NonEmptyAppend(a[1..], b);
    } else {
      assert a + b == b;
    }
  }

  /** One leading slash only adds an empty piece. */
  lemma DropOneLeadingSlash(q: string)
    ensures NonEmpty(Split(['/'] + q, '/')) == NonEmpty(Split(q, '/'))
  {
    SplitLeadingSep(q, '/');
    var pieces := [""] + Split(q, '/');
    assert pieces[1..] == Split(q, '/');
  }

  /** One trailing slash only adds an empty piece. */
  lemma DropOneTrailingSlash(q: string)
    ensures NonEmpty(Split(q + ['/'], '/')) == NonEmpty(Split(q, '/'))
  {
    SplitTrailingSep(q, '/');
    NonEmptyAppend(Split(q, '/'), [""]);
    assert NonEmpty([""]) == [];
    assert NonEmpty(Split(q, '/')) + [] == NonEmpty(Split(q, '/'));
  }

  /** Leading slashes only add empty pieces. */
  lemma {:induction false} DropLeadingSlashes(p: string, n: nat)
    requires n <= |p| && forall i :: 0 <= i < n ==> IsSlash(p[i])
    ensures NonEmpty(Split(p[n..], '/')) == NonEmpty(Split(p, '/'))
  {
    if n > 0 {
      var q, q' := p[n..], p[n - 1..];
      assert q' == ['/'] + q by {
        assert IsSlash(p[n - 1]);
      }
      assert NonEmpty(Split(q', '/')) == NonEmpty(Split(q, '/')) by {
        DropOneLeadingSlash(q);
      }
      DropLeadingSlashes(p, n - 1);
    }
  }

  /** Trailing slashes only add empty pieces. */
  lemma {:induction false} DropTrailingSlashes(p: string, n: nat)
    requires n <= |p| && forall i :: |p| - n <= i < |p| ==> IsSlash(p[i])
    ensures NonEmpty(Split(p[..|p| - n], '/')) == NonEmpty(Split(p, '/'))
  {
    if n > 0 {
      var q, q' := p[..|p| - n], p[..|p| - (n - 1)];
      assert q' == q + ['/'] by {
        assert IsSlash(p[|p| - n]);
      }
      assert NonEmpty(Split(q', '/')) == NonEmpty(Split(q, '/')) by {
        DropOneTrailingSlash(q);
      }
      DropTrailingSlashes(p, n - 1);
    } else {
      assert p[..|p|] == p;
    }
  }

  /** `path.strip("/")` before splitting changes nothing once the empty pieces are dropped. */
  lemma StripThenSplit(path: string)
    ensures NonEmpty(Split(StripBy(path, IsSlash), '/')) == NonEmpty(Split(path, '/'))
  {
    var a := LeadCount(path, IsSlash);
    var t := path[a..];
    var b := TrailCount(t, IsSlash);
    assert StripBy(path, IsSlash) == t[..|t| - b];
    DropLeadingSlashes(path, a);
    DropTrailingSlashes(t, b);
  }

  /**
   * The path segments of a polymarket URL: the path stripped of slashes, split on `/`,
   * empties dropped. Stripping first changes nothing: the segments are exactly the
   * non-empty pieces of the raw path, in order.
   */
  function PathSegments(path: string): (parts: seq<string>)
    ensures parts == NonEmpty(Split(path, '/'))
    ensures forall i :: 0 <= i < |parts| ==> parts[i] != "" && '/' !in parts[i]
  {
    StripThenSplit(path);
    NonEmpty(Split(StripBy(path, IsSlash), '/'))
  }

  /** The reference a polymarket.com URL's path segments name, if any. */
  function UrlRef(parts: seq<string>): (r: Option<Ref>)
    ensures |parts| >= 2 && Lower(parts[0]) == "market" ==> r == Some(Ref(MarketRef, parts[1]))
    ensures |parts| >= 2 && Lower(parts[0]) == "event" ==> r == Some(Ref(EventRef, parts[1]))
    ensures |parts| == 1 ==> r == Some(Ref(CategoryRef, parts[0]))
    ensures r.None? <==> |parts| == 0 || (|parts| >= 2 && Lower(parts[0]) != "market" && Lower(parts[0]) != "event")
    ensures r.Some? ==> r.value.slug in parts
  {
    if |parts| >= 2 && Lower(parts[0]) == "market" then Some(Ref(MarketRef, parts[1]))
    else if |parts| >= 2 && Lower(parts[0]) == "event" then Some(Ref(EventRef, parts[1]))
    else if |parts| == 1 then Some(Ref(CategoryRef, parts[0]))
    else None
  }

  /**
   * `parse_polymarket_ref(ref)`: a blank reference is an error; an explicit prefix
   * (any letter case) wins; then a polymarket.com URL's path; otherwise the stripped
   * text is a market slug. `urlparse` stands for `urllib.parse.urlparse`.
   */
  function ParsePolymarketRef(ref: string, urlparse: string -> UrlParts): (r: Result<Ref, string>)
    ensures r.Err? <==> Strip(ref) == ""
    ensures r.Ok? && PrefixKind(Lower(Strip(ref))).Some? ==>
              r.value.kind == PrefixKind(Lower(Strip(ref))).value
              && r.value.slug == Strip(Strip(ref)[|KindPrefix(r.value.kind)|..])
    ensures r.Ok? && PrefixKind(Lower(Strip(ref))).None? && !Contains(Strip(ref), "://") ==>
              r.value == Ref(MarketRef, Strip(ref))
    ensures r.Ok? && PrefixKind(Lower(Strip(ref))).None? && Contains(Strip(ref), "://")
              && !EndsWith(Lower(urlparse(Strip(ref)).netloc), "polymarket.com") ==>
              r.value == Ref(MarketRef, Strip(ref))
    ensures PrefixKind(Lower(Strip(ref))).None? && Contains(Strip(ref), "://")
            && EndsWith(Lower(urlparse(Strip(ref)).netloc), "polymarket.com") ==>
              var found := UrlRef(NonEmpty(Split(urlparse(Strip(ref)).path, '/')));
              r == Ok(if found.Some? then found.value else Ref(MarketRef, Strip(ref)))
    ensures r.Ok? && PrefixKind(Lower(Strip(ref))).None? && r.value.kind != MarketRef ==>
              '/' !in r.value.slug && r.value.slug != ""
  {
    var s := Strip(ref);
    if s == "" then Err("Empty polymarket reference")
    else
      var lowered := Lower(s);
      var pk := PrefixKind(lowered);
      if pk.Some? then Ok(Ref(pk.value, Strip(s[|KindPrefix(pk.value)|..])))
      else if Contains(s, "://") then
        var u := urlparse(s);
        if EndsWith(Lower(u.netloc), "polymarket.com") then
          var found := UrlRef(PathSegments(u.path));
          if found.Some? then Ok(found.value) else Ok(Ref(MarketRef, s))
        else Ok(Ref(MarketRef, s))
      else Ok(Ref(MarketRef, s))
  }

  /** `parse_polymarket_ref_slug_only(ref)` (alias `parse_market_slug`). */
  function SlugOnly(ref: string, urlparse: string -> UrlParts): (r: Result<string, string>)
    ensures r.Err? <==> Strip(ref) == ""
    ensures r.Ok? ==> r.value == ParsePolymarketRef(ref, urlparse).value.slug
  {
    var parsed :- ParsePolymarketRef(ref, urlparse);
    Ok(parsed.slug)
  }

  /** The short form of a reference, `<kind>:<slug>`. */
  function Render(r: Ref): string {
    KindPrefix(r.kind) + r.slug
  }

  /** Lower-casing a string that starts with an already lower-case prefix keeps that prefix. */
  lemma LowerKeepsPrefix(p: string, rest: string)
    requires Lower(p) == p
    ensures StartsWith(Lower(p + rest), p)
  {
    assert Lower(p + rest)[..|p|] == Lower(p);
  }

  /** A rendered reference is recognised by its own prefix. */
  lemma PrefixKindOfRender(k: RefKind, slug: string)
    ensures PrefixKind(Lower(KindPrefix(k) + slug)) == Some(k)
  {
    var p := KindPrefix(k);
    var lowered := Lower(p + slug);
    LowerKeepsPrefix(p, slug);
    assert lowered[0] == p[0];
    if k == EventRef {
      assert !StartsWith(lowered, "market:") by {
        assert lowered[0] != "market:"[0];
      }
    } else if k == CategoryRef {
      assert !StartsWith(lowered, "market:") by {
        assert lowered[0] != "market:"[0];
      }
      assert !StartsWith(lowered, "event:") by {
        assert lowered[0] != "event:"[0];
      }
    }
  }

  /** A rendered reference with a stripped slug is already stripped. */
  lemma RenderStripped(r: Ref)
    requires Strip(r.slug) == r.slug
    ensures Strip(Render(r)) == Render(r)
  {
    var p := KindPrefix(r.kind);
    var s := Render(r);
    assert s[0] == p[0];
    assert !IsSpace(s[|s| - 1]) by {
      if |r.slug| > 0 {
        assert s[|s| - 1] == r.slug[|r.slug| - 1];
      } else {
        assert s == p;
      }
    }
    StripUnchanged(s);
  }

  /** The short form of a reference with a stripped slug parses back to that reference. */
  lemma RenderRoundTrip(r: Ref, urlparse: string -> UrlParts)
    requires Strip(r.slug) == r.slug
    ensures ParsePolymarketRef(Render(r), urlparse) == Ok(r)
  {
    var s := Render(r);
    RenderStripped(r);
    PrefixKindOfRender(r.kind, r.slug);
    assert s[|KindPrefix(r.kind)|..] == r.slug;
  }

  lemma StripSlashesOfEventPath(slug: string)
    requires slug != "" && '/' !in slug
    ensures StripBy("/event/" + slug, IsSlash) == "event/" + slug
  {
    var path := "/event/" + slug;
    var body := "event/" + slug;
    assert path[1..] == body;
    assert LeadCount(body, IsSlash) == 0;
    assert LeadCount(path, IsSlash) == 1;
    assert body[|body| - 1] == slug[|slug| - 1];
    assert slug[|slug| - 1] in slug;
    assert TrailCount(body, IsSlash) == 0;
    assert body[..|body| - 0] == body;
  }

  lemma SplitEventBody(slug: string)
    requires slug != "" && '/' !in slug
    ensures Split("event/" + slug, '/') == ["event", slug]
  {
    var body := "event/" + slug;
    assert body[5] == '/';
    assert '/' !in body[..5];
    assert IndexOf(body, '/') == 5;
    assert body[6..] == slug;
    assert body[..5] == "event";
  }

  /** The path `/event/<slug>` has the two segments `event` and `<slug>`. */
  lemma EventPathSegments(slug: string)
    requires slug != "" && '/' !in slug
    ensures PathSegments("/event/" + slug) == ["event", slug]
  {
    StripSlashesOfEventPath(slug);
    SplitEventBody(slug);
    var parts := ["event", slug];
    assert parts[1..] == [slug];
    assert [slug][1..] == [];
    assert NonEmpty([slug]) == [slug];
    assert NonEmpty(parts) == [parts[0]] + NonEmpty(parts[1..]);
  }

  lemma UrlRefEvent(slug: string)
    ensures UrlRef(["event", slug]) == Some(Ref(EventRef, slug))
  {
    var parts := ["event", slug];
    assert Lower(parts[0]) == "event";
    assert Lower(parts[0]) != "market" by {
      assert Lower(parts[0])[0] != "market"[0];
    }
  }

  /** `https://polymarket.com/event/<slug>` (any host ending in polymarket.com) names the event `<slug>`. */
  lemma EventUrl(url: string, host: string, slug: string, urlparse: string -> UrlParts)
    requires url != "" && Strip(url) == url && Contains(url, "://") && PrefixKind(Lower(url)) == None
    requires urlparse(url) == UrlParts(host, "/event/" + slug)
    requires EndsWith(Lower(host), "polymarket.com")
    requires slug != "" && '/' !in slug
    ensures ParsePolymarketRef(url, urlparse) == Ok(Ref(EventRef, slug))
  {
    EventPathSegments(slug);
    UrlRefEvent(slug);
  }
}

=== FILE: wrappers.dfy ===
/** Failure-compatible wrappers shared by every module of the model. */
module Wrappers {

  /** Python's `Optional[T]`: a value or `None`. */
  datatype Option<+T> = None | Some(value: T) {

    /** The wrapped value, or `default` for `None` (the `x if x is not None else d` idiom). */
    function GetOr(default: T): T {
      match this
      case Some(v) => v
      case None => default
    }
  }

  /** A computation that either produces a value or raises an exception. */
  datatype Result<+T, +E> = Ok(value: T) | Err(error: E) {

    predicate IsFailure() {
      Err?
    }

    function PropagateFailure<U>(): Result<U, E>
      requires Err?
    {
      Err(error)
    }

    function Extract(): T
      requires Ok?
    {
      value
    }
  }
}
